=== FILE: README.md ===
# langchainagent core, modelled in Dafny

This project models the deterministic core of the langchainagent tutorial services (Java, Spring, LangChain4j). It states and proves properties of that core. The parts modelled are:

- **The ReAct agent** of the tools service (`react_agent.dfy`, `tool_directives.dfy`, `tool_dispatch.dfy`).
  - A task adds the user turn to a twenty-message session window and asks the chat model.
  - While the reply contains `TOOL_CALL:` and fewer than five rounds have run, every `TOOL_CALL: name(k=v, ...)` directive is found left to right and executed.
    - The finder follows the pattern `TOOL_CALL:\s*(\w+)\(([^)]+)\)` and `Matcher.find`.
    - Execution parses the parameters with Java `split`/`trim` semantics, dispatches on the eight tool names, posts to the tool endpoint and reads the reply by key priority.
  - The results go back to the model as a user message. A round in which nothing succeeds ends the loop.
- **The tools** (`calculator_tools.dfy`, `weather_tool.dfy`):
  - the six temperature conversions and the arithmetic tool, over `real`, with their guards;
  - the simulated weather, with its 1..7-day check and its output shape.
- **RAG answer assembly** (`rag_service.dfy`):
  - a fixed search (5 matches, score at least 0.7);
  - the refusal sentinel when nothing matches;
  - the context joined by blank lines and the fixed prompt;
  - sources parallel to the matches;
  - every failure wrapped in one `RuntimeException`.
- **Per-session memory** (`chat_memory.dfy`, `conversation_service.dfy`, `prompt_sessions.dfy`, and the sessions of `react_agent.dfy`).
  - Memory is the library's message window: append, then evict the oldest message other than a leading system message.
  - The services serialise it as `User: `/`Assistant: ` lines or as `System: `/`User: `/`Assistant: ` blocks.
  - The prompt service adds its guidelines as a system message on a session's first turn.
- **Request validation**:
  - the validating record constructors (`request_records.dfy`);
  - the three controllers (`agent_controller.dfy`, `conversation_controller.dfy`, `rag_controller.dfy`), including the order of their checks and their status mapping.

Java details that matter are written out in `java_lang.dfy`:

- `String.isBlank` (`Character.isWhitespace`) versus `trim().isEmpty()` (characters at or below U+0020);
- `split` with its trailing-empty rule;
- `length()` in UTF-16 units;
- `"..." + null` giving `"null"`;
- exceptions whose message may be null.

A nullable Java reference is an `Option`. A call that may throw returns a `Result`.

Everything outside the process is a parameter of the functions that use it:

- the chat model, called with its call number so that successive calls can differ;
- the embedding model and the vector store;
- the tool HTTP endpoint;
- `Integer.parseInt` and `Double.parseDouble`;
- `HashMap.toString`;
- `Math.sqrt`;
- the random draws of the weather tool;
- fresh UUIDs;
- the agent service behind the agents controller.

The fixed prompt texts of the agent and of the prompt service are kept as constants (`ReactAgent.SystemPrompt`, `PromptSessions.Guidelines`). The functions take that text as a parameter, which the services fix to those constants.

## Model

| member | source | states |
|---|---|---|
| JavaLang.Trim | 04-tools/src/main/java/com/example/langchain4j/agents/service/AgentService.java:332 | trim removes exactly the characters at or below U+0020 from both ends; what is left is a contiguous slice of the input that starts and ends with a kept character, and it is empty exactly when every character is trimmable |
| JavaLang.BlankAndTrimDisagree | 05-agents/src/main/java/com/example/langchain4j/agents/app/AgentController.java:67 | the controllers' trim().isEmpty() and the records' isBlank() are different tests: a NUL character is trimmed but is not whitespace, and an ideographic space is whitespace but survives trim |
| JavaLang.BlankAgreesWithTrimOnAscii | 03-agents-tools/src/main/java/dev/rory/azure/langchain4j/agents/model/dto/AgentRequest.java:12 | on printable ASCII text plus the ASCII whitespace characters, the record check isBlank and the controller check trim().isEmpty() accept and reject the same strings |
| JavaLang.Split | 04-tools/src/main/java/com/example/langchain4j/agents/service/AgentService.java:330-332 | split on one character: no piece holds the separator; without a separator the result is the whole string, even an empty one; otherwise trailing empty pieces are dropped |
| JavaLang.SplitThenJoin | 04-tools/src/main/java/com/example/langchain4j/agents/service/AgentService.java:330 | joining the pieces of a split with the separator gives back the input except for a tail made only of separators |
| JavaLang.ContainsIff | 04-tools/src/main/java/com/example/langchain4j/agents/service/AgentService.java:182-184 | contains holds exactly when the searched text occurs at some position |
| JavaLang.RemoveChar | 04-tools/src/main/java/com/example/langchain4j/agents/service/AgentService.java:334 | replacing every double quote by nothing leaves no quote, never lengthens the text, adds no character, and changes nothing when there was no quote |
| JavaLang.RemoveCharAppend | 04-tools/src/main/java/com/example/langchain4j/agents/service/AgentService.java:334 | removal works piecewise on a concatenation, so every character other than the double quote survives, in its order |
| JavaLang.RemoveCharSingle | 04-tools/src/main/java/com/example/langchain4j/agents/service/AgentService.java:334 | a single character is dropped exactly when it is the removed one, and kept otherwise |
| JavaLang.RemoveCharKeepsOthers | 04-tools/src/main/java/com/example/langchain4j/agents/service/AgentService.java:334 | every other character occurs as often after the removal as before |
| JavaLang.TrimUnique | 04-tools/src/main/java/com/example/langchain4j/agents/service/AgentService.java:332-334 | trim yields exactly the slice whose ends are not trimmable and outside which everything is trimmable |
| JavaLang.SplitOneSeparator | 04-tools/src/main/java/com/example/langchain4j/agents/service/AgentService.java:332-333 | splitting at the one separator of x=y gives [x, y]; an empty y is dropped, and then an empty x too, as the trailing-empty rule of split says |
| JavaLang.Utf16Length | 05-agents/src/main/java/com/example/langchain4j/agents/app/AgentController.java:73 | length() counts UTF-16 code units: between one and two per character, exactly one per character when none is supplementary |
| JavaLang.DecimalRoundTrip | 03-agents-tools/src/main/java/dev/rory/azure/langchain4j/agents/tools/WeatherTool.java:36 | the %d rendering of a non-negative number is a digit string that reads back as the same number |
| ChatMemory.Evict | 04-tools/src/main/java/com/example/langchain4j/agents/service/AgentService.java:72 | the window shrinks to its capacity when over it and otherwise keeps its length |
| ChatMemory.EvictKeepsNewest | 01-getting-started/src/main/java/dev/rory/azure/langchain4j/service/ConversationService.java:54-59 | without a system message, eviction keeps exactly the newest capacity-many messages in order |
| ChatMemory.EvictKeepsSystemAndNewest | 02-prompt-engineering/src/main/java/com/example/langchain4j/prompts/service/Gpt5PromptService.java:210-246 | with a leading system message, eviction keeps that message and the newest capacity-1 other messages |
| ChatMemory.EvictIsRetained | 02-prompt-engineering/src/main/java/com/example/langchain4j/prompts/service/Gpt5PromptService.java:210-246 | eviction agrees with the closed-form description of what a window retains, for every list with at most a leading system message |
| ChatMemory.Add | 01-getting-started/src/main/java/dev/rory/azure/langchain4j/service/ConversationService.java:58-59 | adding a message keeps the capacity, gives length min(capacity, old length + 1), and below capacity is a plain append |
| ChatMemory.AddRetains | 02-prompt-engineering/src/main/java/com/example/langchain4j/prompts/service/Gpt5PromptService.java:242-252 | every add the services make keeps the window valid, keeps a leading system message in front, keeps the newest messages, and for capacity two or more ends with the message just added |
| ChatMemory.RetainedOfRetained | 02-prompt-engineering/src/main/java/com/example/langchain4j/prompts/service/Gpt5PromptService.java:246-252 | retaining, appending an ordinary message and retaining again is the same as retaining once after the append |
| ChatMemory.AddTwiceRetains | 02-prompt-engineering/src/main/java/com/example/langchain4j/prompts/service/Gpt5PromptService.java:246-252 | two ordinary adds to a valid window keep what the window retains of the history followed by both messages, in order |
| ChatMemory.LastTwoRetained | 02-prompt-engineering/src/main/java/com/example/langchain4j/prompts/service/Gpt5PromptService.java:246-252 | a window of three or more keeps the last two messages of a history in place, newest last |
| ChatMemory.AddAllKeepsNewest | 01-getting-started/src/main/java/dev/rory/azure/langchain4j/service/ConversationService.java:52-79 | a run of user and assistant adds leaves exactly the newest capacity-many messages of everything added, in order |
| ChatMemory.OverflowByOneDropsFirst | 01-getting-started/src/main/java/dev/rory/azure/langchain4j/service/ConversationService.java:25 | a window of capacity c given c+1 ordinary messages holds c messages and has lost only the first one |
| ChatMemory.NewestOfNewest | 01-getting-started/src/main/java/dev/rory/azure/langchain4j/service/ConversationService.java:52-79 | keeping the newest c elements, appending, and keeping the newest c again equals keeping the newest c of the whole |
| ChatMemory.TranscriptSnoc | 01-getting-started/src/main/java/dev/rory/azure/langchain4j/service/ConversationService.java:65-72 | rendering a memory message by message grows by exactly the rendering of an appended message |
| ChatMemory.AddedMessageRendersLast | 04-tools/src/main/java/com/example/langchain4j/agents/service/AgentService.java:167-177 | after an add to a window of capacity two or more, the rendered context ends with the new message, after the rendering of the messages kept before it |
| ChatMemory.AddKeepsNoSystem | 01-getting-started/src/main/java/dev/rory/azure/langchain4j/service/ConversationService.java:58-79 | adding a user or assistant message to a window within capacity and without system messages keeps both properties |
| ToolDirectives.RunEnd | 04-tools/src/main/java/com/example/langchain4j/agents/service/AgentService.java:199 | a maximal run of one character class starts where asked and ends within the text |
| ToolDirectives.RunEndMaximal | 04-tools/src/main/java/com/example/langchain4j/agents/service/AgentService.java:199 | the run consists only of class characters and stops at the first character outside the class or at the end |
| ToolDirectives.RunEndUnique | 04-tools/src/main/java/com/example/langchain4j/agents/service/AgentService.java:199 | any span that is all class characters and stops at a non-class character or the end is the maximal run |
| ToolDirectives.MatchAt | 04-tools/src/main/java/com/example/langchain4j/agents/service/AgentService.java:199 | a match found at a position starts there and ends after it, within the text |
| ToolDirectives.MatchAtSound | 04-tools/src/main/java/com/example/langchain4j/agents/service/AgentService.java:199 | every reported match spells out the pattern TOOL_CALL:, whitespace, a word-character name, (, non-empty text without ), then ) |
| ToolDirectives.MatchAtComplete | 04-tools/src/main/java/com/example/langchain4j/agents/service/AgentService.java:199 | every way the pattern can match at a position is the one reported there, so the scan misses no match and has no alternative decomposition |
| ToolDirectives.FindAll | 04-tools/src/main/java/com/example/langchain4j/agents/service/AgentService.java:199-205 | every directive found is a genuine match at its start position, within the scanned part of the text |
| ToolDirectives.FindAllOrdered | 04-tools/src/main/java/com/example/langchain4j/agents/service/AgentService.java:205 | directives are reported left to right and never overlap |
| ToolDirectives.FindAllSkipsNothing | 04-tools/src/main/java/com/example/langchain4j/agents/service/AgentService.java:205 | no match of the pattern starts in a gap between reported directives, so find() skips no directive |
| ToolDirectives.DirectiveImpliesMarker | 04-tools/src/main/java/com/example/langchain4j/agents/service/AgentService.java:182-184 | a reply with any parsable directive contains the marker, so the loop test never misses a parsable directive |
| ToolDirectives.FindAllWithoutMarker | 04-tools/src/main/java/com/example/langchain4j/agents/service/AgentService.java:199-205 | a text without the marker has no directive |
| ToolDirectives.MarkerWithoutDirective | 04-tools/src/main/java/com/example/langchain4j/agents/service/AgentService.java:195-205 | the marker alone is not a directive: TOOL_CALL: f() passes the loop test and yields no match, since the parameters must be non-empty |
| ToolDirectives.CollectLastWins | 04-tools/src/main/java/com/example/langchain4j/agents/service/AgentService.java:331-336 | a key is in the parsed map exactly when some kept pair carries it, and its value is that of the last such pair |
| ToolDirectives.PairOfClean | 04-tools/src/main/java/com/example/langchain4j/agents/service/AgentService.java:332-334 | a pair cut from a comma-free piece has a trimmed key without comma or =, and a value without comma, = or double quote |
| ToolDirectives.PairsClean | 04-tools/src/main/java/com/example/langchain4j/agents/service/AgentService.java:331-335 | every pair kept from a parameter text has a trimmed key without comma or =, and a value without comma, = or double quote |
| ToolDirectives.CollectClean | 04-tools/src/main/java/com/example/langchain4j/agents/service/AgentService.java:333-336 | putting only such pairs into the map leaves only such entries, whichever pair wins for a key |
| ToolDirectives.ParseParams | 04-tools/src/main/java/com/example/langchain4j/agents/service/AgentService.java:328-338 | every parsed key is trimmed and free of commas and =; every value is free of commas, = and double quotes (which pieces are kept and which value wins are stated by the rows below) |
| ToolDirectives.SinglePiece | 04-tools/src/main/java/com/example/langchain4j/agents/service/AgentService.java:328-338 | a comma-free parameter text parses to its one pair, or to the empty map when the piece is dropped |
| ToolDirectives.DanglingPieceDropped | 04-tools/src/main/java/com/example/langchain4j/agents/service/AgentService.java:332-333 | a piece "k=" splits into fewer than two parts and is dropped |
| ToolDirectives.LeadingEqualsKept | 04-tools/src/main/java/com/example/langchain4j/agents/service/AgentService.java:332-334 | a piece "=v" splits into an empty key and v, and is kept under the key "" |
| ToolDirectives.KeyWithoutValueDropped | 04-tools/src/main/java/com/example/langchain4j/agents/service/AgentService.java:328-338 | "k=" with no value parses to the empty map |
| ToolDirectives.EmptyKeyKept | 04-tools/src/main/java/com/example/langchain4j/agents/service/AgentService.java:328-338 | "=v" parses to the single entry "" mapped to v trimmed and unquoted, when v does not trim to nothing |
| ToolDirectives.ParseParamsLastWins | 04-tools/src/main/java/com/example/langchain4j/agents/service/AgentService.java:328-338 | a key is in the parsed map exactly when some comma-separated piece is kept with that key, and its value is that of the last such piece: a later duplicate overwrites an earlier one |
| ToolDispatch.ToolFromName | 04-tools/src/main/java/com/example/langchain4j/agents/service/AgentService.java:255-289 | a name selects a tool only when it is that tool's exact, case-sensitive name; any other name selects none |
| ToolDispatch.WireNameInjective | 04-tools/src/main/java/com/example/langchain4j/agents/service/AgentService.java:255-289 | no two tools share a name |
| ToolDispatch.NameRoundTrip | 04-tools/src/main/java/com/example/langchain4j/agents/service/AgentService.java:255-289 | each tool's name selects that tool |
| ToolDispatch.KnownNames | 04-tools/src/main/java/com/example/langchain4j/agents/service/AgentService.java:255-289 | the switch accepts exactly the eight tool names |
| ToolDispatch.AvailableTools | 04-tools/src/main/java/com/example/langchain4j/agents/service/AgentService.java:355-366 | the advertised list has one entry per tool |
| ToolDispatch.AvailableEntryDispatches | 04-tools/src/main/java/com/example/langchain4j/agents/service/AgentService.java:355-366 | entry i starts with a name that the dispatch switch maps back to tool i |
| ToolDispatch.AllToolsListsEachOnce | 04-tools/src/main/java/com/example/langchain4j/agents/service/AgentService.java:355-366 | the list of tools covers every tool exactly once |
| ToolDispatch.RequestBody | 04-tools/src/main/java/com/example/langchain4j/agents/service/AgentService.java:251-290 | the weather tools send the location as given, null when missing; the forecast also sends the day count that Integer.parseInt gave; a temperature tool sends, under its own key, the number that Double.parseDouble gave for that key; the body fails exactly when the parse it needs fails |
| ToolDispatch.FirstKey | 04-tools/src/main/java/com/example/langchain4j/agents/service/AgentService.java:303-319 | the key chosen is the first of error, description, forecast, result present in the reply, and none is chosen only when all are absent |
| ToolDispatch.Interpret | 04-tools/src/main/java/com/example/langchain4j/agents/service/AgentService.java:298-322 | a missing reply reads as "No response from tool"; an error entry gives "Error: " and the value; a description or forecast entry is cast to String, failing with a ClassCastException when it is not one; a result entry gives its string value; with none of the four keys the whole map is rendered; the only exception is a failed cast |
| ToolDispatch.InterpretByFirstKey | 04-tools/src/main/java/com/example/langchain4j/agents/service/AgentService.java:302-322 | only the highest-priority key present decides the answer: replies that agree on it read the same |
| ToolDispatch.ExecuteToolByName | 04-tools/src/main/java/com/example/langchain4j/agents/service/AgentService.java:250-323 | a call makes at most one request, and makes one exactly when the name is known and the body could be built; an unknown name fails with "Unknown tool: " and the name, before any request; a parse exception while building the body propagates with no request; a failed POST propagates its exception; otherwise the answer is the reply read by the error/description/forecast/result rules |
| ToolDispatch.UnknownToolTouchesNothing | 04-tools/src/main/java/com/example/langchain4j/agents/service/AgentService.java:289 | an unknown name fails the same way whatever the parsers and the endpoint would do |
| ToolDispatch.ErrorReplyIsAnswer | 04-tools/src/main/java/com/example/langchain4j/agents/service/AgentService.java:303-305 | a reply with an error key is a successful tool answer "Error: ..." rather than an exception |
| TemperatureTool.CelsiusToFahrenheit | 04-tools/src/main/java/com/example/langchain4j/agents/tools/CalculatorTool.java:22-26 | the Fahrenheit value, which the inverse formula maps back to the Celsius input |
| TemperatureTool.FahrenheitToCelsius | 04-tools/src/main/java/com/example/langchain4j/agents/tools/CalculatorTool.java:32-36 | the Celsius value, which the inverse formula maps back to the Fahrenheit input |
| TemperatureTool.CelsiusToKelvin | 04-tools/src/main/java/com/example/langchain4j/agents/tools/CalculatorTool.java:42-46 | the input plus 273.15, accepted without a range check; non-negative exactly from -273.15 on |
| TemperatureTool.FahrenheitToKelvin | 04-tools/src/main/java/com/example/langchain4j/agents/tools/CalculatorTool.java:65-69 | the Kelvin value, accepted without a range check, which the inverse formula maps back to the Fahrenheit input |
| TemperatureTool.KelvinToCelsius | 04-tools/src/main/java/com/example/langchain4j/agents/tools/CalculatorTool.java:52-59 | fails exactly below 0 K, with the absolute-zero IllegalArgumentException; otherwise converting the result back to Kelvin gives the input |
| TemperatureTool.KelvinToFahrenheit | 04-tools/src/main/java/com/example/langchain4j/agents/tools/CalculatorTool.java:75-82 | fails exactly below 0 K, with the absolute-zero IllegalArgumentException; otherwise converting the result back to Kelvin gives the input |
| TemperatureTool.FahrenheitCelsiusRoundTrip | 04-tools/src/main/java/com/example/langchain4j/agents/tools/CalculatorTool.java:22-36 | Celsius to Fahrenheit and Fahrenheit to Celsius are inverse to each other |
| TemperatureTool.KelvinCelsiusRoundTrip | 04-tools/src/main/java/com/example/langchain4j/agents/tools/CalculatorTool.java:42-59 | Celsius to Kelvin and back gives the input exactly for Celsius values at or above -273.15; below that the way back is refused |
| TemperatureTool.FahrenheitToKelvinComposes | 04-tools/src/main/java/com/example/langchain4j/agents/tools/CalculatorTool.java:65-69 | Fahrenheit to Kelvin equals Fahrenheit to Celsius followed by Celsius to Kelvin |
| TemperatureTool.KelvinToFahrenheitComposes | 04-tools/src/main/java/com/example/langchain4j/agents/tools/CalculatorTool.java:75-82 | Kelvin to Fahrenheit equals Kelvin to Celsius followed by Celsius to Fahrenheit |
| Calculator.Add | 05-agents/src/main/java/com/example/langchain4j/agents/tools/CalculatorTool.java:22-27 | the sum, from which subtracting either operand gives the other |
| Calculator.Subtract | 05-agents/src/main/java/com/example/langchain4j/agents/tools/CalculatorTool.java:33-38 | the difference, to which adding the subtrahend gives the minuend |
| Calculator.Multiply | 05-agents/src/main/java/com/example/langchain4j/agents/tools/CalculatorTool.java:44-49 | the product, which divided by a non-zero operand gives the other |
| Calculator.Divide | 05-agents/src/main/java/com/example/langchain4j/agents/tools/CalculatorTool.java:55-63 | fails exactly for a zero divisor, with "Cannot divide by zero"; otherwise the quotient times the divisor is the dividend |
| Calculator.SquareRoot | 05-agents/src/main/java/com/example/langchain4j/agents/tools/CalculatorTool.java:80-86 | fails exactly for a negative number, with the negative-radicand message; otherwise, given a correct Math.sqrt, the result is non-negative and squares to the input |
| Calculator.Inverses | 05-agents/src/main/java/com/example/langchain4j/agents/tools/CalculatorTool.java:22-63 | subtraction undoes addition and the reverse, and division by a non-zero b undoes multiplication by b |
| Calculator.SquareRootOfSquare | 05-agents/src/main/java/com/example/langchain4j/agents/tools/CalculatorTool.java:80-86 | the square root of x*x is the absolute value of x |
| WeatherTool.CurrentWeather | 03-agents-tools/src/main/java/dev/rory/azure/langchain4j/agents/tools/WeatherTool.java:28-38 | never fails; the sentence names the location, null printed as "null", verbatim at a fixed position, with a temperature in 15..34 and one of the four conditions |
| WeatherTool.ForecastLines | 03-agents-tools/src/main/java/dev/rory/azure/langchain4j/agents/tools/WeatherTool.java:61-66 | there is one forecast line per day |
| WeatherTool.Forecast | 03-agents-tools/src/main/java/dev/rory/azure/langchain4j/agents/tools/WeatherTool.java:48-69 | outside 1..7 days the fixed message and no random draw; otherwise the header and, for each day i, the line built from the i-th draw, with one draw per day |
| WeatherTool.ForecastLineShape | 03-agents-tools/src/main/java/dev/rory/azure/langchain4j/agents/tools/WeatherTool.java:61-66 | line k is for day k+1, with a temperature in 15..34 and one of the four forecast conditions |
| WeatherTool.DayLineOneNewline | 03-agents-tools/src/main/java/dev/rory/azure/langchain4j/agents/tools/WeatherTool.java:65 | a forecast line holds exactly one line break |
| WeatherTool.ForecastLineCount | 03-agents-tools/src/main/java/dev/rory/azure/langchain4j/agents/tools/WeatherTool.java:58-68 | the body of a forecast for n days holds exactly n line breaks |
| RequestRecords.NewRagRequest | 02-rag/src/main/java/com/example/langchain4j/rag/model/dto/RagRequest.java:11-15 | fails exactly when the question is null or blank, with "Question cannot be null or blank"; on success every component is as given |
| RequestRecords.RagRequestOf | 02-rag/src/main/java/com/example/langchain4j/rag/model/dto/RagRequest.java:17-19 | validates the question alike and fills in no conversation id and a limit of 5 |
| RequestRecords.RagRequestChecksOnlyQuestion | 02-rag/src/main/java/com/example/langchain4j/rag/model/dto/RagRequest.java:11-15 | whether construction succeeds does not depend on the conversation id or the limit |
| RequestRecords.NewDocumentUploadRequest | 02-rag/src/main/java/com/example/langchain4j/rag/model/dto/DocumentUploadRequest.java:14-21 | checks the content first and then the file name, each with its own message; succeeds exactly when both are present and not blank, keeping every component |
| RequestRecords.UploadChecksOnlyContentAndName | 02-rag/src/main/java/com/example/langchain4j/rag/model/dto/DocumentUploadRequest.java:14-21 | the content type and metadata never change whether or how construction fails |
| RequestRecords.NewChatRequest | 01-getting-started/src/main/java/dev/rory/azure/langchain4j/model/ChatRequest.java:10-14 | fails exactly when the message is null or blank; on success the components are as given |
| RequestRecords.ChatRequestOf | 01-getting-started/src/main/java/dev/rory/azure/langchain4j/model/ChatRequest.java:16-18 | validates the message alike and has no conversation id |
| RequestRecords.NewAgentRequest | 03-agents-tools/src/main/java/dev/rory/azure/langchain4j/agents/model/dto/AgentRequest.java:11-15 | fails exactly when the message is null or blank; on success the components are as given |
| RequestRecords.AgentRequestOf | 03-agents-tools/src/main/java/dev/rory/azure/langchain4j/agents/model/dto/AgentRequest.java:17-19 | validates the message alike, with no session id and tools enabled |
| RequestRecords.AgentRequestHasNoLengthLimit | 03-agents-tools/src/main/java/dev/rory/azure/langchain4j/agents/model/dto/AgentRequest.java:11-15 | the record sets no length limit: a visible message of any length is accepted |
| RequestRecords.WhitespaceMessageRejected | 01-getting-started/src/main/java/dev/rory/azure/langchain4j/model/ChatRequest.java:11-13 | a message of spaces and a tab is rejected exactly like a null one |
| RagService.Texts | 03-rag/src/main/java/com/example/langchain4j/rag/service/RagService.java:81-83 | the texts are those of the matches, one per match in match order |
| RagService.Sources | 03-rag/src/main/java/com/example/langchain4j/rag/service/RagService.java:101-111 | one source per match in match order, with its text and score, and its file name or "unknown" when the metadata has none |
| RagService.Ask | 03-rag/src/main/java/com/example/langchain4j/rag/service/RagService.java:53-121 | a response echoes the request's conversation id; every failure is a RuntimeException whose message starts with "Failed to process question: " |
| RagService.NoMatchNoChat | 03-rag/src/main/java/com/example/langchain4j/rag/service/RagService.java:70-78 | with no match the fixed refusal comes back with no sources, and the chat model is not consulted |
| RagService.MatchesAnswered | 03-rag/src/main/java/com/example/langchain4j/rag/service/RagService.java:80-115 | with matches the answer is the chat model's answer to the prompt built from the joined texts and the question, with one source per match in order |
| RagService.SearchIsFixed | 03-rag/src/main/java/com/example/langchain4j/rag/service/RagService.java:31-32 | the store is only ever searched for at most 5 matches scoring at least 0.7 |
| RagService.LimitIgnored | 03-rag/src/main/java/com/example/langchain4j/rag/service/RagService.java:61-65 | the request's own result limit has no effect |
| RagService.FailuresAreWrapped | 03-rag/src/main/java/com/example/langchain4j/rag/service/RagService.java:117-119 | a failure of the embedding, the search or the chat model surfaces as one RuntimeException carrying the prefix and the cause's message |
| RagService.ContextGrows | 03-rag/src/main/java/com/example/langchain4j/rag/service/RagService.java:81-83 | the context of one match is its text, and each further match adds a blank line and its text |
| RagService.PromptLayout | 03-rag/src/main/java/com/example/langchain4j/rag/service/RagService.java:86-95 | the prompt is the header, the context, the question label, the question and the answer label, in that order and nothing else |
| ConversationService.StartConversation | 01-getting-started/src/main/java/dev/rory/azure/langchain4j/service/ConversationService.java:37-42 | registers an empty ten-message window under the new id and leaves every other conversation alone |
| ConversationService.StartRegistersFreshId | 01-getting-started/src/main/java/dev/rory/azure/langchain4j/service/ConversationService.java:37-42 | a new id that was unused becomes an existing conversation with an empty history, and it is the only id added |
| ConversationService.Chat | 01-getting-started/src/main/java/dev/rory/azure/langchain4j/service/ConversationService.java:51-82 | a turn creates the conversation if needed, touches no other conversation, and keeps every conversation a ten-message window of user and assistant messages |
| ConversationService.ChatCreatesUnknown | 01-getting-started/src/main/java/dev/rory/azure/langchain4j/service/ConversationService.java:52-55 | a turn on an unknown id creates a ten-message conversation under it |
| ConversationService.AddsKeepNewest | 01-getting-started/src/main/java/dev/rory/azure/langchain4j/service/ConversationService.java:59-79 | on a window of user and assistant messages, adding the user message and then the reply keeps the newest capacity-many of the old messages followed by those added |
| ConversationService.ChatAppendsInOrder | 01-getting-started/src/main/java/dev/rory/azure/langchain4j/service/ConversationService.java:57-82 | after a turn the history is the newest ten of the old history plus the user message and the reply, or plus the user message alone when the model throws; the turn returns exactly what the model answers when asked on the newest ten of the old history plus the user message, one line each |
| ConversationService.UserLineLast | 01-getting-started/src/main/java/dev/rory/azure/langchain4j/service/ConversationService.java:57-81 | the model is asked on the kept history one line per message, with the new user message as the last line, and the turn returns its answer (or its exception) unchanged |
| ConversationService.HistoryOfUnknown | 01-getting-started/src/main/java/dev/rory/azure/langchain4j/service/ConversationService.java:90-93 | an unknown id has an empty history, and asking for it creates nothing |
| ConversationService.ClearConversation | 01-getting-started/src/main/java/dev/rory/azure/langchain4j/service/ConversationService.java:100-102 | drops that id and keeps every other conversation |
| ConversationService.ClearForgetsOnlyThatId | 01-getting-started/src/main/java/dev/rory/azure/langchain4j/service/ConversationService.java:100-112 | after clearing, the id no longer exists and every other id keeps its existence and history |
| PromptSessions.Opened | 02-prompt-engineering/src/main/java/com/example/langchain4j/prompts/service/Gpt5PromptService.java:215-243 | the guidelines go in as a system message only when the window is empty; a non-empty window is unchanged |
| PromptSessions.ContinueConversation | 02-prompt-engineering/src/main/java/com/example/langchain4j/prompts/service/Gpt5PromptService.java:208-255 | a turn creates the session if needed, the null id included, and touches no other session |
| PromptSessions.TurnWindow | 02-prompt-engineering/src/main/java/com/example/langchain4j/prompts/service/Gpt5PromptService.java:242-252 | a turn keeps the window valid and a leading system message in front; the newest message is the reply, or the user message when the model throws |
| PromptSessions.TurnKeepsWellFormed | 02-prompt-engineering/src/main/java/com/example/langchain4j/prompts/service/Gpt5PromptService.java:210-252 | every session stays a valid ten-message window |
| PromptSessions.FirstTurnAddsGuidelines | 02-prompt-engineering/src/main/java/com/example/langchain4j/prompts/service/Gpt5PromptService.java:215-254 | the first turn of a session leaves guidelines, user message and reply, in that order, or guidelines and user message when the model throws; the model is asked on the guidelines block followed by the user block, and the turn returns its answer |
| PromptSessions.LaterTurnKeepsGuidelines | 02-prompt-engineering/src/main/java/com/example/langchain4j/prompts/service/Gpt5PromptService.java:215-254 | a later turn adds no system message; the session holds what a ten-message window retains of the old history followed by the user message and then the reply (or the user message alone when the model throws), so the user message sits right before the reply and a leading system message stays first; the model is asked on what the window retains of the old history plus the user message, and the turn returns its answer |
| PromptSessions.ClearSession | 02-prompt-engineering/src/main/java/com/example/langchain4j/prompts/service/Gpt5PromptService.java:333-335 | drops that session only |
| PromptSessions.ClearAllSessions | 02-prompt-engineering/src/main/java/com/example/langchain4j/prompts/service/Gpt5PromptService.java:340-342 | no session is left |
| PromptSessions.ClearedSessionStartsOver | 02-prompt-engineering/src/main/java/com/example/langchain4j/prompts/service/Gpt5PromptService.java:333-335 | after clearing a session, the next turn on it starts again with the guidelines followed by the user message |
| PromptSessions.UserBlockLast | 02-prompt-engineering/src/main/java/com/example/langchain4j/prompts/service/Gpt5PromptService.java:246-254 | the model is asked on the kept messages as blocks, with the new user message as the last block, and the turn returns its answer (or its exception) unchanged |
| ReactAgent.DeployedAgentHitsCap | 04-tools/src/main/java/com/example/langchain4j/agents/service/AgentService.java:189-245 | with the deployed scanner and executeToolByName, a model that keeps answering a busy reply runs all five rounds and that reply, TOOL_CALL: and all, is the answer |
| ReactAgent.Outcomes | 04-tools/src/main/java/com/example/langchain4j/agents/service/AgentService.java:205-212 | a round has one outcome per directive |
| ReactAgent.OutcomesInOrder | 04-tools/src/main/java/com/example/langchain4j/agents/service/AgentService.java:205-212 | directive i runs after directives 0..i-1, numbered by the requests those made |
| ReactAgent.RequestsAtMostOnePerCall | 04-tools/src/main/java/com/example/langchain4j/agents/service/AgentService.java:205-212 | a round of n directives makes at most n tool requests |
| ReactAgent.RequestsAppend | 04-tools/src/main/java/com/example/langchain4j/agents/service/AgentService.java:205-212 | request counts add up over consecutive calls |
| ReactAgent.RecordedIsSuccesses | 04-tools/src/main/java/com/example/langchain4j/agents/service/AgentService.java:211-224 | executions are recorded exactly for the successful calls, each with the name, the raw parameters as a one-element list and the result; a round records nothing exactly when every call failed |
| ReactAgent.RecordedSingle | 04-tools/src/main/java/com/example/langchain4j/agents/service/AgentService.java:211-224 | one call records exactly one entry (name, the raw parameters as a one-element list, result) when it succeeds and none when it throws; with RecordedAppend this fixes the list to one entry per successful call, in match order |
| ReactAgent.RecordedAppend | 04-tools/src/main/java/com/example/langchain4j/agents/service/AgentService.java:205-225 | recording keeps match order: a split round records the first part's executions, then the second's |
| ReactAgent.RunRound | 04-tools/src/main/java/com/example/langchain4j/agents/service/AgentService.java:199-225 | a round pairs each directive with its outcome |
| ReactAgent.Loop | 04-tools/src/main/java/com/example/langchain4j/agents/service/AgentService.java:189-245 | the loop runs at most 5 rounds, makes at most one model call per round, never lowers the request count, and keeps the memory within its window |
| ReactAgent.Step | 04-tools/src/main/java/com/example/langchain4j/agents/service/AgentService.java:195-237 | a round uses one iteration of the budget and makes at most one model call |
| ReactAgent.ObservationIsLastLine | 04-tools/src/main/java/com/example/langchain4j/agents/service/AgentService.java:228-233 | the tool results go in as the newest user message, so the context the model is re-invoked on ends with them |
| ReactAgent.ModelFailureEndsLoop | 04-tools/src/main/java/com/example/langchain4j/agents/service/AgentService.java:228-233 | when the model throws after a busy round, the loop ends with that exception, the round's executions recorded and the results already in memory |
| ReactAgent.IdleRoundEndsLoop | 04-tools/src/main/java/com/example/langchain4j/agents/service/AgentService.java:228-237 | a round in which no directive succeeds ends the loop with the reply unchanged and no new execution |
| ReactAgent.BusyRoundContinues | 04-tools/src/main/java/com/example/langchain4j/agents/service/AgentService.java:228-234 | a busy round whose model call answers continues the loop on the new reply, with memory, executions and counters advanced |
| ReactAgent.BusyModelHitsCap | 04-tools/src/main/java/com/example/langchain4j/agents/service/AgentService.java:191-196 | a model that always answers with the same busy reply is called once per remaining round, and the loop stops at 5 rounds returning a reply that still holds the marker |
| ReactAgent.BusyAgentHitsCap | 04-tools/src/main/java/com/example/langchain4j/agents/service/AgentService.java:240-244 | with the deployed scanner, a forever-busy model ends after exactly 5 rounds and the returned answer still contains TOOL_CALL: |
| ReactAgent.BusyHoldsMarker | 04-tools/src/main/java/com/example/langchain4j/agents/service/AgentService.java:182-184 | with the deployed scanner, a reply that executes a tool contains the marker |
| ReactAgent.CreateSession | 04-tools/src/main/java/com/example/langchain4j/agents/service/AgentService.java:70-76 | registers an empty twenty-message window under the new id and leaves every other session alone |
| ReactAgent.ClearSession | 04-tools/src/main/java/com/example/langchain4j/agents/service/AgentService.java:371-374 | drops that id only |
| ReactAgent.ExecuteTask | 04-tools/src/main/java/com/example/langchain4j/agents/service/AgentService.java:81-135 | the response names the caller's session or a fresh one, that session exists afterwards, and no other session changes |
| ReactAgent.TaskModelCalls | 04-tools/src/main/java/com/example/langchain4j/agents/service/AgentService.java:106 | a task calls the model at least once and at most six times |
| ReactAgent.FailedTaskShape | 04-tools/src/main/java/com/example/langchain4j/agents/service/AgentService.java:126-134 | a failed task has no executions and an answer starting "I encountered an error: " |
| ReactAgent.TaskOutcome | 04-tools/src/main/java/com/example/langchain4j/agents/service/AgentService.java:81-134 | when the first model call throws, the response is the failed one for that exception and the session keeps the user turn; otherwise the task fails exactly when the loop threw (with that exception's message), and a completed task answers with the loop's answer, reports the loop's executions and keeps the loop's memory |
| ReactAgent.FailedIffException | 04-tools/src/main/java/com/example/langchain4j/agents/service/AgentService.java:98-134 | the status is "failed" exactly when the first model call or the tool loop threw |
| ReactAgent.TaskKeepsSessionsOk | 04-tools/src/main/java/com/example/langchain4j/agents/service/AgentService.java:89-108 | every session stays a twenty-message window within its capacity |
| ReactAgent.UserTurnSurvivesFailure | 04-tools/src/main/java/com/example/langchain4j/agents/service/AgentService.java:101-106 | the user turn is stored before the first model call, so when that call throws it stays as the newest message and the task fails after one model call and no tool request |
| ReactAgent.DirectAnswer | 04-tools/src/main/java/com/example/langchain4j/agents/service/AgentService.java:111-124 | a first reply without the marker is the answer, completed, with no executions, one model call and no tool request |
| AgentController.Refusal | 05-agents/src/main/java/com/example/langchain4j/agents/app/AgentController.java:67-77 | a null or trim-empty message is refused as empty, a longer than 1000 UTF-16 unit message as too long, in that order; anything else passes |
| AgentController.ExecuteTask | 05-agents/src/main/java/com/example/langchain4j/agents/app/AgentController.java:62-94 | 200 with the service response exactly when the message passes and the service answers; 400 "Invalid request" with the reason exactly when it is refused; 500 exactly when the service throws |
| AgentController.Chat | 05-agents/src/main/java/com/example/langchain4j/agents/app/AgentController.java:104-136 | 400 with the reason exactly when the message is refused; a service exception gives the fixed 500 "Failed to process message"; 200 exactly when the message passes, the service answers and all four reported components are present, and then the body carries them with the number of executions; anything else is that same 500 |
| AgentController.RefusedBeforeService | 05-agents/src/main/java/com/example/langchain4j/agents/app/AgentController.java:67-77 | a refused message never reaches the service, on either endpoint |
| AgentController.EmptinessCheckedFirst | 05-agents/src/main/java/com/example/langchain4j/agents/app/AgentController.java:67-77 | more than 1000 spaces are refused as empty, not as too long |
| AgentController.LimitIsInclusive | 05-agents/src/main/java/com/example/langchain4j/agents/app/AgentController.java:26 | 1000 characters pass and 1001 are refused |
| AgentController.ExceptionMapping | 05-agents/src/main/java/com/example/langchain4j/agents/app/AgentController.java:85-92 | an AgentException keeps its message under "Agent error"; any other exception gives "Execution failed" with the fixed message |
| AgentController.ChatReportsResponse | 05-agents/src/main/java/com/example/langchain4j/agents/app/AgentController.java:120-129 | /chat asks the service with the message, the caller's session id and tools enabled, and reports the session, answer, number of executions and status |
| ConversationController.MessageOf | 01-getting-started/src/main/java/dev/rory/azure/langchain4j/app/ConversationController.java:60 | a missing message reads as the empty string, a present one as given, null included |
| ConversationController.Chat | 01-getting-started/src/main/java/dev/rory/azure/langchain4j/app/ConversationController.java:58-86 | a missing or blank id gives exactly the 400 "conversationId is required"; refusals change no conversation; a 200 carries an answer; the only escaping exception is the null-message NullPointerException |
| ConversationController.IdCheckedFirst | 01-getting-started/src/main/java/dev/rory/azure/langchain4j/app/ConversationController.java:62-65 | a missing or blank id is refused before the message is looked at, even a null one |
| ConversationController.MissingMessageIsEmpty | 01-getting-started/src/main/java/dev/rory/azure/langchain4j/app/ConversationController.java:60-70 | a body without a message is refused as empty and the model is not consulted |
| ConversationController.NullMessageEscapes | 01-getting-started/src/main/java/dev/rory/azure/langchain4j/app/ConversationController.java:60-67 | a present null message escapes the handler as an exception instead of a 400 |
| ConversationController.ChatNullSafe | 01-getting-started/src/main/java/dev/rory/azure/langchain4j/app/ConversationController.java:60-70 | a null message is refused with 400 like a blank one; otherwise it behaves exactly as the handler |
| ConversationController.ValidRequestRunsTurn | 01-getting-started/src/main/java/dev/rory/azure/langchain4j/app/ConversationController.java:72-85 | a valid request runs one turn; success echoes the id and message with the answer; failure gives 500 with the exception message or "Unknown error" |
| ConversationController.History | 01-getting-started/src/main/java/dev/rory/azure/langchain4j/app/ConversationController.java:95-112 | 404 "Conversation not found" exactly for an unknown id, otherwise 200 for that id |
| ConversationController.HistoryCountsMessages | 01-getting-started/src/main/java/dev/rory/azure/langchain4j/app/ConversationController.java:102-107 | messageCount is the length of the listed history, which is the conversation's messages and at most ten |
| RagController.Ask | 02-rag/src/main/java/dev/rory/azure/langchain4j/rag/app/RagController.java:34-52 | 400 exactly for a null or trim-empty question; 200 with the service response unchanged exactly when the service answers; 500 otherwise; no body except on 200 |
| RagController.Health | 02-rag/src/main/java/dev/rory/azure/langchain4j/rag/app/RagController.java:59-62 | always 200 "RAG service is healthy" |
| RagController.RefusedBeforeService | 02-rag/src/test/java/dev/rory/azure/langchain4j/rag/app/RagControllerTest.java:66-88 | a refused question gives an empty 400 whatever the service |
| RagController.WhitespaceQuestionRefused | 02-rag/src/main/java/dev/rory/azure/langchain4j/rag/app/RagController.java:39-41 | a question of spaces, a tab and a newline is refused |
| RagController.ValidQuestionReachesService | 02-rag/src/test/java/dev/rory/azure/langchain4j/rag/app/RagControllerTest.java:56-63 | a valid question gets the service response unchanged, or an empty 500 on any exception |

## Findings

| source | as written | input that shows it | evidently intended | confidence | as-written member | corrected member |
|---|---|---|---|---|---|---|
| 01-getting-started/src/main/java/dev/rory/azure/langchain4j/app/ConversationController.java:60-67 | `getOrDefault("message", "")` returns a present null unchanged, and `message.isBlank()` then dereferences it outside the `try` | the body `{"conversationId": "c1", "message": null}` | a 400 "message cannot be empty", as for a missing or blank message | medium; not executed | ConversationController.NullMessageEscapes | ConversationController.ChatNullSafe |

## Left out

- `AgentService.simpleChat` (04-tools) and the prompt-engineering service's single-shot prompt methods. Each sends one fixed template to the model and returns its answer, so there is nothing to state beyond the template.
- The tool prompt and the conversation guidelines are parameters of the task functions, not part of their proofs. Keeping the long literals out keeps the proofs small; the literals themselves are kept as constants.
- `power` of the agents calculator: `Math.pow` on doubles has no real-number counterpart worth stating, and the method has no guard.
- Floating point: conversions and arithmetic are over exact reals. The `%.1f`/`%.2f` rendering of the conversion results is not modelled.
- The 05-agents `AgentService`, `AgentRequest`, `AgentResponse` and `AgentException` are not part of this model. The controller's service is a parameter that answers or throws, and an `AgentException` is the exception kind `AgentFailure`. A null response from that service is not modelled.
- The thin endpoints are not modelled, because each only delegates to a service function that is modelled or returns a constant:
  - `startSession`, `getTools`, `clearSession` and `health` of the agents controller;
  - `startConversation`, `clearConversation` and `health` of the conversation controller.
- The 500 body of the RAG controller: its test expects `error` and `message` fields, but the controller sends an empty body. Only the status is modelled, and the body is absent.
- ReactAgent.Loop: states only the window bounds of the memory it returns. It does not state that the memory stays free of system messages; that quantified invariant is not carried through the loop, because it makes the loop's proofs far more expensive.
- The library window's rule for replacing an existing system message is not modelled. None of the services adds a second one, and `Appendable` states that they never do.
- The library's own checks on message text, such as a null text given to `UserMessage.from`, are not modelled.
- Concurrency: the sessions maps are plain maps updated by one call at a time. Races between requests and the atomicity of `computeIfAbsent` are out of scope.
- Logging, Spring wiring, JSON binding beyond the fields read, and the HTTP transport are not modelled.

=== FILE: agent_controller.dfy ===
/** The REST front of the agents service: `/execute` takes a task record,
    `/chat` a JSON object of strings; both reject an empty or over-long
    message before the agent service is called, and map its exceptions to
    500 responses. The agent service is a parameter that answers or throws. */
module AgentController {
  import opened Wrappers
  import opened JavaLang
  import opened Web
  import ReactAgent

  /** The longest message accepted, in UTF-16 code units (`String.length`). */
  const MaxMessageLength: nat := 1000

  /** The task record of this service: every component may be null. */
  datatype AgentRequest = AgentRequest(message: Option<string>, sessionId: Option<string>, enableTools: bool)

  /** The response record of this service: every component may be null. */
  datatype AgentResponse = AgentResponse(
    answer: Option<string>,
    sessionId: Option<string>,
    toolExecutions: Option<seq<ReactAgent.ToolExecutionInfo>>,
    status: Option<string>)

  /** The agent service's `executeTask`. */
  type AgentService = AgentRequest -> Result<AgentResponse, Throwable>

  datatype ErrorResponse = ErrorResponse(error: string, message: Option<string>)

  const InvalidRequest: string := "Invalid request"

  const EmptyMessage: string := "Message cannot be empty"

  const TooLong: string := "Message too long (max 1000 characters)"

  const AgentError: string := "Agent error"

  const ExecutionFailed: string := "Execution failed"

  const Unexpected: string := "An unexpected error occurred"

  const ChatFailed: string := "Failed to process message"

  /** Why a message is refused, checked in this order: null or empty after
      `trim`, then longer than the limit. */
  function Refusal(message: Option<string>): (r: Option<string>)
    ensures r == Some(EmptyMessage) <==> message.None? || TrimIsEmpty(message.value)
    ensures r == Some(TooLong) <==> message.Some? && !TrimIsEmpty(message.value) && Utf16Length(message.value) > MaxMessageLength
    ensures r.None? <==> message.Some? && !TrimIsEmpty(message.value) && Utf16Length(message.value) <= MaxMessageLength
  {
    if message.None? || TrimIsEmpty(message.value) then Some(EmptyMessage)
    else if Utf16Length(message.value) > MaxMessageLength then Some(TooLong)
    else None
  }

  /** The body of an `/execute` response. */
  datatype ExecuteBody = Answered(response: AgentResponse) | Error(error: ErrorResponse)

  /** `executeTask` (`/execute`). */
  function ExecuteTask(service: AgentService, request: AgentRequest): (r: Http<ExecuteBody>)
    ensures r.status == Ok <==> Refusal(request.message).None? && service(request).Success?
    ensures r.status == Ok ==> r.body == Answered(service(request).value)
    ensures r.status == BadRequest <==> Refusal(request.message).Some?
    ensures r.status == BadRequest ==> r.body == Error(ErrorResponse(InvalidRequest, Refusal(request.message)))
    ensures r.status == InternalServerError <==> Refusal(request.message).None? && service(request).Failure?
  {
    match Refusal(request.message)
    case Some(why) => Http(BadRequest, Error(ErrorResponse(InvalidRequest, Some(why))))
    case None =>
      match service(request)
      case Success(response) => Http(Ok, Answered(response))
      case Failure(e) =>
        if e.kind == AgentFailure then Http(InternalServerError, Error(ErrorResponse(AgentError, e.message)))
        else Http(InternalServerError, Error(ErrorResponse(ExecutionFailed, Some(Unexpected))))
  }

  /** The body of a `/chat` response. */
  datatype ChatBody =
    | ChatError(error: string)
    | ChatAnswer(sessionId: string, answer: string, toolsUsed: nat, status: string)

  /** The request `/chat` hands to the service: the message, the caller's
      session id (possibly null) and tools always enabled. */
  function ChatRequest(body: map<string, Option<string>>): AgentRequest {
    AgentRequest(Get(body, "message"), Get(body, "sessionId"), true)
  }

  /** Every component `/chat` reports is present: `Map.of` rejects a null. */
  predicate Complete(response: AgentResponse) {
    response.sessionId.Some? && response.answer.Some? && response.toolExecutions.Some? && response.status.Some?
  }

  /** `chat` (`/chat`): after validation, the service's response becomes a
      map of four entries; a null component makes `Map.of` (or `size`) throw,
      which is reported like a service failure. */
  function Chat(service: AgentService, body: map<string, Option<string>>): (r: Http<ChatBody>)
    ensures r.status == BadRequest <==> Refusal(Get(body, "message")).Some?
    ensures r.status == BadRequest ==> r.body == ChatError(Refusal(Get(body, "message")).value)
    ensures r.status == Ok || r.status == BadRequest || r == Http(InternalServerError, ChatError(ChatFailed))
    ensures Refusal(Get(body, "message")).None? && service(ChatRequest(body)).Failure? ==>
              r == Http(InternalServerError, ChatError(ChatFailed))
    ensures r.status == Ok <==>
              Refusal(Get(body, "message")).None? && service(ChatRequest(body)).Success? && Complete(service(ChatRequest(body)).value)
    ensures r.status == Ok ==>
              var response := service(ChatRequest(body)).value;
              r.body == ChatAnswer(response.sessionId.value, response.answer.value, |response.toolExecutions.value|, response.status.value)
  {
    var message := Get(body, "message");
    match Refusal(message)
    case Some(why) => Http(BadRequest, ChatError(why))
    case None =>
      match service(ChatRequest(body))
      case Failure(_) => Http(InternalServerError, ChatError(ChatFailed))
      case Success(response) =>
        if !Complete(response) then
          Http(InternalServerError, ChatError(ChatFailed))
        else
          Http(Ok, ChatAnswer(response.sessionId.value, response.answer.value, |response.toolExecutions.value|, response.status.value))
  }

  /** A refused message never reaches the service: any two services give the
      same response, on both endpoints. */
  lemma RefusedBeforeService(s1: AgentService, s2: AgentService, request: AgentRequest, body: map<string, Option<string>>)
    ensures Refusal(request.message).Some? ==> ExecuteTask(s1, request) == ExecuteTask(s2, request)
    ensures Refusal(Get(body, "message")).Some? ==> Chat(s1, body) == Chat(s2, body)
  {
  }

  /** The emptiness check comes first: a long run of spaces is refused as
      empty, not as too long. */
  lemma EmptinessCheckedFirst(n: nat)
    requires n > MaxMessageLength
    ensures Refusal(Some(seq(n, _ => ' '))) == Some(EmptyMessage)
  {
    var s := seq(n, _ => ' ');
    assert forall i :: 0 <= i < |s| ==> Trimmable(s[i]);
  }

  /** The limit is inclusive: a message of exactly 1000 letters passes,
      one of 1001 does not. */
  lemma LimitIsInclusive()
    ensures Refusal(Some(seq(MaxMessageLength, _ => 'x'))).None?
    ensures Refusal(Some(seq(MaxMessageLength + 1, _ => 'x'))) == Some(TooLong)
  {
    var a := seq(MaxMessageLength, _ => 'x');
    var b := seq(MaxMessageLength + 1, _ => 'x');
    assert !Trimmable(a[0]) && !Trimmable(b[0]);
    assert forall i :: 0 <= i < |a| ==> a[i] <= '\U{FFFF}';
    assert forall i :: 0 <= i < |b| ==> b[i] <= '\U{FFFF}';
  }

  /** An `AgentException` keeps its message under "Agent error"; any other
      exception becomes the fixed "Execution failed" response. */
  lemma ExceptionMapping(service: AgentService, request: AgentRequest)
    requires Refusal(request.message).None? && service(request).Failure?
    ensures var e := service(request).error;
            ExecuteTask(service, request).body ==
              if e.kind == AgentFailure then Error(ErrorResponse(AgentError, e.message))
              else Error(ErrorResponse(ExecutionFailed, Some(Unexpected)))
  {
  }

  /** `/chat` consults the service only on the message, the caller's session
      id and tools enabled; a complete response is reported with the number
      of executions and the status as given. */
  lemma ChatReportsResponse(service: AgentService, body: map<string, Option<string>>, response: AgentResponse)
    requires Refusal(Get(body, "message")).None?
    requires service(AgentRequest(Get(body, "message"), Get(body, "sessionId"), true)) == Success(response)
    requires Complete(response)
    ensures Chat(service, body) ==
            Http(Ok, ChatAnswer(response.sessionId.value, response.answer.value, |response.toolExecutions.value|, response.status.value))
  {
  }
}

=== FILE: calculator_tools.dfy ===
/** The numeric core of the two calculator tools, over the reals: the six
    temperature conversions of the tools service (two of which refuse a
    Kelvin input below absolute zero) and the arithmetic tool of the agents
    service (which refuses a zero divisor and a negative radicand). The
    `%.1f` / `%.2f` renderings of the conversions are not modelled. */
module TemperatureTool {
  import opened Wrappers
  import opened JavaLang

  const AbsoluteZeroMessage: string := "Temperature cannot be below absolute zero (0 K)"

  /** The offset between the Celsius and Kelvin scales. */
  const KelvinOffset: real := 273.15

  /** The Fahrenheit reading of a Celsius temperature: the inverse formula
      gives the Celsius value back. */
  function CelsiusToFahrenheit(celsius: real): (f: real)
    ensures (f - 32.0) * 5.0 / 9.0 == celsius
  {
    celsius * 9.0 / 5.0 + 32.0
  }

  /** The Celsius reading of a Fahrenheit temperature: the inverse formula
      gives the Fahrenheit value back. */
  function FahrenheitToCelsius(fahrenheit: real): (c: real)
    ensures c * 9.0 / 5.0 + 32.0 == fahrenheit
  {
    (fahrenheit - 32.0) * 5.0 / 9.0
  }

  /** No range check: any Celsius value is converted, and the result is a
      physical (non-negative) Kelvin value exactly from -273.15 on. */
  function CelsiusToKelvin(celsius: real): (k: real)
    ensures k - KelvinOffset == celsius
    ensures k >= 0.0 <==> celsius >= -KelvinOffset
  {
    celsius + KelvinOffset
  }

  /** No range check: any Fahrenheit value is converted; the inverse formula
      gives the Fahrenheit value back. */
  function FahrenheitToKelvin(fahrenheit: real): (k: real)
    ensures (k - KelvinOffset) * 9.0 / 5.0 + 32.0 == fahrenheit
  {
    (fahrenheit - 32.0) * 5.0 / 9.0 + KelvinOffset
  }

  /** Refuses a negative Kelvin value; 0 K itself is accepted. */
  function KelvinToCelsius(kelvin: real): (r: Result<real, Throwable>)
    ensures r.Failure? <==> kelvin < 0.0
    ensures r.Failure? ==> r.error == Throwable(IllegalArgument, Some(AbsoluteZeroMessage))
    ensures r.Success? ==> CelsiusToKelvin(r.value) == kelvin
  {
    if kelvin < 0.0 then Failure(Throwable(IllegalArgument, Some(AbsoluteZeroMessage)))
    else Success(kelvin - KelvinOffset)
  }

  /** Refuses a negative Kelvin value; 0 K itself is accepted. */
  function KelvinToFahrenheit(kelvin: real): (r: Result<real, Throwable>)
    ensures r.Failure? <==> kelvin < 0.0
    ensures r.Failure? ==> r.error == Throwable(IllegalArgument, Some(AbsoluteZeroMessage))
    ensures r.Success? ==> FahrenheitToKelvin(r.value) == kelvin
  {
    if kelvin < 0.0 then Failure(Throwable(IllegalArgument, Some(AbsoluteZeroMessage)))
    else Success((kelvin - KelvinOffset) * 9.0 / 5.0 + 32.0)
  }

  /** Celsius to Fahrenheit and back is the identity, and so is the other way round. */
  lemma FahrenheitCelsiusRoundTrip(c: real, f: real)
    ensures FahrenheitToCelsius(CelsiusToFahrenheit(c)) == c
    ensures CelsiusToFahrenheit(FahrenheitToCelsius(f)) == f
  {
  }

  /** Celsius to Kelvin and back is the identity exactly on the Celsius values
      at or above absolute zero; below it the way back is refused. */
  lemma KelvinCelsiusRoundTrip(c: real)
    ensures c >= -KelvinOffset ==> KelvinToCelsius(CelsiusToKelvin(c)) == Success(c)
    ensures c < -KelvinOffset ==> KelvinToCelsius(CelsiusToKelvin(c)).Failure?
  {
  }

  /** Fahrenheit to Kelvin is the composition through Celsius. */
  lemma FahrenheitToKelvinComposes(f: real)
    ensures FahrenheitToKelvin(f) == CelsiusToKelvin(FahrenheitToCelsius(f))
  {
  }

  /** Kelvin to Fahrenheit is the composition through Celsius. */
  lemma KelvinToFahrenheitComposes(k: real)
    requires k >= 0.0
    ensures KelvinToFahrenheit(k) == Success(CelsiusToFahrenheit(KelvinToCelsius(k).value))
  {
  }
}

module Calculator {
  import opened Wrappers
  import opened JavaLang

  /** The sum: subtracting either operand gives back the other. */
  function Add(a: real, b: real): (r: real)
    ensures r - b == a && r - a == b
  {
    a + b
  }

  /** The difference: adding the subtrahend back gives the minuend. */
  function Subtract(a: real, b: real): (r: real)
    ensures r + b == a
  {
    a - b
  }

  /** The product: dividing by a non-zero operand gives back the other. */
  function Multiply(a: real, b: real): (r: real)
    ensures b != 0.0 ==> r / b == a
    ensures a != 0.0 ==> r / a == b
  {
    a * b
  }

  /** Refuses a zero divisor; otherwise the quotient times the divisor gives
      back the dividend. */
  function Divide(a: real, b: real): (r: Result<real, Throwable>)
    ensures r.Failure? <==> b == 0.0
    ensures r.Failure? ==> r.error == Throwable(IllegalArgument, Some("Cannot divide by zero"))
    ensures r.Success? ==> r.value * b == a
  {
    if b == 0.0 then Failure(Throwable(IllegalArgument, Some("Cannot divide by zero")))
    else Success(a / b)
  }

  /** `Math.sqrt` on the non-negative reals: the non-negative root. */
  ghost predicate IsSquareRoot(root: real -> real) {
    forall x: real :: x >= 0.0 ==> root(x) >= 0.0 && root(x) * root(x) == x
  }

  /** Refuses a negative number before `Math.sqrt` (the parameter `root`) is
      consulted; otherwise the value `root` gives. */
  function SquareRoot(root: real -> real, n: real): (r: Result<real, Throwable>)
    ensures r.Failure? <==> n < 0.0
    ensures r.Failure? ==> r.error == Throwable(IllegalArgument, Some("Cannot calculate square root of negative number"))
    ensures IsSquareRoot(root) && r.Success? ==> r.value >= 0.0 && r.value * r.value == n
  {
    if n < 0.0 then Failure(Throwable(IllegalArgument, Some("Cannot calculate square root of negative number")))
    else Success(root(n))
  }

  /** Addition and subtraction undo each other, and so do multiplication and
      division by a non-zero number. */
  lemma Inverses(a: real, b: real)
    ensures Subtract(Add(a, b), b) == a
    ensures Add(Subtract(a, b), b) == a
    ensures b != 0.0 ==> Divide(Multiply(a, b), b) == Success(a)
  {
    if b != 0.0 {
      assert (a * b) / b == a;
      assert Divide(Multiply(a, b), b) == Success((a * b) / b);
    }
  }

  /** The failure of a negative radicand does not depend on `Math.sqrt`, and
      a square root function gives back |x| for the square of x. */
  lemma SquareRootOfSquare(root: real -> real, x: real)
    requires IsSquareRoot(root)
    ensures SquareRoot(root, Multiply(x, x)) == Success(if x >= 0.0 then x else -x)
  {
    var n := Multiply(x, x);
    var ax := if x >= 0.0 then x else -x;
    assert n == ax * ax && ax >= 0.0;
    var r := root(n);
    assert r >= 0.0 && r * r == n;
    var d := r - ax;
    var e := r + ax;
    assert d * e == 0.0;
    assert SquareRoot(root, n) == Success(r);
  }
}

=== FILE: chat_memory.dfy ===
/** Conversation memory as the services use it: a message window with a fixed
    capacity (the library's `MessageWindowChatMemory`), and the two ways the
    services serialise a window into a prompt. The window appends, then
    evicts the oldest message, skipping a leading system message, until it is
    back within capacity. */
module ChatMemory {

  datatype Role = System | User | Assistant

  datatype Message = Message(role: Role, text: string)

  /** The library refuses a window of capacity zero. */
  type Capacity = n: nat | n >= 1 witness 1

  datatype Window = Window(capacity: Capacity, messages: seq<Message>)

  function Empty(capacity: Capacity): Window {
    Window(capacity, [])
  }

  /** At most one system message, and only at the front. */
  predicate SystemFirst(msgs: seq<Message>) {
    forall i :: 1 <= i < |msgs| ==> msgs[i].role != System
  }

  /** The window's invariant: within capacity, system message only at the front. */
  predicate Valid(w: Window) {
    |w.messages| <= w.capacity && SystemFirst(w.messages)
  }

  /** Evicts, one message at a time, the oldest message that is not the
      leading system message, until the window fits its capacity. */
  function Evict(capacity: Capacity, msgs: seq<Message>): (r: seq<Message>)
    ensures |r| == if |msgs| <= capacity then |msgs| else capacity
    decreases |msgs|
  {
    if |msgs| <= capacity then msgs
    else if msgs[0].role == System then Evict(capacity, [msgs[0]] + msgs[2..])
    else Evict(capacity, msgs[1..])
  }

  function Min(a: nat, b: nat): nat {
    if a <= b then a else b
  }

  /** No message of the sequence is a system message. */
  predicate NoSystem(msgs: seq<Message>) {
    forall i :: 0 <= i < |msgs| ==> msgs[i].role != System
  }

  /** What a window of capacity `capacity` retains of `msgs` when at most a
      leading message is a system message: that system message, if any, and
      the newest of the others, up to the capacity. */
  function Retained(capacity: Capacity, msgs: seq<Message>): seq<Message> {
    if |msgs| >= 1 && msgs[0].role == System then [msgs[0]] + msgs[|msgs| - (Min(capacity, |msgs|) - 1)..]
    else msgs[|msgs| - Min(capacity, |msgs|)..]
  }

  /** Without a system message, eviction keeps exactly the newest `capacity` messages. */
  lemma {:induction false} EvictKeepsNewest(capacity: Capacity, msgs: seq<Message>)
    requires NoSystem(msgs)
    ensures Evict(capacity, msgs) == msgs[|msgs| - Min(capacity, |msgs|)..]
    decreases |msgs|
  {
    if |msgs| > capacity {
      var next := msgs[1..];
      assert msgs[0].role != System;
      EvictKeepsNewest(capacity, next);
      assert next[|next| - capacity..] == msgs[|msgs| - capacity..];
    }
  }

  /** With a leading system message, eviction keeps it plus the newest
      `capacity - 1` other messages. */
  lemma {:induction false} EvictKeepsSystemAndNewest(capacity: Capacity, msgs: seq<Message>)
    requires |msgs| >= 1 && msgs[0].role == System
    ensures Evict(capacity, msgs) == [msgs[0]] + msgs[|msgs| - (Min(capacity, |msgs|) - 1)..]
    decreases |msgs|
  {
    if |msgs| > capacity {
      var next := [msgs[0]] + msgs[2..];
      assert next[0] == msgs[0];
      EvictKeepsSystemAndNewest(capacity, next);
      assert next[|next| - (capacity - 1)..] == msgs[|msgs| - (capacity - 1)..];
    } else {
      assert msgs == [msgs[0]] + msgs[1..];
    }
  }

  /** Eviction agrees with the closed form `Retained` on well-formed message lists. */
  lemma EvictIsRetained(capacity: Capacity, msgs: seq<Message>)
    ensures SystemFirst(msgs) ==> Evict(capacity, msgs) == Retained(capacity, msgs)
  {
    if |msgs| >= 1 && msgs[0].role == System {
      EvictKeepsSystemAndNewest(capacity, msgs);
    } else if SystemFirst(msgs) {
      EvictKeepsNewest(capacity, msgs);
    }
  }

  /** An append the services make: never a second system message. */
  predicate Appendable(w: Window, m: Message) {
    Valid(w) && (m.role != System || |w.messages| == 0)
  }

  /** `ChatMemory.add`: below capacity a plain append; otherwise the window
      stays at exactly its capacity. */
  function Add(w: Window, m: Message): (r: Window)
    ensures r.capacity == w.capacity
    ensures |r.messages| == Min(w.capacity, |w.messages| + 1)
    ensures |w.messages| < w.capacity ==> r.messages == w.messages + [m]
  {
    Window(w.capacity, Evict(w.capacity, w.messages + [m]))
  }

  /** An append the services make keeps the window valid, keeps its system
      message at the front, keeps the newest messages, and (for a capacity
      of two or more) ends with the message just added. */
  lemma AddRetains(w: Window, m: Message)
    requires Appendable(w, m)
    ensures Valid(Add(w, m))
    ensures Add(w, m).messages == Retained(w.capacity, w.messages + [m])
    ensures w.capacity >= 2 ==> Add(w, m).messages[|Add(w, m).messages| - 1] == m
    ensures |w.messages| >= 1 && w.messages[0].role == System ==> Add(w, m).messages[0] == w.messages[0]
  {
    var all := w.messages + [m];
    assert SystemFirst(all);
    EvictIsRetained(w.capacity, all);
  }

  /** With a leading system message, a window retains it and the newest
      `capacity - 1` of the rest. */
  lemma RetainedWithSystem(c: Capacity, m: Message, r: seq<Message>)
    requires m.role == System
    ensures Retained(c, [m] + r) == [m] + r[|r| - Min(c - 1, |r|)..]
  {
    var x := [m] + r;
    assert x[1..] == r;
    assert x[|x| - (Min(c, |x|) - 1)..] == r[|r| - Min(c - 1, |r|)..];
  }

  /** `RetainedOfRetained` for a history led by a system message. */
  lemma RetainedOfRetainedSystem(c: Capacity, m: Message, r: seq<Message>, b: Message)
    requires m.role == System && b.role != System
    ensures Retained(c, Retained(c, [m] + r) + [b]) == Retained(c, [m] + r + [b])
  {
    var n := r[|r| - Min(c - 1, |r|)..];
    RetainedWithSystem(c, m, r);
    assert [m] + n + [b] == [m] + (n + [b]);
    RetainedWithSystem(c, m, n + [b]);
    NewestOfNewest(r, [b], c - 1);
    assert [m] + r + [b] == [m] + (r + [b]);
    RetainedWithSystem(c, m, r + [b]);
  }

  /** Without a system message, a window retains the newest `capacity`. */
  lemma RetainedWithoutSystem(c: Capacity, x: seq<Message>)
    requires |x| == 0 || x[0].role != System
    ensures Retained(c, x) == x[|x| - Min(c, |x|)..]
  {
  }

  /** `RetainedOfRetained` for a history without a system message. */
  lemma RetainedOfRetainedPlain(c: Capacity, x: seq<Message>, b: Message)
    requires NoSystem(x) && b.role != System
    ensures Retained(c, Retained(c, x) + [b]) == Retained(c, x + [b])
  {
    var n := x[|x| - Min(c, |x|)..];
    RetainedWithoutSystem(c, x);
    assert (n + [b])[0].role != System;
    RetainedWithoutSystem(c, n + [b]);
    assert (x + [b])[0].role != System;
    RetainedWithoutSystem(c, x + [b]);
    NewestOfNewest(x, [b], c);
  }

  /** Retaining, appending one ordinary message and retaining again keeps
      the same as retaining once after the append. */
  lemma RetainedOfRetained(c: Capacity, x: seq<Message>, b: Message)
    requires SystemFirst(x) && b.role != System
    ensures Retained(c, Retained(c, x) + [b]) == Retained(c, x + [b])
  {
    if |x| >= 1 && x[0].role == System {
      assert x == [x[0]] + x[1..];
      RetainedOfRetainedSystem(c, x[0], x[1..], b);
    } else {
      RetainedOfRetainedPlain(c, x, b);
    }
  }

  /** Appending an ordinary message keeps a system message only in front. */
  lemma SnocSystemFirst(msgs: seq<Message>, a: Message)
    requires SystemFirst(msgs) && a.role != System
    ensures SystemFirst(msgs + [a])
  {
  }

  /** Two ordinary appends to a valid window keep what the window retains of
      the history followed by both messages, in order. */
  lemma AddTwiceRetains(w: Window, a: Message, b: Message)
    requires Valid(w) && a.role != System && b.role != System
    ensures Add(Add(w, a), b).messages == Retained(w.capacity, w.messages + [a, b])
  {
    var x := w.messages + [a];
    SnocSystemFirst(w.messages, a);
    AddRetains(w, a);
    AddRetains(Add(w, a), b);
    RetainedOfRetained(w.capacity, x, b);
    assert x + [b] == w.messages + [a, b];
  }

  /** A window of three or more keeps the last two messages of a history
      in place. */
  lemma LastTwoRetained(c: Capacity, x: seq<Message>, a: Message, b: Message)
    requires c >= 3
    ensures var h := Retained(c, x + [a, b]);
            |h| >= 2 && h[|h| - 2] == a && h[|h| - 1] == b
  {
    var y := x + [a, b];
    assert y[|y| - 2] == a && y[|y| - 1] == b;
  }

  /** Appends several messages in order. */
  function AddAll(w: Window, ms: seq<Message>): Window
    decreases |ms|
  {
    if |ms| == 0 then w else AddAll(Add(w, ms[0]), ms[1..])
  }

  /** Keeping the newest `c` of a sequence, appending, and keeping the newest
      `c` again is the same as keeping the newest `c` of the whole. */
  lemma NewestOfNewest<T>(a: seq<T>, b: seq<T>, c: nat)
    ensures var x := a[|a| - Min(c, |a|)..] + b;
            x[|x| - Min(c, |x|)..] == (a + b)[|a + b| - Min(c, |a + b|)..]
  {
    var k := |a| - Min(c, |a|);
    assert a[k..] + b == (a + b)[k..];
  }

  /** One ordinary message added to a window without system messages:
      the newest `capacity` are kept and none of them is a system message. */
  lemma AddKeepsNewest(w: Window, m: Message)
    requires |w.messages| <= w.capacity && NoSystem(w.messages) && m.role != System
    ensures var s := w.messages + [m];
            Add(w, m) == Window(w.capacity, s[|s| - Min(w.capacity, |s|)..]) &&
            NoSystem(Add(w, m).messages) && |Add(w, m).messages| <= w.capacity
  {
    var s := w.messages + [m];
    assert NoSystem(s);
    EvictKeepsNewest(w.capacity, s);
  }

  /** Appending to a window holding no system message keeps the newest
      `capacity` messages of everything appended so far. */
  lemma {:induction false} AddAllKeepsNewest(w: Window, ms: seq<Message>)
    requires |w.messages| <= w.capacity && NoSystem(w.messages) && NoSystem(ms)
    ensures var all := w.messages + ms;
            AddAll(w, ms).messages == all[|all| - Min(w.capacity, |all|)..]
    decreases |ms|
  {
    if |ms| == 0 {
      assert w.messages + ms == w.messages;
    } else {
      var s := w.messages + [ms[0]];
      var tail := ms[1..];
      var w' := Add(w, ms[0]);
      AddKeepsNewest(w, ms[0]);
      AddAllKeepsNewest(w', tail);
      NewestOfNewest(s, tail, w.capacity);
      assert s + tail == w.messages + ms;
    }
  }

  /** Capacity `c` and `c + 1` ordinary messages: the window holds `c`
      messages and the first one appended is gone. */
  lemma OverflowByOneDropsFirst(c: Capacity, ms: seq<Message>)
    requires |ms| == c + 1
    requires NoSystem(ms)
    ensures AddAll(Empty(c), ms).messages == ms[1..]
    ensures |AddAll(Empty(c), ms).messages| == c
  {
    AddAllKeepsNewest(Empty(c), ms);
    assert [] + ms == ms;
  }

  // ---------------------------------------------------------------------
  // Serialising a window into a prompt.
  // ---------------------------------------------------------------------

  /** Concatenates the rendering of every message, oldest first. */
  function Transcript(render: Message -> string, msgs: seq<Message>): string
    decreases |msgs|
  {
    if |msgs| == 0 then "" else render(msgs[0]) + Transcript(render, msgs[1..])
  }

  /** A transcript grows by exactly the rendering of the appended message. */
  lemma {:induction false} TranscriptSnoc(render: Message -> string, msgs: seq<Message>, m: Message)
    ensures Transcript(render, msgs + [m]) == Transcript(render, msgs) + render(m)
    decreases |msgs|
  {
    if |msgs| == 0 {
      assert [] + [m] == [m];
    } else {
      assert (msgs + [m])[1..] == msgs[1..] + [m];
      TranscriptSnoc(render, msgs[1..], m);
    }
  }

  /** After an append the services make to a window of two or more
      messages, the transcript ends with the rendering of the new message,
      after the transcript of what was kept before it. */
  lemma AddedMessageRendersLast(render: Message -> string, w: Window, m: Message)
    requires Appendable(w, m) && w.capacity >= 2
    ensures var msgs := Add(w, m).messages;
            |msgs| >= 1 && Transcript(render, msgs) == Transcript(render, msgs[..|msgs| - 1]) + render(m)
  {
    AddRetains(w, m);
    var msgs := Add(w, m).messages;
    assert msgs == msgs[..|msgs| - 1] + [m];
    TranscriptSnoc(render, msgs[..|msgs| - 1], m);
  }

  /** Appending a non-system message to a window without system messages
      keeps it within capacity and without system messages. */
  lemma AddKeepsNoSystem(w: Window, m: Message)
    requires m.role != System
    ensures |w.messages| <= w.capacity && NoSystem(w.messages) ==>
              |Add(w, m).messages| <= w.capacity && NoSystem(Add(w, m).messages)
  {
    if NoSystem(w.messages) {
      var all := w.messages + [m];
      assert NoSystem(all);
      EvictKeepsNewest(w.capacity, all);
    }
  }

  /** One line per user or AI message, `"User: "` / `"Assistant: "`, each
      ending in a newline; any other message is skipped. */
  function ChatLine(m: Message): string {
    match m.role
    case User => "User: " + m.text + "\n"
    case Assistant => "Assistant: " + m.text + "\n"
    case System => ""
  }

  /** One block per message with its role as prefix, each ending in a blank line. */
  function PromptBlock(m: Message): string {
    match m.role
    case System => "System: " + m.text + "\n\n"
    case User => "User: " + m.text + "\n\n"
    case Assistant => "Assistant: " + m.text + "\n\n"
  }
}

=== FILE: conversation_controller.dfy ===
/** The REST front of the getting-started conversation service: `/chat`
    checks the conversation id, then the message, then runs a turn; the
    history endpoint answers 404 for an id that was never registered. The
    JSON body is a map of nullable strings. */
module ConversationController {
  import opened Wrappers
  import opened JavaLang
  import opened ChatMemory
  import opened Web
  import ConversationService

  const IdRequired: string := "conversationId is required"

  const EmptyMessage: string := "message cannot be empty"

  const NotFoundMessage: string := "Conversation not found"

  const UnknownError: string := "Unknown error"

  /** The JSON body of a `/chat` response. */
  datatype ChatBody =
    | Error(error: string)
    | Answer(conversationId: string, message: string, answer: string)
    | TurnFailed(conversationId: string, error: string)

  /** The message of a `/chat` body: `getOrDefault("message", "")`, so an
      absent key reads as the empty string and a present null stays null. */
  function MessageOf(body: map<string, Option<string>>): (m: Option<string>)
    ensures "message" !in body ==> m == Some("")
    ensures "message" in body ==> m == body["message"]
  {
    if "message" in body then body["message"] else Some("")
  }

  /** `chat`: the conversations after the request and the response, or the
      exception the handler lets escape (a null message is dereferenced
      outside the `try`). */
  function Chat(cs: ConversationService.Conversations, chat: string -> Result<string, Throwable>, body: map<string, Option<string>>)
    : (r: (ConversationService.Conversations, Result<Http<ChatBody>, Throwable>))
    ensures r.1.Success? && r.1.value.status == Ok ==> r.1.value.body.Answer?
    ensures r.1.Failure? ==> r.1.error.kind == NullPointer && r.0 == cs
    ensures r.1.Success? && r.1.value.status == BadRequest ==> r.0 == cs
    ensures r.1 == Success(Http(BadRequest, Error(IdRequired))) <==>
            Get(body, "conversationId").None? || IsBlank(Get(body, "conversationId").value)
  {
    var id := Get(body, "conversationId");
    var message := MessageOf(body);
    if id.None? || IsBlank(id.value) then (cs, Success(Http(BadRequest, Error(IdRequired))))
    else if message.None? then (cs, Failure(Throwable(NullPointer, None)))
    else if IsBlank(message.value) then (cs, Success(Http(BadRequest, Error(EmptyMessage))))
    else
      var turn := ConversationService.Chat(cs, chat, id.value, message.value);
      match turn.reply
      case Success(answer) => (turn.conversations, Success(Http(Ok, Answer(id.value, message.value, answer))))
      case Failure(e) => (turn.conversations, Success(Http(InternalServerError, TurnFailed(id.value, e.message.GetOr(UnknownError)))))
  }

  /** `chat` as evidently intended: a null message is refused like a blank
      one, so the handler always answers. Otherwise it is `Chat`. */
  function ChatNullSafe(cs: ConversationService.Conversations, chat: string -> Result<string, Throwable>, body: map<string, Option<string>>)
    : (r: (ConversationService.Conversations, Http<ChatBody>))
    ensures var id := Get(body, "conversationId");
            id.Some? && !IsBlank(id.value) && (MessageOf(body).None? || IsBlank(MessageOf(body).value)) <==>
              r == (cs, Http(BadRequest, Error(EmptyMessage)))
    ensures MessageOf(body).Some? ==> Chat(cs, chat, body) == (r.0, Success(r.1))
  {
    var id := Get(body, "conversationId");
    var message := MessageOf(body);
    if id.Some? && !IsBlank(id.value) && message.None? then (cs, Http(BadRequest, Error(EmptyMessage)))
    else
      var (after, response) := Chat(cs, chat, body);
      (after, response.value)
  }

  /** The JSON body of a history response. */
  datatype HistoryBody =
    | Missing(error: string)
    | Found(conversationId: string, messageCount: nat, messages: seq<Message>)

  /** `getHistory`. */
  function History(cs: ConversationService.Conversations, id: string): (r: Http<HistoryBody>)
    ensures r.status == NotFound <==> !ConversationService.ConversationExists(cs, id)
    ensures r.status == NotFound ==> r.body == Missing(NotFoundMessage)
    ensures r.status != NotFound ==> r.status == Ok && r.body.Found? && r.body.conversationId == id
  {
    if !ConversationService.ConversationExists(cs, id) then Http(NotFound, Missing(NotFoundMessage))
    else
      var history := ConversationService.History(cs, id);
      Http(Ok, Found(id, |history|, history))
  }

  /** A missing or blank id is refused before the message is looked at, even
      a null message, and the conversations do not change. */
  lemma IdCheckedFirst(cs: ConversationService.Conversations, chat: string -> Result<string, Throwable>, body: map<string, Option<string>>)
    requires Get(body, "conversationId").None? || IsBlank(Get(body, "conversationId").value)
    ensures Chat(cs, chat, body) == (cs, Success(Http(BadRequest, Error(IdRequired))))
  {
  }

  /** A body without a message is refused as empty, and the chat model is
      not consulted. */
  lemma MissingMessageIsEmpty(cs: ConversationService.Conversations, chat: string -> Result<string, Throwable>, body: map<string, Option<string>>)
    requires Get(body, "conversationId").Some? && !IsBlank(Get(body, "conversationId").value)
    requires "message" !in body
    ensures Chat(cs, chat, body) == (cs, Success(Http(BadRequest, Error(EmptyMessage))))
  {
    assert MessageOf(body) == Some("");
  }

  /** A present but null message escapes the handler as a
      `NullPointerException`, not a 400. */
  lemma NullMessageEscapes(cs: ConversationService.Conversations, chat: string -> Result<string, Throwable>, body: map<string, Option<string>>)
    requires Get(body, "conversationId").Some? && !IsBlank(Get(body, "conversationId").value)
    requires "message" in body && body["message"].None?
    ensures Chat(cs, chat, body).1.Failure?
  {
  }

  /** A valid request runs exactly one service turn: on success the reply is
      returned with the id and message echoed; on failure the status is 500
      with the exception's message, or "Unknown error" when it has none. In
      both cases the conversations are those the turn left behind. */
  lemma ValidRequestRunsTurn(cs: ConversationService.Conversations, chat: string -> Result<string, Throwable>, body: map<string, Option<string>>, id: string, message: string)
    requires Get(body, "conversationId") == Some(id) && !IsBlank(id)
    requires MessageOf(body) == Some(message) && !IsBlank(message)
    ensures var turn := ConversationService.Chat(cs, chat, id, message);
            var r := Chat(cs, chat, body);
            r.0 == turn.conversations &&
            (turn.reply.Success? ==> r.1 == Success(Http(Ok, Answer(id, message, turn.reply.value)))) &&
            (turn.reply.Failure? ==> r.1 == Success(Http(InternalServerError, TurnFailed(id, turn.reply.error.message.GetOr(UnknownError)))))
  {
  }

  /** The reported count is the length of the listed history, which the
      service keeps within the ten-message window. */
  lemma HistoryCountsMessages(cs: ConversationService.Conversations, id: string)
    requires ConversationService.WellFormed(cs) && id in cs
    ensures History(cs, id).body.messageCount == |History(cs, id).body.messages| <= ConversationService.MaxMessages
    ensures History(cs, id).body.messages == cs[id].messages
  {
  }
}

=== FILE: conversation_service.dfy ===
/** The getting-started conversation service: a map from conversation id to
    a ten-message window. A chat turn fetches or creates the window, appends
    the user message, sends the window rendered one line per message to the
    chat model, and appends the reply. The chat model is a parameter that
    answers or throws; a new id comes in as a parameter (the service draws a
    random UUID). */
module ConversationService {
  import opened Wrappers
  import opened JavaLang
  import opened ChatMemory

  /** The window size of every conversation. */
  const MaxMessages: Capacity := 10

  type Conversations = map<string, Window>

  /** Every conversation is a ten-message window within its capacity,
      holding user and assistant messages only. */
  predicate WellFormed(cs: Conversations) {
    forall id :: id in cs ==> cs[id].capacity == MaxMessages && |cs[id].messages| <= MaxMessages && NoSystem(cs[id].messages)
  }

  /** `startConversation`: registers an empty window under the new id and
      returns the id. */
  function StartConversation(cs: Conversations, freshId: string): (r: (string, Conversations))
    ensures r.1.Keys == cs.Keys + {r.0}
    ensures r.1[r.0] == Empty(MaxMessages)
    ensures forall id :: id in cs && id != r.0 ==> r.1[id] == cs[id]
  {
    (freshId, cs[freshId := Empty(MaxMessages)])
  }

  /** The context of a turn: `"User: "` / `"Assistant: "` lines in memory order. */
  function Context(w: Window): string {
    Transcript(ChatLine, w.messages)
  }

  /** The conversations after a turn and what the turn returned or threw. */
  datatype Turn = Turn(conversations: Conversations, reply: Result<string, Throwable>)

  /** `chat`. */
  function Chat(cs: Conversations, chat: string -> Result<string, Throwable>, id: string, message: string): (r: Turn)
    ensures r.conversations.Keys == cs.Keys + {id}
    ensures forall other :: other in cs && other != id ==> r.conversations[other] == cs[other]
    ensures r.conversations[id].capacity == (if id in cs then cs[id].capacity else MaxMessages)
    ensures WellFormed(cs) ==> WellFormed(r.conversations)
  {
    var mem0 := if id in cs then cs[id] else Empty(MaxMessages);
    var user := Message(User, message);
    var mem1 := Add(mem0, user);
    AddKeepsNoSystem(mem0, user);
    match chat(Context(mem1))
    case Failure(e) => Turn(cs[id := mem1], Failure(e))
    case Success(response) =>
      AddKeepsNoSystem(mem1, Message(Assistant, response));
      Turn(cs[id := Add(mem1, Message(Assistant, response))], Success(response))
  }

  /** `getHistory`: the messages, or none for an unknown id. */
  function History(cs: Conversations, id: string): seq<Message> {
    if id in cs then cs[id].messages else []
  }

  /** `clearConversation`. */
  function ClearConversation(cs: Conversations, id: string): (r: Conversations)
    ensures r.Keys == cs.Keys - {id}
    ensures forall other :: other in r ==> r[other] == cs[other]
  {
    cs - {id}
  }

  /** `conversationExists`. */
  predicate ConversationExists(cs: Conversations, id: string) {
    id in cs
  }

  /** A new id that was not in use becomes a conversation with an empty
      history, and it is the only id added. */
  lemma StartRegistersFreshId(cs: Conversations, freshId: string)
    requires freshId !in cs
    ensures var (id, after) := StartConversation(cs, freshId);
            !ConversationExists(cs, id) && ConversationExists(after, id) && History(after, id) == [] &&
            |after.Keys| == |cs.Keys| + 1 && after[id].capacity == MaxMessages
  {
  }

  /** A turn on an unknown id creates a ten-message conversation under it. */
  lemma ChatCreatesUnknown(cs: Conversations, chat: string -> Result<string, Throwable>, id: string, message: string)
    requires !ConversationExists(cs, id)
    ensures var after := Chat(cs, chat, id, message).conversations;
            ConversationExists(after, id) && after[id].capacity == MaxMessages
  {
  }

  /** The newest `c` elements of `s`. */
  function Newest<T>(c: nat, s: seq<T>): seq<T> {
    s[|s| - Min(c, |s|)..]
  }

  /** On a window of ordinary messages, one or two adds keep the newest
      messages of everything added so far. */
  lemma AddsKeepNewest(w: Window, a: Message, b: Message)
    requires |w.messages| <= w.capacity && NoSystem(w.messages)
    requires a.role != System && b.role != System
    ensures Add(w, a).messages == Newest(w.capacity, w.messages + [a])
    ensures Add(Add(w, a), b).messages == Newest(w.capacity, w.messages + [a, b])
  {
    AddAllKeepsNewest(w, [a]);
    assert AddAll(w, [a]) == Add(w, a) by {
      assert [a][1..] == [];
    }
    AddAllKeepsNewest(w, [a, b]);
    calc {
      AddAll(w, [a, b]);
      { assert [a, b][1..] == [b]; }
      AddAll(Add(w, a), [b]);
      { assert [b][1..] == []; }
      AddAll(Add(Add(w, a), b), []);
    }
  }

  /** The user message goes in before the model is asked and the reply
      after it: a turn that answers leaves the newest ten of the history
      followed by both messages; a turn that throws leaves the newest ten of
      the history followed by the user message alone. */
  lemma ChatAppendsInOrder(cs: Conversations, chat: string -> Result<string, Throwable>, id: string, message: string)
    requires WellFormed(cs)
    ensures var r := Chat(cs, chat, id, message);
            var before := History(cs, id);
            match r.reply
            case Success(response) =>
              History(r.conversations, id) == Newest(MaxMessages, before + [Message(User, message), Message(Assistant, response)])
            case Failure(_) =>
              History(r.conversations, id) == Newest(MaxMessages, before + [Message(User, message)])
    ensures Chat(cs, chat, id, message).reply ==
              chat(Transcript(ChatLine, Newest(MaxMessages, History(cs, id) + [Message(User, message)])))
  {
    var mem0 := if id in cs then cs[id] else Empty(MaxMessages);
    assert mem0.messages == History(cs, id) && mem0.capacity == MaxMessages;
    assert |mem0.messages| <= mem0.capacity && NoSystem(mem0.messages);
    var user := Message(User, message);
    match chat(Context(Add(mem0, user)))
    case Failure(_) =>
      AddsKeepNewest(mem0, user, Message(Assistant, ""));
    case Success(response) =>
      AddsKeepNewest(mem0, user, Message(Assistant, response));
  }

  /** The model is asked on the kept history as lines, the new user message
      as the last line, and the turn returns what it answers. */
  lemma UserLineLast(cs: Conversations, chat: string -> Result<string, Throwable>, id: string, message: string)
    requires WellFormed(cs)
    ensures var mem1 := Add(if id in cs then cs[id] else Empty(MaxMessages), Message(User, message));
            var msgs := mem1.messages;
            |msgs| >= 1 && msgs[|msgs| - 1] == Message(User, message) &&
            Context(mem1) == Transcript(ChatLine, msgs[..|msgs| - 1]) + "User: " + message + "\n" &&
            Chat(cs, chat, id, message).reply == chat(Transcript(ChatLine, msgs[..|msgs| - 1]) + "User: " + message + "\n")
  {
    var mem0 := if id in cs then cs[id] else Empty(MaxMessages);
    var m := Message(User, message);
    assert NoSystem(mem0.messages);
    AddRetains(mem0, m);
    AddedMessageRendersLast(ChatLine, mem0, m);
  }

  /** An unknown id has an empty history, and asking for it creates nothing. */
  lemma HistoryOfUnknown(cs: Conversations, id: string)
    requires !ConversationExists(cs, id)
    ensures History(cs, id) == [] && !ConversationExists(cs, id)
  {
  }

  /** After clearing, the id no longer exists and every other id keeps its
      conversation. */
  lemma ClearForgetsOnlyThatId(cs: Conversations, id: string, other: string)
    requires other != id
    ensures !ConversationExists(ClearConversation(cs, id), id)
    ensures ConversationExists(ClearConversation(cs, id), other) == ConversationExists(cs, other)
    ensures History(ClearConversation(cs, id), other) == History(cs, other)
  {
  }
}

=== FILE: java_lang.dfy ===
/** The few `java.lang` behaviours the services lean on, written out so that
    their edge cases are visible: `Character.isWhitespace` / `String.isBlank`
    versus `String.trim`, `String.split` with its trailing-empty rule,
    `contains`, `replace`, UTF-16 `length()` and `%d` rendering. A thrown
    exception is a `Throwable` whose message may be null. */
module JavaLang {
  import opened Wrappers

  /** The exception classes that some catch clause or wrapper in the services
      tells apart; `Runtime` is a plain `RuntimeException`. */
  datatype ExceptionKind = IllegalArgument | AgentFailure | NullPointer | ClassCast | Runtime | Other

  datatype Throwable = Throwable(kind: ExceptionKind, message: Option<string>)

  /** String concatenation (`"x" + s`) renders a null reference as "null". */
  function Str(s: Option<string>): string {
    match s
    case Some(v) => v
    case None => "null"
  }

  // ---------------------------------------------------------------------
  // Whitespace: `isBlank` and `trim` disagree on what counts.
  // ---------------------------------------------------------------------

  /** `Character.isWhitespace`: the Unicode space, line and paragraph
      separators other than the no-break spaces U+00A0, U+2007 and U+202F,
      plus the ASCII controls U+0009..U+000D and U+001C..U+001F. */
  predicate IsWhitespace(c: char) {
    || ('\t' <= c <= '\r')
    || ('\U{001C}' <= c <= ' ')
    || c == '\U{1680}'
    || ('\U{2000}' <= c <= '\U{2006}')
    || ('\U{2008}' <= c <= '\U{200A}')
    || c == '\U{2028}' || c == '\U{2029}'
    || c == '\U{205F}' || c == '\U{3000}'
  }

  /** `String.isBlank`: every code point is whitespace (vacuously so for ""). */
  predicate IsBlank(s: string) {
    forall i :: 0 <= i < |s| ==> IsWhitespace(s[i])
  }

  /** `String.trim` strips every character at or below U+0020 from both ends. */
  predicate Trimmable(c: char) {
    c <= ' '
  }

  /** Number of trimmable characters at the front of `s`. */
  function LeadingTrim(s: string): (n: nat)
    ensures n <= |s|
    ensures forall i :: 0 <= i < n ==> Trimmable(s[i])
    ensures n == |s| || !Trimmable(s[n])
  {
    if |s| == 0 || !Trimmable(s[0]) then 0 else 1 + LeadingTrim(s[1..])
  }

  /** Number of trimmable characters at the back of `s`. */
  function TrailingTrim(s: string): (n: nat)
    ensures n <= |s|
    ensures forall i :: |s| - n <= i < |s| ==> Trimmable(s[i])
    ensures n == |s| || !Trimmable(s[|s| - 1 - n])
  {
    if |s| == 0 || !Trimmable(s[|s| - 1]) then 0 else 1 + TrailingTrim(s[..|s| - 1])
  }

  /** `String.trim`: the slice of `s` left once both trimmable ends are cut. */
  function Trim(s: string): (r: string)
    ensures |r| == 0 <==> forall i :: 0 <= i < |s| ==> Trimmable(s[i])
    ensures |r| > 0 ==> !Trimmable(r[0]) && !Trimmable(r[|r| - 1])
    ensures LeadingTrim(s) + |r| <= |s| && r == s[LeadingTrim(s)..LeadingTrim(s) + |r|]
    ensures forall i :: 0 <= i < |s| && !(LeadingTrim(s) <= i < LeadingTrim(s) + |r|) ==> Trimmable(s[i])
  {
    var a := LeadingTrim(s);
    if a == |s| then ""
    else
      s[a..|s| - TrailingTrim(s)]
  }

  /** `trim` cuts exactly the trimmable ends: a slice `s[a..b]` with only
      trimmable characters outside it, and a non-trimmable character at
      each of its ends, is the trimmed string. */
  lemma TrimUnique(s: string, a: nat, b: nat)
    requires a <= b <= |s|
    requires forall i :: 0 <= i < a ==> Trimmable(s[i])
    requires forall i :: b <= i < |s| ==> Trimmable(s[i])
    requires a < b ==> !Trimmable(s[a]) && !Trimmable(s[b - 1])
    ensures Trim(s) == s[a..b]
  {
    var r := Trim(s);
    var l := LeadingTrim(s);
    if a == b {
      assert forall i :: 0 <= i < |s| ==> Trimmable(s[i]);
    } else {
      assert l == a;
      assert |r| > 0;
      assert r[|r| - 1] == s[l + |r| - 1];
    }
  }

  lemma DropOfAppend(k: string, t: string, a: nat)
    requires a <= |k|
    ensures (k + t)[a..] == k[a..] + t
  {
  }

  lemma TakeOfPrepend(t: string, v: string, q: nat)
    requires q <= |v|
    ensures (t + v)[0..|t| + q] == t + v[..q]
  {
  }

  lemma SliceOfTake(v: string, p: nat, q: nat)
    requires p <= q <= |v|
    ensures v[..q][p..q] == v[p..q]
  {
  }

  /** Appending a non-trimmable character: only the front of `k` is cut. */
  lemma SnocTrim(k: string, e: char, a: nat)
    requires !Trimmable(e) && a <= |k|
    requires forall i :: 0 <= i < a ==> Trimmable(k[i])
    requires a < |k| ==> !Trimmable(k[a])
    ensures Trim(k + [e]) == k[a..] + [e]
  {
    var s := k + [e];
    assert forall i :: 0 <= i < a ==> s[i] == k[i];
    assert s[a] == if a < |k| then k[a] else e;
    TrimUnique(s, a, |s|);
    DropOfAppend(k, [e], a);
  }

  /** `trim` of `k` followed by a non-trimmable character. */
  lemma TrimSnoc(k: string, e: char)
    requires !Trimmable(e)
    ensures Trim(k + [e]) == k[LeadingTrim(k)..] + [e]
  {
    SnocTrim(k, e, LeadingTrim(k));
  }

  /** Prepending a non-trimmable character: only the back of `v`, from `q`
      on, is cut. */
  lemma ConsTrim(e: char, v: string, q: nat)
    requires !Trimmable(e) && 1 <= q <= |v| && !Trimmable(v[q - 1])
    requires forall i :: q <= i < |v| ==> Trimmable(v[i])
    ensures Trim([e] + v) == [e] + v[..q]
  {
    var s := [e] + v;
    assert forall i :: q + 1 <= i < |s| ==> s[i] == v[i - 1];
    assert s[q] == v[q - 1];
    TrimUnique(s, 0, q + 1);
    TakeOfPrepend([e], v, q);
  }

  /** The end of the trimmed part of `v`. */
  function TrimEnd(v: string): (q: nat)
    ensures q <= |v|
  {
    LeadingTrim(v) + |Trim(v)|
  }

  /** `trim` of a non-trimmable character followed by a `v` that does not
      trim to nothing: `v` loses its trimmable back only. */
  lemma TrimCons(e: char, v: string)
    requires !Trimmable(e) && !TrimIsEmpty(v)
    ensures 1 <= TrimEnd(v) && Trim([e] + v) == [e] + v[..TrimEnd(v)]
  {
    var q := TrimEnd(v);
    assert !Trimmable(v[q - 1]);
    ConsTrim(e, v, q);
  }

  /** The trimmed part of `v` ends with a non-trimmable character. */
  lemma TrimEndBounds(v: string)
    requires !TrimIsEmpty(v)
    ensures LeadingTrim(v) < TrimEnd(v) && !Trimmable(v[LeadingTrim(v)]) && !Trimmable(v[TrimEnd(v) - 1])
  {
    var r := Trim(v);
    var l := LeadingTrim(v);
    assert |r| > 0;
    assert r[0] == v[l];
    assert r[|r| - 1] == v[l + |r| - 1];
  }

  /** A prefix reaching past position `p` agrees with `v` up to `p`. */
  lemma PrefixAgrees(v: string, p: nat, q: nat)
    requires p < q <= |v|
    ensures forall i :: 0 <= i <= p ==> v[..q][i] == v[i]
    ensures v[..q][q - 1] == v[q - 1]
  {
  }

  lemma TrimmedPrefixEnds(v: string)
    requires !TrimIsEmpty(v)
    ensures var p := LeadingTrim(v);
            var q := TrimEnd(v);
            var w := v[..q];
            p < q && (forall i :: 0 <= i < p ==> Trimmable(w[i])) && !Trimmable(w[p]) && !Trimmable(w[q - 1])
  {
    TrimEndBounds(v);
    PrefixAgrees(v, LeadingTrim(v), TrimEnd(v));
  }

  /** Cutting the trimmable back off `v` first does not change its `trim`. */
  lemma TrimOfTrimEnd(v: string)
    requires !TrimIsEmpty(v)
    ensures Trim(v[..TrimEnd(v)]) == Trim(v)
  {
    var q := TrimEnd(v);
    TrimmedPrefixEnds(v);
    TrimUnique(v[..q], LeadingTrim(v), q);
    SliceOfTake(v, LeadingTrim(v), q);
  }

  /** The controllers' `s.trim().isEmpty()`. */
  predicate TrimIsEmpty(s: string) {
    |Trim(s)| == 0
  }

  /** The two emptiness tests are different predicates: a NUL character is
      trimmed away but is not whitespace, and an ideographic space is
      whitespace but survives `trim`. */
  lemma BlankAndTrimDisagree()
    ensures TrimIsEmpty("\0") && !IsBlank("\0")
    ensures IsBlank("\U{3000}") && !TrimIsEmpty("\U{3000}")
  {
    assert !IsWhitespace("\0"[0]);
    assert !Trimmable("\U{3000}"[0]);
  }

  /** On strings that avoid the ASCII control characters outside the
      whitespace set and all non-ASCII characters, the two tests agree. */
  lemma BlankAgreesWithTrimOnAscii(s: string)
    requires forall i :: 0 <= i < |s| ==> s[i] < '\U{0080}' && (Trimmable(s[i]) ==> IsWhitespace(s[i]))
    ensures IsBlank(s) <==> TrimIsEmpty(s)
  {
  }

  // ---------------------------------------------------------------------
  // Joining and splitting.
  // ---------------------------------------------------------------------

  /** `String.join` / `Collectors.joining(sep)`. */
  function JoinWith(parts: seq<string>, sep: string): string
  {
    if |parts| == 0 then ""
    else if |parts| == 1 then parts[0]
    else parts[0] + sep + JoinWith(parts[1..], sep)
  }

  lemma JoinSnoc(parts: seq<string>, sep: string, x: string)
    requires |parts| >= 1
    ensures JoinWith(parts + [x], sep) == JoinWith(parts, sep) + sep + x
  {
    if |parts| == 1 {
      assert (parts + [x])[1..] == [x];
    } else {
      assert (parts + [x])[1..] == parts[1..] + [x];
      JoinSnoc(parts[1..], sep, x);
    }
  }

  lemma JoinHeadPrepend(c: char, parts: seq<string>, sep: string)
    requires |parts| >= 1
    ensures JoinWith([[c] + parts[0]] + parts[1..], sep) == [c] + JoinWith(parts, sep)
  {
    if |parts| > 1 {
      assert ([[c] + parts[0]] + parts[1..])[1..] == parts[1..];
    }
  }

  /** Concatenation of all parts in order (a `StringBuilder` appended to in a loop). */
  function Concat(parts: seq<string>): string {
    if |parts| == 0 then "" else parts[0] + Concat(parts[1..])
  }

  lemma {:induction false} ConcatSnoc(parts: seq<string>, x: string)
    ensures Concat(parts + [x]) == Concat(parts) + x
  {
    if |parts| == 0 {
      assert [] + [x] == [x];
    } else {
      assert (parts + [x])[1..] == parts[1..] + [x];
      ConcatSnoc(parts[1..], x);
    }
  }

  /** Number of occurrences of `c` in `s`. */
  function Count(s: string, c: char): nat {
    if |s| == 0 then 0 else (if s[0] == c then 1 else 0) + Count(s[1..], c)
  }

  lemma {:induction false} CountAppend(s: string, t: string, c: char)
    ensures Count(s + t, c) == Count(s, c) + Count(t, c)
  {
    if |s| == 0 {
      assert s + t == t;
    } else {
      assert (s + t)[1..] == s[1..] + t;
      CountAppend(s[1..], t, c);
    }
  }

  lemma {:induction false} CountAbsent(s: string, c: char)
    requires c !in s
    ensures Count(s, c) == 0
  {
    if |s| > 0 {
      CountAbsent(s[1..], c);
    }
  }

  /** Splitting at every occurrence of `sep`, keeping every empty piece. */
  function RawSplit(s: string, sep: char): (r: seq<string>)
    ensures |r| >= 1
    ensures forall i :: 0 <= i < |r| ==> sep !in r[i]
    ensures JoinWith(r, [sep]) == s
  {
    if |s| == 0 then [""]
    else
      var rest := RawSplit(s[1..], sep);
      if s[0] == sep then
        assert [""] + rest == [""] + rest;
        assert ([""] + rest)[1..] == rest;
        [""] + rest
      else
        JoinHeadPrepend(s[0], rest, [sep]);
        assert s == [s[0]] + s[1..];
        [[s[0]] + rest[0]] + rest[1..]
  }

  /** Drops trailing empty strings, as `split` does with limit 0. */
  function StripTrailingEmpty(parts: seq<string>): (r: seq<string>)
    ensures r <= parts
    ensures |r| == 0 || r[|r| - 1] != ""
    ensures forall i :: |r| <= i < |parts| ==> parts[i] == ""
  {
    if |parts| > 0 && parts[|parts| - 1] == "" then StripTrailingEmpty(parts[..|parts| - 1]) else parts
  }

  /** `s.split(sep)` for a one-character, non-special separator: when the
      separator does not occur the result is `[s]` (even for ""), otherwise
      the pieces between separators with trailing empty pieces removed. */
  function Split(s: string, sep: char): (r: seq<string>)
    ensures forall i :: 0 <= i < |r| ==> sep !in r[i]
    ensures sep !in s ==> r == [s]
    ensures sep in s ==> |r| == 0 || r[|r| - 1] != ""
  {
    if sep !in s then [s] else StripTrailingEmpty(RawSplit(s, sep))
  }

  /** Without the separator, the raw split is the whole string. */
  lemma {:induction false} RawSplitNone(y: string, sep: char)
    requires sep !in y
    ensures RawSplit(y, sep) == [y]
    decreases |y|
  {
    if |y| > 0 {
      RawSplitNone(y[1..], sep);
      assert y == [y[0]] + y[1..];
    }
  }

  /** One separator between two separator-free strings gives those two pieces. */
  lemma {:induction false} RawSplitOne(x: string, y: string, sep: char)
    requires sep !in x && sep !in y
    ensures RawSplit(x + [sep] + y, sep) == [x, y]
    decreases |x|
  {
    var s := x + [sep] + y;
    if |x| == 0 {
      assert s == [sep] + y && s[1..] == y;
      RawSplitNone(y, sep);
    } else {
      assert s[1..] == x[1..] + [sep] + y;
      RawSplitOne(x[1..], y, sep);
      assert x == [x[0]] + x[1..];
    }
  }

  /** `split` at the one separator of `x + sep + y`: both pieces, except that
      an empty second piece is dropped, and then an empty first one too. */
  lemma SplitOneSeparator(x: string, y: string, sep: char)
    requires sep !in x && sep !in y
    ensures Split(x + [sep] + y, sep) == if y != "" then [x, y] else if x != "" then [x] else []
  {
    assert (x + [sep] + y)[|x|] == sep;
    RawSplitOne(x, y, sep);
    if y == "" {
      assert [x, y][..1] == [x];
      if x == "" {
        assert [x][..0] == [];
      }
    }
  }

  /** Stripping empties from the back removes only separators from the joined text. */
  lemma {:induction false} StripKeepsPrefix(parts: seq<string>, sep: char)
    ensures JoinWith(StripTrailingEmpty(parts), [sep]) <= JoinWith(parts, [sep])
    ensures forall i :: |JoinWith(StripTrailingEmpty(parts), [sep])| <= i < |JoinWith(parts, [sep])| ==>
              JoinWith(parts, [sep])[i] == sep
    decreases |parts|
  {
    if |parts| > 0 && parts[|parts| - 1] == "" {
      var init := parts[..|parts| - 1];
      assert parts == init + [""];
      StripKeepsPrefix(init, sep);
      if |init| >= 1 {
        JoinSnoc(init, [sep], "");
      }
    }
  }

  /** Joining the pieces of a split gives back `s` up to a tail made only of
      separators: nothing but trailing separators is lost. */
  lemma SplitThenJoin(s: string, sep: char)
    ensures JoinWith(Split(s, sep), [sep]) <= s
    ensures forall i :: |JoinWith(Split(s, sep), [sep])| <= i < |s| ==> s[i] == sep
  {
    if sep in s {
      StripKeepsPrefix(RawSplit(s, sep), sep);
    }
  }

  // ---------------------------------------------------------------------
  // Searching and replacing.
  // ---------------------------------------------------------------------

  /** `s.contains(t)`. */
  function Contains(s: string, t: string): bool
  {
    t <= s || (|s| > 0 && Contains(s[1..], t))
  }

  /** `t` occurs in `s` starting at position `i`. */
  predicate OccursAt(s: string, t: string, i: int) {
    0 <= i <= |s| - |t| && s[i..i + |t|] == t
  }

  /** `contains` holds exactly when `t` occurs at some position of `s`. */
  lemma {:induction false} ContainsIff(s: string, t: string)
    ensures Contains(s, t) <==> exists i :: OccursAt(s, t, i)
  {
    if t <= s {
      assert OccursAt(s, t, 0);
    } else if |s| > 0 {
      ContainsIff(s[1..], t);
      if Contains(s[1..], t) {
        var i :| OccursAt(s[1..], t, i);
        assert OccursAt(s, t, i + 1);
      }
      if exists i :: OccursAt(s, t, i) {
        var i :| OccursAt(s, t, i);
        if i > 0 {
          assert OccursAt(s[1..], t, i - 1);
        }
      }
    }
  }

  /** `s.replace(String.valueOf(c), "")`: every occurrence of `c` removed. */
  function RemoveChar(s: string, c: char): (r: string)
    ensures c !in r
    ensures |r| <= |s|
    ensures forall i :: 0 <= i < |r| ==> r[i] in s
    ensures c !in s ==> r == s
  {
    if |s| == 0 then ""
    else if s[0] == c then RemoveChar(s[1..], c)
    else [s[0]] + RemoveChar(s[1..], c)
  }

  /** Removing `c` from one character drops it exactly when it is `c`. */
  lemma RemoveCharSingle(d: char, c: char)
    ensures RemoveChar([d], c) == if d == c then "" else [d]
  {
  }

  /** Removal works piecewise: what survives of `a + b` is what survives of
      `a` followed by what survives of `b`, so every character other than
      `c` is kept, in order. */
  lemma {:induction false} RemoveCharAppend(a: string, b: string, c: char)
    ensures RemoveChar(a + b, c) == RemoveChar(a, c) + RemoveChar(b, c)
    decreases |a|
  {
    if |a| == 0 {
      assert a + b == b;
    } else {
      assert (a + b)[1..] == a[1..] + b;
      RemoveCharAppend(a[1..], b, c);
    }
  }

  /** Every character other than `c` occurs as often after the removal as before. */
  lemma {:induction false} RemoveCharKeepsOthers(s: string, c: char, d: char)
    requires d != c
    ensures Count(RemoveChar(s, c), d) == Count(s, d)
    decreases |s|
  {
    if |s| > 0 {
      RemoveCharKeepsOthers(s[1..], c, d);
      if s[0] != c {
        assert ([s[0]] + RemoveChar(s[1..], c))[1..] == RemoveChar(s[1..], c);
      }
    }
  }

  /** `String.length()`: UTF-16 code units, two for a supplementary character. */
  function Utf16Length(s: string): (n: nat)
    ensures |s| <= n <= 2 * |s|
    ensures (forall i :: 0 <= i < |s| ==> s[i] <= '\U{FFFF}') ==> n == |s|
  {
    if |s| == 0 then 0
    else (if s[0] <= '\U{FFFF}' then 1 else 2) + Utf16Length(s[1..])
  }

  // ---------------------------------------------------------------------
  // `%d` rendering of a non-negative int.
  // ---------------------------------------------------------------------

  function Digit(d: nat): char
    requires d < 10
  {
    "0123456789"[d]
  }

  predicate IsDigit(c: char) {
    '0' <= c <= '9'
  }

  /** Decimal digits of `n`, most significant first, without leading zeros. */
  function Decimal(n: nat): (r: string)
    ensures |r| >= 1
    ensures forall i :: 0 <= i < |r| ==> IsDigit(r[i])
    ensures |r| > 1 ==> r[0] != '0'
  {
    if n < 10 then [Digit(n)] else Decimal(n / 10) + [Digit(n % 10)]
  }

  /** The value a string of digits denotes (the inverse of `Decimal`). */
  function DigitsValue(s: string): nat
    requires forall i :: 0 <= i < |s| ==> IsDigit(s[i])
  {
    if |s| == 0 then 0
    else
      assert IsDigit(s[|s| - 1]);
      DigitsValue(s[..|s| - 1]) * 10 + (s[|s| - 1] as int - '0' as int)
  }

  lemma {:induction false} DecimalRoundTrip(n: nat)
    ensures DigitsValue(Decimal(n)) == n
  {
    if n >= 10 {
      DecimalRoundTrip(n / 10);
      var r := Decimal(n);
      assert r[..|r| - 1] == Decimal(n / 10);
    }
  }
}

=== FILE: prompt_sessions.dfy ===
/** The multi-turn conversation of the prompt-engineering service: a map
    from session id (possibly null, as a `HashMap` key may be) to a
    ten-message window. The first turn of a session puts the conversation
    guidelines in as a system message; every turn appends the user message,
    sends the window rendered one block per message to the chat model and
    appends the reply. The chat model is a parameter that answers or throws. */
module PromptSessions {
  import opened Wrappers
  import opened JavaLang
  import opened ChatMemory

  /** The window size of every session. */
  const WindowSize: Capacity := 10

  /** The system message of a session's first turn. The turn function takes
      the guidelines as a parameter (`guidelines`), which the service fixes
      to this text. */
  const Guidelines: string :=
    "You are a helpful assistant in an ongoing conversation.\n\n<conversation_guidelines>\n- Remember previous context from this session\n- Build on earlier discussion points naturally\n- Ask clarifying questions when truly needed\n- Maintain consistent personality and tone throughout\n- Reference prior exchanges when relevant\n</conversation_guidelines>\n\n<response_style>\n- Be concise but complete\n- Use examples when they help understanding\n- Format responses clearly with proper structure\n- Acknowledge the user's previous messages when relevant\n- Show that you understand the conversation flow\n</response_style>\n\n<tool_preambles>\n- If you need to perform multiple steps, outline your plan first\n- Provide updates as you work through complex requests\n- Summarize what you've done at the end\n</tool_preambles>\n"

  type SessionId = Option<string>

  type Sessions = map<SessionId, Window>

  /** Every session is a valid ten-message window. */
  predicate WellFormed(ss: Sessions) {
    forall k :: k in ss ==> ss[k].capacity == WindowSize && Valid(ss[k])
  }

  /** `buildContextString`: one `"System: "` / `"User: "` / `"Assistant: "`
      block per message, in memory order. */
  function BuildContextString(w: Window): string {
    Transcript(PromptBlock, w.messages)
  }

  /** The sessions after a turn and what the turn returned or threw. */
  datatype Turn = Turn(sessions: Sessions, reply: Result<string, Throwable>)

  /** The session's window with the guidelines added when it is empty. */
  function Opened(w: Window, guidelines: string): (r: Window)
    ensures Valid(w) ==> Valid(r)
    ensures |w.messages| > 0 ==> r == w
    ensures |w.messages| == 0 ==> r.messages == [Message(System, guidelines)]
  {
    if |w.messages| == 0 then
      AddRetains(w, Message(System, guidelines));
      Add(w, Message(System, guidelines))
    else w
  }

  /** The window a turn sends to the model: the user message appended to
      the opened window. */
  function Asked(w: Window, guidelines: string, userMessage: string): Window {
    Add(Opened(w, guidelines), Message(User, userMessage))
  }

  /** The window after the model's answer: the reply appended, or nothing
      more when the model threw. */
  function Answered(w: Window, reply: Result<string, Throwable>): Window {
    match reply
    case Success(response) => Add(w, Message(Assistant, response))
    case Failure(_) => w
  }

  /** `continueConversation`. */
  function ContinueConversation(ss: Sessions, chat: string -> Result<string, Throwable>, guidelines: string,
                                userMessage: string, sessionId: SessionId): (r: Turn)
    ensures r.sessions.Keys == ss.Keys + {sessionId}
    ensures forall k :: k in ss && k != sessionId ==> r.sessions[k] == ss[k]
    ensures r.sessions[sessionId].capacity == (if sessionId in ss then ss[sessionId].capacity else WindowSize)
  {
    var mem0 := if sessionId in ss then ss[sessionId] else Empty(WindowSize);
    var mem1 := Asked(mem0, guidelines, userMessage);
    var reply := chat(BuildContextString(mem1));
    Turn(ss[sessionId := Answered(mem1, reply)], reply)
  }

  /** A turn keeps a window valid; its newest message is the reply, or the
      user message when the model threw; and a leading system message stays. */
  lemma TurnWindow(w: Window, guidelines: string, userMessage: string, reply: Result<string, Throwable>)
    requires Valid(w) && w.capacity >= 2
    ensures var h := Answered(Asked(w, guidelines, userMessage), reply).messages;
            Valid(Answered(Asked(w, guidelines, userMessage), reply)) && |h| >= 1 &&
            (|w.messages| > 0 && w.messages[0].role == System ==> h[0] == w.messages[0]) &&
            match reply
            case Success(response) => h[|h| - 1] == Message(Assistant, response)
            case Failure(_) => h[|h| - 1] == Message(User, userMessage)
  {
    var memS := Opened(w, guidelines);
    var user := Message(User, userMessage);
    AddRetains(memS, user);
    var mem1 := Add(memS, user);
    if reply.Success? {
      AddRetains(mem1, Message(Assistant, reply.value));
    }
  }

  /** Every session stays a valid ten-message window. */
  lemma TurnKeepsWellFormed(ss: Sessions, chat: string -> Result<string, Throwable>, guidelines: string,
                            userMessage: string, sessionId: SessionId)
    requires WellFormed(ss)
    ensures WellFormed(ContinueConversation(ss, chat, guidelines, userMessage, sessionId).sessions)
  {
    var mem0 := if sessionId in ss then ss[sessionId] else Empty(WindowSize);
    var mem1 := Asked(mem0, guidelines, userMessage);
    TurnWindow(mem0, guidelines, userMessage, chat(BuildContextString(mem1)));
  }

  /** `clearSession`: drops that id only. */
  function ClearSession(ss: Sessions, sessionId: SessionId): (r: Sessions)
    ensures r.Keys == ss.Keys - {sessionId}
    ensures forall k :: k in r ==> r[k] == ss[k]
  {
    ss - {sessionId}
  }

  /** `clearAllSessions`. */
  function ClearAllSessions(ss: Sessions): (r: Sessions)
    ensures |r| == 0
  {
    map[]
  }

  /** The messages of a session, none for an unknown one. */
  function History(ss: Sessions, sessionId: SessionId): seq<Message> {
    if sessionId in ss then ss[sessionId].messages else []
  }

  /** The first turn of a session (unknown or empty) puts the guidelines,
      the user message and the reply in that order; if the model throws,
      the guidelines and the user message stay. */
  lemma FirstTurnAddsGuidelines(ss: Sessions, chat: string -> Result<string, Throwable>, guidelines: string,
                                userMessage: string, sessionId: SessionId)
    requires WellFormed(ss) && History(ss, sessionId) == []
    ensures var r := ContinueConversation(ss, chat, guidelines, userMessage, sessionId);
            var h := History(r.sessions, sessionId);
            match r.reply
            case Success(response) =>
              h == [Message(System, guidelines), Message(User, userMessage), Message(Assistant, response)]
            case Failure(_) =>
              h == [Message(System, guidelines), Message(User, userMessage)]
    ensures ContinueConversation(ss, chat, guidelines, userMessage, sessionId).reply ==
              chat(Transcript(PromptBlock, [Message(System, guidelines), Message(User, userMessage)]))
  {
    var mem0 := if sessionId in ss then ss[sessionId] else Empty(WindowSize);
    var mem1 := Asked(mem0, guidelines, userMessage);
    assert mem1.messages == [Message(System, guidelines), Message(User, userMessage)];
  }

  /** A later turn adds no system message: the session keeps what a
      ten-message window retains of its history followed by the user message
      and the reply (or the user message alone when the model throws), so a
      leading system message stays first and the user message sits right
      before the reply. */
  lemma LaterTurnKeepsGuidelines(ss: Sessions, chat: string -> Result<string, Throwable>, guidelines: string,
                                 userMessage: string, sessionId: SessionId)
    requires WellFormed(ss) && History(ss, sessionId) != []
    ensures var r := ContinueConversation(ss, chat, guidelines, userMessage, sessionId);
            var before := History(ss, sessionId);
            var h := History(r.sessions, sessionId);
            |h| >= 1 && SystemFirst(h) && (before[0].role == System ==> h[0] == before[0]) &&
            match r.reply
            case Success(response) =>
              h == Retained(WindowSize, before + [Message(User, userMessage), Message(Assistant, response)]) &&
              |h| >= 2 && h[|h| - 2] == Message(User, userMessage) && h[|h| - 1] == Message(Assistant, response)
            case Failure(_) =>
              h == Retained(WindowSize, before + [Message(User, userMessage)]) && h[|h| - 1] == Message(User, userMessage)
    ensures ContinueConversation(ss, chat, guidelines, userMessage, sessionId).reply ==
              chat(Transcript(PromptBlock, Retained(WindowSize, History(ss, sessionId) + [Message(User, userMessage)])))
  {
    var mem0 := ss[sessionId];
    var user := Message(User, userMessage);
    var reply := chat(BuildContextString(Asked(mem0, guidelines, userMessage)));
    TurnWindow(mem0, guidelines, userMessage, reply);
    AddRetains(mem0, user);
    if reply.Success? {
      var answer := Message(Assistant, reply.value);
      AddTwiceRetains(mem0, user, answer);
      LastTwoRetained(WindowSize, mem0.messages, user, answer);
    }
  }

  /** After `clearSession`, the next turn on that id starts over with the
      guidelines; every other session is untouched. */
  lemma ClearedSessionStartsOver(ss: Sessions, chat: string -> Result<string, Throwable>, guidelines: string,
                                 userMessage: string, sessionId: SessionId)
    requires WellFormed(ss)
    ensures var r := ContinueConversation(ClearSession(ss, sessionId), chat, guidelines, userMessage, sessionId);
            var h := History(r.sessions, sessionId);
            |h| >= 2 && h[0] == Message(System, guidelines) && h[1] == Message(User, userMessage)
  {
    FirstTurnAddsGuidelines(ClearSession(ss, sessionId), chat, guidelines, userMessage, sessionId);
  }

  /** The model is asked on the kept messages as blocks, the new user
      message as the last block, and the turn returns what it answers. */
  lemma UserBlockLast(ss: Sessions, chat: string -> Result<string, Throwable>, guidelines: string,
                      userMessage: string, sessionId: SessionId)
    requires WellFormed(ss)
    ensures var w := if sessionId in ss then ss[sessionId] else Empty(WindowSize);
            var mem1 := Asked(w, guidelines, userMessage);
            var msgs := mem1.messages;
            var text := Transcript(PromptBlock, msgs[..|msgs| - 1]) + "User: " + userMessage + "\n\n";
            |msgs| >= 1 && BuildContextString(mem1) == text &&
            ContinueConversation(ss, chat, guidelines, userMessage, sessionId).reply == chat(text)
  {
    var w := if sessionId in ss then ss[sessionId] else Empty(WindowSize);
    AddedMessageRendersLast(PromptBlock, Opened(w, guidelines), Message(User, userMessage));
  }
}

=== FILE: rag_controller.dfy ===
/** The REST front of the document-RAG service: a question that is null or
    empty after `trim` is refused with an empty 400 before the service is
    called; otherwise the service's response is returned as it is, and any
    exception becomes an empty 500. The service is a parameter that answers
    or throws, over any response type. */
module RagController {
  import opened Wrappers
  import opened JavaLang
  import opened Web

  /** The request record of this service: every component may be null. */
  datatype RagQuery = RagQuery(question: Option<string>, conversationId: Option<string>, maxResults: Option<int>)

  const Healthy: string := "RAG service is healthy"

  /** `ask`: the body is the service's response on 200 and absent otherwise. */
  function Ask<R>(service: RagQuery -> Result<R, Throwable>, request: RagQuery): (r: Http<Option<R>>)
    ensures r.status == BadRequest <==> request.question.None? || TrimIsEmpty(request.question.value)
    ensures r.status == Ok <==> r.status != BadRequest && service(request).Success?
    ensures r.status == Ok ==> r.body == Some(service(request).value)
    ensures r.status != Ok ==> r.body.None?
    ensures r.status in {Ok, BadRequest, InternalServerError}
  {
    if request.question.None? || TrimIsEmpty(request.question.value) then Http(BadRequest, None)
    else
      match service(request)
      case Success(response) => Http(Ok, Some(response))
      case Failure(_) => Http(InternalServerError, None)
  }

  /** `health`. */
  function Health(): (r: Http<string>)
    ensures r.status == Ok && r.body == Healthy
  {
    Http(Ok, Healthy)
  }

  /** A refused question does not depend on the service at all. */
  lemma RefusedBeforeService<R>(s1: RagQuery -> Result<R, Throwable>, s2: RagQuery -> Result<R, Throwable>, request: RagQuery)
    requires request.question.None? || TrimIsEmpty(request.question.value)
    ensures Ask(s1, request) == Ask(s2, request) == Http(BadRequest, None)
  {
  }

  /** A whitespace-only question is refused. */
  lemma WhitespaceQuestionRefused<R>(service: RagQuery -> Result<R, Throwable>)
    ensures Ask(service, RagQuery(Some("  \t\n"), None, None)).status == BadRequest
  {
    var s := "  \t\n";
    assert forall i :: 0 <= i < |s| ==> Trimmable(s[i]);
  }

  /** A question the service answers is passed through unchanged; one it
      throws on gives an empty 500, whatever the exception. */
  lemma ValidQuestionReachesService<R>(service: RagQuery -> Result<R, Throwable>, request: RagQuery)
    requires request.question.Some? && !TrimIsEmpty(request.question.value)
    ensures service(request).Success? ==> Ask(service, request) == Http(Ok, Some(service(request).value))
    ensures service(request).Failure? ==> Ask(service, request) == Http(InternalServerError, None)
  {
  }
}

=== FILE: rag_service.dfy ===
/** Retrieval-augmented answering: the question is embedded, the store is
    searched with a fixed limit and score threshold, and either a fixed
    refusal is returned (nothing found) or the chat model answers a prompt
    that embeds the texts found, with one source reference per match. The
    embedding model, the store's search and the chat model are parameters
    that answer or throw. */
module RagService {
  import opened Wrappers
  import opened JavaLang
  import opened RequestRecords

  /** The search always asks for at most five matches ... */
  const MaxResults: nat := 5

  /** ... scoring at least 0.7. */
  const MinScore: real := 0.7

  type Embedding = seq<real>

  datatype SearchRequest = SearchRequest(query: Embedding, maxResults: nat, minScore: real)

  /** A search match: the segment's text, its `filename` metadata (possibly
      absent) and the score. */
  datatype Match = Match(text: string, filename: Option<string>, score: real)

  datatype SourceReference = SourceReference(filename: string, excerpt: string, relevanceScore: real)

  datatype RagResponse = RagResponse(answer: string, conversationId: Option<string>, sources: seq<SourceReference>)

  /** The collaborators of `ask`. */
  datatype Services = Services(
    embed: string -> Result<Embedding, Throwable>,
    search: SearchRequest -> Result<seq<Match>, Throwable>,
    chat: string -> Result<string, Throwable>)

  const NoAnswer: string :=
    "I cannot answer this question based on the provided documents. Please try asking something related to the uploaded content."

  const Separator: string := "\n\n"

  /** The prompt template up to the context, then the labels around the
      question (the template's trailing blanks are stripped, as in a text
      block). */
  const PromptHead: string :=
    "Answer the question based on the following context.\nIf the answer cannot be found in the context, say so.\n\nContext:\n"

  const QuestionLabel: string := "\n\nQuestion: "

  const AnswerLabel: string := "\n\nAnswer:"

  const FailurePrefix: string := "Failed to process question: "

  const UnknownFile: string := "unknown"

  /** The texts of the matches, in match order. */
  function Texts(matches: seq<Match>): (r: seq<string>)
    ensures |r| == |matches| && forall i :: 0 <= i < |r| ==> r[i] == matches[i].text
  {
    seq(|matches|, i requires 0 <= i < |matches| => matches[i].text)
  }

  /** The context: the match texts joined by a blank line. */
  function Context(matches: seq<Match>): string {
    JoinWith(Texts(matches), Separator)
  }

  /** The filled-in prompt. */
  function Prompt(context: string, question: string): string {
    PromptHead + context + QuestionLabel + question + AnswerLabel
  }

  /** The source reference of one match. */
  function SourceOf(m: Match): SourceReference {
    SourceReference(m.filename.GetOr(UnknownFile), m.text, m.score)
  }

  /** The source list, parallel to the matches. */
  function Sources(matches: seq<Match>): (r: seq<SourceReference>)
    ensures |r| == |matches|
    ensures forall i :: 0 <= i < |r| ==>
              r[i].excerpt == matches[i].text && r[i].relevanceScore == matches[i].score &&
              (matches[i].filename.Some? ==> r[i].filename == matches[i].filename.value) &&
              (matches[i].filename.None? ==> r[i].filename == UnknownFile)
  {
    seq(|matches|, i requires 0 <= i < |matches| => SourceOf(matches[i]))
  }

  /** The exception `ask` throws for any failure inside it. */
  function Wrap(e: Throwable): Throwable {
    Throwable(Runtime, Some(FailurePrefix + Str(e.message)))
  }

  /** `ask`. */
  function Ask(sv: Services, request: RagRequest): (r: Result<RagResponse, Throwable>)
    ensures r.Success? ==> r.value.conversationId == request.conversationId
    ensures r.Failure? ==> r.error.kind == Runtime && r.error.message.Some? && FailurePrefix <= r.error.message.value
  {
    match sv.embed(request.question)
    case Failure(e) => Failure(Wrap(e))
    case Success(query) =>
      match sv.search(SearchRequest(query, MaxResults, MinScore))
      case Failure(e) => Failure(Wrap(e))
      case Success(matches) =>
        if |matches| == 0 then
          Success(RagResponse(NoAnswer, request.conversationId, []))
        else
          match sv.chat(Prompt(Context(matches), request.question))
          case Failure(e) => Failure(Wrap(e))
          case Success(answer) => Success(RagResponse(answer, request.conversationId, Sources(matches)))
  }

  /** With no match the refusal comes back with no sources, and the chat
      model is never consulted: any other chat model gives the same result. */
  lemma NoMatchNoChat(sv: Services, request: RagRequest, query: Embedding, chat: string -> Result<string, Throwable>)
    requires sv.embed(request.question) == Success(query)
    requires sv.search(SearchRequest(query, MaxResults, MinScore)) == Success([])
    ensures Ask(sv, request) == Success(RagResponse(NoAnswer, request.conversationId, []))
    ensures Ask(sv.(chat := chat), request) == Ask(sv, request)
  {
  }

  /** With matches, the answer is the chat model's answer to the prompt built
      from the joined texts and the question, and there is one source per
      match, in match order. */
  lemma MatchesAnswered(sv: Services, request: RagRequest, query: Embedding, matches: seq<Match>, answer: string)
    requires sv.embed(request.question) == Success(query)
    requires sv.search(SearchRequest(query, MaxResults, MinScore)) == Success(matches) && |matches| > 0
    requires sv.chat(Prompt(JoinWith(Texts(matches), Separator), request.question)) == Success(answer)
    ensures Ask(sv, request).Success?
    ensures var r := Ask(sv, request).value;
            r.answer == answer && |r.sources| == |matches| &&
            forall i :: 0 <= i < |matches| ==> r.sources[i] == SourceOf(matches[i])
  {
  }

  /** The search is only ever asked for five matches scoring at least 0.7:
      services that agree on those searches (and on embedding and chat)
      give the same result, whatever they do for other searches. */
  lemma SearchIsFixed(sv: Services, search: SearchRequest -> Result<seq<Match>, Throwable>, request: RagRequest)
    requires forall e :: search(SearchRequest(e, MaxResults, MinScore)) == sv.search(SearchRequest(e, MaxResults, MinScore))
    ensures Ask(sv.(search := search), request) == Ask(sv, request)
  {
  }

  /** The request's own limit is ignored. */
  lemma LimitIgnored(sv: Services, a: RagRequest, b: RagRequest)
    requires a.question == b.question && a.conversationId == b.conversationId
    ensures Ask(sv, a) == Ask(sv, b)
  {
  }

  /** A failure of the embedding model, the search or the chat model
      surfaces as the one wrapped exception. */
  lemma FailuresAreWrapped(sv: Services, request: RagRequest, e: Throwable)
    ensures sv.embed(request.question) == Failure(e) ==> Ask(sv, request) == Failure(Wrap(e))
    ensures forall q :: sv.embed(request.question) == Success(q) &&
                        sv.search(SearchRequest(q, MaxResults, MinScore)) == Failure(e) ==>
                          Ask(sv, request) == Failure(Wrap(e))
    ensures forall q, ms :: sv.embed(request.question) == Success(q) &&
                            sv.search(SearchRequest(q, MaxResults, MinScore)) == Success(ms) && |ms| > 0 &&
                            sv.chat(Prompt(Context(ms), request.question)) == Failure(e) ==>
                              Ask(sv, request) == Failure(Wrap(e))
    ensures Wrap(e).message == Some(FailurePrefix + Str(e.message))
  {
  }

  /** The context of one match is its text; each further match adds a blank
      line and its text. */
  lemma {:induction false} ContextGrows(matches: seq<Match>, m: Match)
    ensures Context([m]) == m.text
    ensures |matches| > 0 ==> Context(matches + [m]) == Context(matches) + Separator + m.text
  {
    assert Texts([m]) == [m.text];
    if |matches| > 0 {
      assert Texts(matches + [m]) == Texts(matches) + [m.text];
      JoinSnoc(Texts(matches), Separator, m.text);
    }
  }

  /** In the prompt, the context comes right after the header and the
      question right after the context and its label. */
  lemma PromptLayout(context: string, question: string)
    ensures var p := Prompt(context, question);
            OccursAt(p, PromptHead, 0) && OccursAt(p, context, |PromptHead|) &&
            OccursAt(p, QuestionLabel, |PromptHead| + |context|) &&
            OccursAt(p, question, |PromptHead| + |context| + |QuestionLabel|) &&
            |p| == |PromptHead| + |context| + |QuestionLabel| + |question| + |AnswerLabel|
  {
    var p := Prompt(context, question);
    var a := |PromptHead|;
    var b := a + |context|;
    var c := b + |QuestionLabel|;
    assert p == PromptHead + context + QuestionLabel + question + AnswerLabel;
    assert p[..a] == PromptHead;
    assert p[a..b] == context;
    assert p[b..c] == QuestionLabel;
    assert p[c..c + |question|] == question;
  }
}

=== FILE: react_agent.dfy ===
/** The ReAct agent of the tools service: one task sends the user's message
    (behind the system prompt) to the chat model, then, while the reply
    carries a tool directive and fewer than five rounds have run, executes
    every directive of the reply in match order, feeds the results back as a
    user message and asks the model again. Sessions are message windows of
    twenty messages, keyed by session id. The chat model is a parameter that
    sees the call number and the context and answers or throws. */
module ReactAgent {
  import opened Wrappers
  import opened JavaLang
  import opened ChatMemory
  import ToolDirectives
  import opened ToolDispatch

  /** The window size of an agent session. */
  const WindowSize: Capacity := 20

  /** The hard cap on tool rounds of one task. */
  const MaxIterations: nat := 5

  /** The instructions the service sends ahead of every user message of a
      task. The task functions below take the instructions as a parameter
      (`instructions`), which the service fixes to this text. */
  const SystemPrompt: string :=
    "You are a helpful AI assistant with access to the following tools:\n\n" +
    "Weather Tools:\n" +
    "1. getCurrentWeather(location: string) - Get current weather for a location\n" +
    "2. getWeatherForecast(location: string, days: int) - Get weather forecast (1-7 days)\n\n" +
    "Temperature Conversion Tools:\n" +
    "3. celsiusToFahrenheit(celsius: number) - Convert Celsius to Fahrenheit\n" +
    "4. fahrenheitToCelsius(fahrenheit: number) - Convert Fahrenheit to Celsius\n" +
    "5. celsiusToKelvin(celsius: number) - Convert Celsius to Kelvin\n" +
    "6. kelvinToCelsius(kelvin: number) - Convert Kelvin to Celsius\n" +
    "7. fahrenheitToKelvin(fahrenheit: number) - Convert Fahrenheit to Kelvin\n" +
    "8. kelvinToFahrenheit(kelvin: number) - Convert Kelvin to Fahrenheit\n\n" +
    "When you need to use a tool, respond with:\n" +
    "TOOL_CALL: <tool_name>(<param1>=<value1>, <param2>=<value2>)\n\n" +
    "After getting the tool result, provide your final answer to the user.\n" +
    "If you don't need a tool, just answer directly.\n"

  /** The collaborators of a task: the chat model, called with its call
      number within the task and the context; the tool executor, called
      with the number of the next tool request and the directive; and the
      directive scanner. The loop is stated over any of them; the deployed
      agent (`AgentOracles`) plugs in `executeToolByName` and the
      `TOOL_CALL:` scanner. */
  datatype Oracles = Oracles(
    chat: (nat, string) -> Result<string, Throwable>,
    tools: (nat, ToolDirectives.Directive) -> Outcome,
    scan: string -> seq<ToolDirectives.Directive>)

  /** The scanner is the service's regular-expression scan. */
  ghost predicate ScansDirectives(o: Oracles) {
    forall s :: o.scan(s) == ToolDirectives.Directives(s)
  }

  /** The agent's tool executor: `executeToolByName` on the directive's name
      and parameter text, with the given parsers and endpoint. */
  function ToolCall(p: Parsers, e: Endpoint): (nat, ToolDirectives.Directive) -> Outcome {
    (n: nat, d: ToolDirectives.Directive) => ExecuteToolByName(p, e, n, d.name, d.params)
  }

  /** The agent as deployed: a chat model, the eight-tool executor and the
      directive scanner. */
  function AgentOracles(chat: (nat, string) -> Result<string, Throwable>, p: Parsers, e: Endpoint): (o: Oracles)
    ensures ScansDirectives(o)
    ensures forall n: nat, d :: o.tools(n, d) == ExecuteToolByName(p, e, n, d.name, d.params)
  {
    Oracles(chat, ToolCall(p, e), ToolDirectives.Directives)
  }

  /** A recorded tool execution: the name, the raw parameter text as a
      one-element list, and the answer (possibly null). */
  datatype ToolExecutionInfo = ToolExecutionInfo(toolName: string, arguments: seq<string>, status: Option<string>)

  /** The memory of an agent session: within its window and without system
      messages (the agent only ever adds user and assistant messages). */
  predicate AgentMemory(w: Window) {
    |w.messages| <= w.capacity && NoSystem(w.messages)
  }

  /** The context the model sees: one line per user or assistant message. */
  function BuildContext(w: Window): string {
    Transcript(ChatLine, w.messages)
  }

  // ---------------------------------------------------------------------
  // One round of tool calls.
  // ---------------------------------------------------------------------

  /** How many HTTP requests a sequence of tool calls made. */
  function Requests(outs: seq<Outcome>): nat
    decreases |outs|
  {
    if |outs| == 0 then 0 else outs[0].requests + Requests(outs[1..])
  }

  /** The outcome of every directive of a round, in match order, for any
      executor `call`; the tool requests are numbered on from `http`. */
  function Outcomes(call: (nat, ToolDirectives.Directive) -> Outcome, ds: seq<ToolDirectives.Directive>, http: nat): (r: seq<Outcome>)
    ensures |r| == |ds|
    decreases |ds|
  {
    if |ds| == 0 then []
    else
      var first := call(http, ds[0]);
      [first] + Outcomes(call, ds[1..], http + first.requests)
  }

  /** Requests add up over a concatenation. */
  lemma {:induction false} RequestsAppend(a: seq<Outcome>, b: seq<Outcome>)
    ensures Requests(a + b) == Requests(a) + Requests(b)
    decreases |a|
  {
    if |a| == 0 {
      assert a + b == b;
    } else {
      assert (a + b)[1..] == a[1..] + b;
      RequestsAppend(a[1..], b);
    }
  }

  /** Directive i of a round is executed as request number `http` plus the
      requests of the directives before it, and a round makes at most one
      request per directive. */
  lemma {:induction false} OutcomesInOrder(call: (nat, ToolDirectives.Directive) -> Outcome, ds: seq<ToolDirectives.Directive>, http: nat, i: nat)
    requires i < |ds|
    ensures var r := Outcomes(call, ds, http);
            r[i] == call(http + Requests(r[..i]), ds[i])
    decreases i
  {
    var r := Outcomes(call, ds, http);
    if i > 0 {
      var first := call(http, ds[0]);
      var rest := Outcomes(call, ds[1..], http + first.requests);
      assert r == [first] + rest;
      OutcomesInOrder(call, ds[1..], http + first.requests, i - 1);
      assert r[..i] == [first] + rest[..i - 1];
      RequestsAppend([first], rest[..i - 1]);
      assert Requests([first]) == first.requests;
    }
  }

  /** A round of `n` directives makes at most `n` requests. */
  lemma {:induction false} RequestsAtMostOnePerCall(call: (nat, ToolDirectives.Directive) -> Outcome, ds: seq<ToolDirectives.Directive>, http: nat)
    requires forall n: nat, d :: call(n, d).requests <= 1
    ensures Requests(Outcomes(call, ds, http)) <= |ds|
    decreases |ds|
  {
    if |ds| > 0 {
      var first := call(http, ds[0]);
      RequestsAtMostOnePerCall(call, ds[1..], http + first.requests);
    }
  }

  /** The observation line of one call: the answer (null printed as "null")
      or the exception's message. */
  function ObservationLine(name: string, result: Result<Option<string>, Throwable>): string {
    match result
    case Success(v) => "Tool " + name + " result: " + Str(v) + "\n"
    case Failure(e) => "Tool error: " + Str(e.message) + "\n"
  }

  /** The observation lines of a round, in match order. */
  function Observation(ds: seq<ToolDirectives.Directive>, outs: seq<Outcome>): string
    requires |ds| == |outs|
  {
    Concat(seq(|ds|, i requires 0 <= i < |ds| => ObservationLine(ds[i].name, outs[i].result)))
  }

  const ResultsHeader: string := "Tool results:\n"

  const ResultsFooter: string := "\n\nUse these results to continue. If you need more tools, call them. Otherwise, provide your final answer."

  /** The user message that hands a round's results back to the model. */
  function ObservationPrompt(lines: string): string {
    ResultsHeader + lines + ResultsFooter
  }

  /** The executions a round records: one per successful call, in order. */
  function Recorded(ds: seq<ToolDirectives.Directive>, outs: seq<Outcome>): seq<ToolExecutionInfo>
    requires |ds| == |outs|
    decreases |ds|
  {
    if |ds| == 0 then []
    else
      var head := match outs[0].result
        case Success(v) => [ToolExecutionInfo(ds[0].name, [ds[0].params], v)]
        case Failure(_) => [];
      head + Recorded(ds[1..], outs[1..])
  }

  /** A round records exactly its successful calls: each entry comes from a
      successful call, every successful call has its entry, and nothing is
      recorded exactly when every call failed. */
  lemma {:induction false} RecordedIsSuccesses(ds: seq<ToolDirectives.Directive>, outs: seq<Outcome>)
    requires |ds| == |outs|
    ensures |Recorded(ds, outs)| <= |ds|
    ensures forall x :: x in Recorded(ds, outs) ==>
              exists i :: 0 <= i < |ds| && outs[i].result.Success? &&
                          x == ToolExecutionInfo(ds[i].name, [ds[i].params], outs[i].result.value)
    ensures forall i :: 0 <= i < |ds| && outs[i].result.Success? ==>
              ToolExecutionInfo(ds[i].name, [ds[i].params], outs[i].result.value) in Recorded(ds, outs)
    ensures Recorded(ds, outs) == [] <==> forall i :: 0 <= i < |ds| ==> outs[i].result.Failure?
    decreases |ds|
  {
    if |ds| > 0 {
      RecordedIsSuccesses(ds[1..], outs[1..]);
      var rest := Recorded(ds[1..], outs[1..]);
      forall x | x in Recorded(ds, outs)
        ensures exists i :: 0 <= i < |ds| && outs[i].result.Success? &&
                            x == ToolExecutionInfo(ds[i].name, [ds[i].params], outs[i].result.value)
      {
        if x !in rest {
          assert outs[0].result.Success?;
        } else {
          var j :| 0 <= j < |ds| - 1 && outs[1..][j].result.Success? &&
                   x == ToolExecutionInfo(ds[1..][j].name, [ds[1..][j].params], outs[1..][j].result.value);
          assert outs[j + 1] == outs[1..][j];
        }
      }
      forall i | 0 <= i < |ds| && outs[i].result.Success?
        ensures ToolExecutionInfo(ds[i].name, [ds[i].params], outs[i].result.value) in Recorded(ds, outs)
      {
        if i > 0 {
          assert outs[1..][i - 1] == outs[i] && ds[1..][i - 1] == ds[i];
        }
      }
      if forall i :: 0 <= i < |ds| ==> outs[i].result.Failure? {
        assert forall i :: 0 <= i < |ds| - 1 ==> outs[1..][i].result.Failure? by {
          forall i | 0 <= i < |ds| - 1 ensures outs[1..][i].result.Failure? {
            assert outs[1..][i] == outs[i + 1];
          }
        }
      }
    }
  }

  /** One call records one entry if it succeeded and none if it threw; with
      `RecordedAppend` this fixes the recorded list to one entry per
      successful call, in match order. */
  lemma RecordedSingle(d: ToolDirectives.Directive, o: Outcome)
    ensures Recorded([d], [o]) == if o.result.Success? then [ToolExecutionInfo(d.name, [d.params], o.result.value)] else []
  {
    assert [d][1..] == [] && [o][1..] == [];
  }

  /** Recording is order-preserving: the entries of a split round are those
      of its first part followed by those of the rest. */
  lemma {:induction false} RecordedAppend(ds: seq<ToolDirectives.Directive>, outs: seq<Outcome>, k: nat)
    requires |ds| == |outs| && k <= |ds|
    ensures Recorded(ds, outs) == Recorded(ds[..k], outs[..k]) + Recorded(ds[k..], outs[k..])
    decreases k
  {
    if k == 0 {
      assert ds[k..] == ds && outs[k..] == outs;
    } else {
      RecordedAppend(ds[1..], outs[1..], k - 1);
      assert ds[..k][1..] == ds[1..][..k - 1] && outs[..k][1..] == outs[1..][..k - 1];
      assert ds[1..][k - 1..] == ds[k..] && outs[1..][k - 1..] == outs[k..];
    }
  }

  // ---------------------------------------------------------------------
  // The loop.
  // ---------------------------------------------------------------------

  /** Where a task's loop ended: the answer or the exception that ended it,
      the session memory as it stands, the executions the loop recorded, the
      model calls and tool requests made so far, and the rounds run. */
  datatype Run = Run(
    outcome: Result<string, Throwable>,
    memory: Window,
    execs: seq<ToolExecutionInfo>,
    modelCalls: nat,
    httpCalls: nat,
    iterations: nat)

  /** One round on a reply: its directives and their outcomes. */
  datatype Round = Round(ds: seq<ToolDirectives.Directive>, outs: seq<Outcome>)

  function RunRound(o: Oracles, current: string, httpCalls: nat): (rd: Round)
    ensures |rd.ds| == |rd.outs|
  {
    var ds := o.scan(current);
    Round(ds, Outcomes(o.tools, ds, httpCalls))
  }

  /** `processToolCalls`: while the current reply holds the marker and the
      cap is not reached, run one round (`Step`). `execs` holds the
      executions recorded by the rounds before. */
  function Loop(o: Oracles, current: string, mem: Window, execs: seq<ToolExecutionInfo>,
                modelCalls: nat, httpCalls: nat, iteration: nat): (r: Run)
    requires iteration <= MaxIterations
    ensures iteration <= r.iterations <= MaxIterations
    ensures modelCalls <= r.modelCalls <= modelCalls + (r.iterations - iteration)
    ensures httpCalls <= r.httpCalls
    ensures r.memory.capacity == mem.capacity
    ensures |mem.messages| <= mem.capacity ==> |r.memory.messages| <= mem.capacity
    decreases MaxIterations - iteration, 1
  {
    if !Contains(current, ToolDirectives.Marker) || iteration >= MaxIterations then
      Run(Success(current), mem, execs, modelCalls, httpCalls, iteration)
    else
      Step(o, current, mem, execs, modelCalls, httpCalls, iteration)
  }

  /** One round: a round that records nothing ends the loop with the reply
      unchanged; otherwise the observation is added to memory as a user
      message, the model is asked again with the whole context, and its
      reply is added too before the loop goes on. */
  function Step(o: Oracles, current: string, mem: Window, execs: seq<ToolExecutionInfo>,
                modelCalls: nat, httpCalls: nat, iteration: nat): (r: Run)
    requires iteration < MaxIterations
    ensures iteration < r.iterations <= MaxIterations
    ensures modelCalls <= r.modelCalls <= modelCalls + (r.iterations - iteration)
    ensures httpCalls <= r.httpCalls
    ensures r.memory.capacity == mem.capacity
    ensures |mem.messages| <= mem.capacity ==> |r.memory.messages| <= mem.capacity
    decreases MaxIterations - iteration, 0
  {
    var rd := RunRound(o, current, httpCalls);
    var http := httpCalls + Requests(rd.outs);
    var rec := Recorded(rd.ds, rd.outs);
    if |rec| == 0 then
      Run(Success(current), mem, execs, modelCalls, http, iteration + 1)
    else
      var mem1 := FeedBack(mem, rd);
      match o.chat(modelCalls, BuildContext(mem1))
      case Failure(e) =>
        Run(Failure(e), mem1, execs + rec, modelCalls + 1, http, iteration + 1)
      case Success(reply) =>
        Loop(o, reply, Add(mem1, Message(Assistant, reply)), execs + rec, modelCalls + 1, http, iteration + 1)
  }

  /** A busy round, fed back: the observation added as a user message. */
  function FeedBack(mem: Window, rd: Round): Window
    requires |rd.ds| == |rd.outs|
  {
    Add(mem, Message(User, ObservationPrompt(Observation(rd.ds, rd.outs))))
  }

  /** The observation fed back is the newest message of the memory, so the
      context the model is next asked with ends with it as a user line. */
  lemma ObservationIsLastLine(mem: Window, rd: Round)
    requires |rd.ds| == |rd.outs| && AgentMemory(mem) && mem.capacity >= 2
    ensures var note := ObservationPrompt(Observation(rd.ds, rd.outs));
            var msgs := FeedBack(mem, rd).messages;
            |msgs| >= 1 && msgs[|msgs| - 1] == Message(User, note) &&
            BuildContext(FeedBack(mem, rd)) == Transcript(ChatLine, msgs[..|msgs| - 1]) + ChatLine(Message(User, note))
  {
    var m := Message(User, ObservationPrompt(Observation(rd.ds, rd.outs)));
    AddRetains(mem, m);
    AddedMessageRendersLast(ChatLine, mem, m);
  }

  /** In a round that executes something the model is re-invoked on the
      fed-back memory; if that call throws, the loop ends with the exception,
      the observation stays in memory, the round's executions are recorded
      and that call is counted. */
  lemma ModelFailureEndsLoop(o: Oracles, current: string, mem: Window, execs: seq<ToolExecutionInfo>,
                             modelCalls: nat, httpCalls: nat, iteration: nat)
    requires iteration < MaxIterations && Contains(current, ToolDirectives.Marker)
    requires var rd := RunRound(o, current, httpCalls);
             |Recorded(rd.ds, rd.outs)| > 0 && o.chat(modelCalls, BuildContext(FeedBack(mem, rd))).Failure?
    ensures var rd := RunRound(o, current, httpCalls);
            var r := Loop(o, current, mem, execs, modelCalls, httpCalls, iteration);
            r.outcome == Failure(o.chat(modelCalls, BuildContext(FeedBack(mem, rd))).error) &&
            r.memory == FeedBack(mem, rd) && r.execs == execs + Recorded(rd.ds, rd.outs) &&
            r.modelCalls == modelCalls + 1
  {
  }

  /** A round in which no directive executes successfully (none parses, or
      every call throws) ends the loop: the reply is returned unchanged, no
      execution is recorded and the model is not called again. */
  lemma IdleRoundEndsLoop(o: Oracles, current: string, mem: Window, execs: seq<ToolExecutionInfo>,
                          modelCalls: nat, httpCalls: nat, iteration: nat)
    requires iteration < MaxIterations && Contains(current, ToolDirectives.Marker)
    requires forall i :: 0 <= i < |RunRound(o, current, httpCalls).outs| ==> RunRound(o, current, httpCalls).outs[i].result.Failure?
    ensures var r := Loop(o, current, mem, execs, modelCalls, httpCalls, iteration);
            r.outcome == Success(current) && r.memory == mem && r.execs == execs &&
            r.modelCalls == modelCalls && r.iterations == iteration + 1
  {
    var rd := RunRound(o, current, httpCalls);
    RecordedIsSuccesses(rd.ds, rd.outs);
  }

  /** A round that executes something and whose model call answers goes on
      with that answer as the current reply, the executions recorded so far
      extended by the round's. */
  lemma BusyRoundContinues(o: Oracles, current: string, mem: Window, execs: seq<ToolExecutionInfo>,
                           modelCalls: nat, httpCalls: nat, iteration: nat, reply: string)
    requires iteration < MaxIterations && Contains(current, ToolDirectives.Marker)
    requires var rd := RunRound(o, current, httpCalls);
             |Recorded(rd.ds, rd.outs)| > 0 && o.chat(modelCalls, BuildContext(FeedBack(mem, rd))) == Success(reply)
    ensures var rd := RunRound(o, current, httpCalls);
            Loop(o, current, mem, execs, modelCalls, httpCalls, iteration) ==
            Loop(o, reply, Add(FeedBack(mem, rd), Message(Assistant, reply)), execs + Recorded(rd.ds, rd.outs),
                 modelCalls + 1, httpCalls + Requests(rd.outs), iteration + 1)
  {
  }

  /** A reply that keeps the model busy: it holds a directive that executes,
      whatever the request numbering. */
  ghost predicate Busy(o: Oracles, reply: string) {
    forall h: nat :: |Recorded(RunRound(o, reply, h).ds, RunRound(o, reply, h).outs)| > 0
  }

  /** The cap: a model that always answers with the same busy reply keeps the
      loop going until the fifth round, and that reply, directive and all,
      is what the loop returns. */
  lemma {:induction false} BusyModelHitsCap(o: Oracles, reply: string, mem: Window, execs: seq<ToolExecutionInfo>,
                                            modelCalls: nat, httpCalls: nat, iteration: nat)
    requires iteration <= MaxIterations && Contains(reply, ToolDirectives.Marker)
    requires forall k: nat, c: string :: o.chat(k, c) == Success(reply)
    requires Busy(o, reply)
    ensures var r := Loop(o, reply, mem, execs, modelCalls, httpCalls, iteration);
            r.outcome == Success(reply) && r.iterations == MaxIterations &&
            r.modelCalls == modelCalls + (MaxIterations - iteration)
    decreases MaxIterations - iteration
  {
    if iteration < MaxIterations {
      var rd := RunRound(o, reply, httpCalls);
      assert |Recorded(rd.ds, rd.outs)| > 0;
      var next := Add(FeedBack(mem, rd), Message(Assistant, reply));
      BusyRoundContinues(o, reply, mem, execs, modelCalls, httpCalls, iteration, reply);
      BusyModelHitsCap(o, reply, next, execs + Recorded(rd.ds, rd.outs), modelCalls + 1,
                       httpCalls + Requests(rd.outs), iteration + 1);
    }
  }

  /** With the service's scanner a busy reply holds the marker, so a model
      that keeps answering it makes the deployed loop run all five rounds and
      return a reply that still holds `TOOL_CALL:`. */
  lemma BusyAgentHitsCap(o: Oracles, reply: string, mem: Window, modelCalls: nat, httpCalls: nat)
    requires ScansDirectives(o)
    requires forall k: nat, c: string :: o.chat(k, c) == Success(reply)
    requires Busy(o, reply)
    ensures var r := Loop(o, reply, mem, [], modelCalls, httpCalls, 0);
            r.outcome == Success(reply) && Contains(reply, ToolDirectives.Marker) &&
            r.iterations == MaxIterations && r.modelCalls == modelCalls + MaxIterations
  {
    BusyHoldsMarker(o, reply);
    BusyModelHitsCap(o, reply, mem, [], modelCalls, httpCalls, 0);
  }

  /** The deployed agent (the `TOOL_CALL:` scanner and `executeToolByName`)
      hits the cap on a model that keeps answering with a busy reply: five
      rounds, six model calls in all with the first, and that reply, marker
      and all, is the answer. */
  lemma DeployedAgentHitsCap(chat: (nat, string) -> Result<string, Throwable>, p: Parsers, e: Endpoint,
                             reply: string, mem: Window, modelCalls: nat, httpCalls: nat)
    requires forall k: nat, c: string :: chat(k, c) == Success(reply)
    requires Busy(AgentOracles(chat, p, e), reply)
    ensures var r := Loop(AgentOracles(chat, p, e), reply, mem, [], modelCalls, httpCalls, 0);
            r.outcome == Success(reply) && Contains(reply, ToolDirectives.Marker) &&
            r.iterations == MaxIterations && r.modelCalls == modelCalls + MaxIterations
  {
    BusyAgentHitsCap(AgentOracles(chat, p, e), reply, mem, modelCalls, httpCalls);
  }

  /** With the service's scanner, a busy reply holds the marker. */
  lemma BusyHoldsMarker(o: Oracles, reply: string)
    requires ScansDirectives(o) && Busy(o, reply)
    ensures Contains(reply, ToolDirectives.Marker)
  {
    var rd := RunRound(o, reply, 0);
    assert |Recorded(rd.ds, rd.outs)| > 0;
    RecordedIsSuccesses(rd.ds, rd.outs);
    assert o.scan(reply) == ToolDirectives.Directives(reply);
    ToolDirectives.DirectiveImpliesMarker(reply);
  }

  // ---------------------------------------------------------------------
  // Tasks and sessions.
  // ---------------------------------------------------------------------

  /** A task: the user's message and the session id, either possibly null. */
  datatype AgentTask = AgentTask(message: Option<string>, sessionId: Option<string>)

  datatype Status = Completed | Failed

  /** The status text of a response. */
  function StatusText(s: Status): string {
    match s
    case Completed => "completed"
    case Failed => "failed"
  }

  datatype AgentResponse = AgentResponse(answer: string, sessionId: string, toolExecutions: seq<ToolExecutionInfo>, status: Status)

  /** The sessions after a task, its response, and the model calls and tool
      requests it made. */
  datatype TaskResult = TaskResult(sessions: map<string, Window>, response: AgentResponse, modelCalls: nat, httpCalls: nat)

  const ErrorPrefix: string := "I encountered an error: "

  const UserLabel: string := "\n\nUser: "

  /** The first user message of a task: the system prompt, then the message
      (null printed as "null"). */
  function UserTurn(instructions: string, message: Option<string>): string {
    instructions + UserLabel + Str(message)
  }

  /** Every session is a window of twenty messages, within its capacity. */
  predicate SessionsOk(sessions: map<string, Window>) {
    forall k :: k in sessions ==> sessions[k].capacity == WindowSize && |sessions[k].messages| <= WindowSize
  }

  /** `createAgentSession`: registers an empty window under the new id. */
  function CreateSession(sessions: map<string, Window>, freshId: string): (r: map<string, Window>)
    ensures r.Keys == sessions.Keys + {freshId}
    ensures r[freshId] == Empty(WindowSize)
    ensures forall k :: k in sessions && k != freshId ==> r[k] == sessions[k]
    ensures SessionsOk(sessions) ==> SessionsOk(r)
  {
    sessions[freshId := Empty(WindowSize)]
  }

  /** `clearSession`: drops that id only. */
  function ClearSession(sessions: map<string, Window>, id: string): (r: map<string, Window>)
    ensures r.Keys == sessions.Keys - {id}
    ensures forall k :: k in r ==> r[k] == sessions[k]
    ensures SessionsOk(sessions) ==> SessionsOk(r)
  {
    sessions - {id}
  }

  /** The response to a task that threw. */
  function FailedResponse(e: Throwable, sid: string): AgentResponse {
    AgentResponse(ErrorPrefix + Str(e.message), sid, [], Failed)
  }

  /** `executeTask`: a missing session id gets a fresh session; the session's
      memory is fetched or created; the user turn is added and the model
      asked; its reply is added, and if it holds the marker the tool loop
      runs (the loop's own guard is that test). Whatever the outcome, the session keeps every message added; an
      exception turns into a failed response without executions. */
  function ExecuteTask(o: Oracles, instructions: string, sessions: map<string, Window>, task: AgentTask, freshId: string): (r: TaskResult)
    ensures task.sessionId.Some? ==> r.response.sessionId == task.sessionId.value
    ensures task.sessionId.None? ==> r.response.sessionId == freshId
    ensures r.sessions.Keys == sessions.Keys + {r.response.sessionId}
    ensures forall k :: k in sessions && k != r.response.sessionId ==> r.sessions[k] == sessions[k]
  {
    var sid := if task.sessionId.Some? then task.sessionId.value else freshId;
    var s0 := if task.sessionId.Some? then sessions else CreateSession(sessions, freshId);
    var mem0 := if sid in s0 then s0[sid] else Empty(WindowSize);
    var mem1 := Add(mem0, Message(User, UserTurn(instructions, task.message)));
    match o.chat(0, BuildContext(mem1))
    case Failure(e) =>
      TaskResult(s0[sid := mem1], FailedResponse(e, sid), 1, 0)
    case Success(reply) =>
      var mem2 := Add(mem1, Message(Assistant, reply));
      var run := Loop(o, reply, mem2, [], 1, 0, 0);
      var s1 := s0[sid := run.memory];
      match run.outcome
      case Failure(e) => TaskResult(s1, FailedResponse(e, sid), run.modelCalls, run.httpCalls)
      case Success(answer) => TaskResult(s1, AgentResponse(answer, sid, run.execs, Completed), run.modelCalls, run.httpCalls)
  }

  /** A task makes the first model call and at most five more. */
  lemma TaskModelCalls(o: Oracles, instructions: string, sessions: map<string, Window>, task: AgentTask, freshId: string)
    ensures 1 <= ExecuteTask(o, instructions, sessions, task, freshId).modelCalls <= 1 + MaxIterations
  {
  }

  /** A failed task reports no executions and an answer that starts with the
      error prefix. */
  lemma FailedTaskShape(o: Oracles, instructions: string, sessions: map<string, Window>, task: AgentTask, freshId: string)
    ensures var r := ExecuteTask(o, instructions, sessions, task, freshId);
            r.response.status == Failed ==> r.response.toolExecutions == [] && ErrorPrefix <= r.response.answer
  {
  }

  /** The session a task runs in: the given id, or the fresh one. */
  function TaskSession(task: AgentTask, freshId: string): string {
    if task.sessionId.Some? then task.sessionId.value else freshId
  }

  /** The memory the first model call sees: the session's window (empty for
      a new or unknown id) with the user turn added. */
  function FirstMemory(instructions: string, sessions: map<string, Window>, task: AgentTask, freshId: string): Window {
    var sid := TaskSession(task, freshId);
    var mem0 := if task.sessionId.Some? && sid in sessions then sessions[sid] else Empty(WindowSize);
    Add(mem0, Message(User, UserTurn(instructions, task.message)))
  }

  /** The status is "failed" exactly when the first model call or the tool
      loop threw, and then the answer is the prefix and that exception's
      message; a completed task answers with the loop's answer, reports the
      loop's executions and keeps the loop's memory as its session. */
  lemma TaskOutcome(o: Oracles, instructions: string, sessions: map<string, Window>, task: AgentTask, freshId: string)
    ensures var r := ExecuteTask(o, instructions, sessions, task, freshId);
            var mem1 := FirstMemory(instructions, sessions, task, freshId);
            var first := o.chat(0, BuildContext(mem1));
            (first.Failure? ==>
               r.response == FailedResponse(first.error, TaskSession(task, freshId)) &&
               r.sessions[TaskSession(task, freshId)] == mem1) &&
            (first.Success? ==>
               var run := Loop(o, first.value, Add(mem1, Message(Assistant, first.value)), [], 1, 0, 0);
               r.sessions[TaskSession(task, freshId)] == run.memory &&
               (r.response.status == Failed <==> run.outcome.Failure?) &&
               (run.outcome.Failure? ==> r.response == FailedResponse(run.outcome.error, TaskSession(task, freshId))) &&
               (run.outcome.Success? ==> r.response.answer == run.outcome.value && r.response.toolExecutions == run.execs))
  {
    var sid := TaskSession(task, freshId);
    var s0 := if task.sessionId.Some? then sessions else CreateSession(sessions, freshId);
    assert (if sid in s0 then s0[sid] else Empty(WindowSize)) ==
           (if task.sessionId.Some? && sid in sessions then sessions[sid] else Empty(WindowSize));
  }

  /** A task fails exactly when one of its model calls or its tool loop threw. */
  lemma FailedIffException(o: Oracles, instructions: string, sessions: map<string, Window>, task: AgentTask, freshId: string)
    ensures var r := ExecuteTask(o, instructions, sessions, task, freshId);
            var mem1 := FirstMemory(instructions, sessions, task, freshId);
            var first := o.chat(0, BuildContext(mem1));
            r.response.status == Failed <==>
              (first.Failure? || Loop(o, first.value, Add(mem1, Message(Assistant, first.value)), [], 1, 0, 0).outcome.Failure?)
  {
    TaskOutcome(o, instructions, sessions, task, freshId);
  }

  /** Every session stays a window of twenty messages within its capacity. */
  lemma TaskKeepsSessionsOk(o: Oracles, instructions: string, sessions: map<string, Window>, task: AgentTask, freshId: string)
    requires SessionsOk(sessions)
    ensures SessionsOk(ExecuteTask(o, instructions, sessions, task, freshId).sessions)
  {
  }

  /** The user turn is added before the first model call, so when that call
      throws it stays in the session as the newest message, and the task
      fails after one model call and no tool request. */
  lemma UserTurnSurvivesFailure(o: Oracles, instructions: string, sessions: map<string, Window>, task: AgentTask, freshId: string)
    requires task.sessionId.Some? && task.sessionId.value in sessions ==>
               Valid(sessions[task.sessionId.value]) && sessions[task.sessionId.value].capacity >= 2
    requires var sid := if task.sessionId.Some? then task.sessionId.value else freshId;
             var s0 := if task.sessionId.Some? then sessions else CreateSession(sessions, freshId);
             var mem0 := if sid in s0 then s0[sid] else Empty(WindowSize);
             o.chat(0, BuildContext(Add(mem0, Message(User, UserTurn(instructions, task.message))))).Failure?
    ensures var r := ExecuteTask(o, instructions, sessions, task, freshId);
            var msgs := r.sessions[r.response.sessionId].messages;
            r.response.status == Failed && r.modelCalls == 1 && r.httpCalls == 0 &&
            |msgs| >= 1 && msgs[|msgs| - 1] == Message(User, UserTurn(instructions, task.message))
  {
    var sid := if task.sessionId.Some? then task.sessionId.value else freshId;
    var s0 := if task.sessionId.Some? then sessions else CreateSession(sessions, freshId);
    var mem0 := if sid in s0 then s0[sid] else Empty(WindowSize);
    AddRetains(mem0, Message(User, UserTurn(instructions, task.message)));
  }

  /** A first reply without the marker is the answer: no tool runs and the
      model is called once. */
  lemma DirectAnswer(o: Oracles, instructions: string, sessions: map<string, Window>, task: AgentTask, freshId: string, reply: string)
    requires !Contains(reply, ToolDirectives.Marker)
    requires var sid := if task.sessionId.Some? then task.sessionId.value else freshId;
             var s0 := if task.sessionId.Some? then sessions else CreateSession(sessions, freshId);
             var mem0 := if sid in s0 then s0[sid] else Empty(WindowSize);
             o.chat(0, BuildContext(Add(mem0, Message(User, UserTurn(instructions, task.message))))) == Success(reply)
    ensures var r := ExecuteTask(o, instructions, sessions, task, freshId);
            r.response.answer == reply && r.response.status == Completed && r.response.toolExecutions == [] &&
            r.modelCalls == 1 && r.httpCalls == 0
  {
  }
}

=== FILE: request_records.dfy ===
/** The request records whose compact constructors validate their input:
    construction either yields the record or throws
    `IllegalArgumentException` with a fixed message. A Java reference that may
    be null is an `Option`; the checks use `String.isBlank`, that is,
    `Character.isWhitespace`. */
module RequestRecords {
  import opened Wrappers
  import opened JavaLang

  /** The test every constructor applies to a required string. */
  predicate NullOrBlank(s: Option<string>) {
    s.None? || IsBlank(s.value)
  }

  /** The exception a constructor throws. */
  function Rejection(message: string): Throwable {
    Throwable(IllegalArgument, Some(message))
  }

  // ---------------------------------------------------------------------
  // RagRequest.
  // ---------------------------------------------------------------------

  const QuestionRejected: string := "Question cannot be null or blank"

  /** A RAG question; the conversation id and the result limit may be null. */
  datatype RagRequest = RagRequest(question: string, conversationId: Option<string>, maxResults: Option<int>)

  /** The canonical constructor: the question must be neither null nor blank;
      the other two components are taken as given. */
  function NewRagRequest(question: Option<string>, conversationId: Option<string>, maxResults: Option<int>): (r: Result<RagRequest, Throwable>)
    ensures r.Failure? <==> NullOrBlank(question)
    ensures r.Failure? ==> r.error == Rejection(QuestionRejected)
    ensures r.Success? ==> Some(r.value.question) == question && !IsBlank(r.value.question)
    ensures r.Success? ==> r.value.conversationId == conversationId && r.value.maxResults == maxResults
  {
    if NullOrBlank(question) then Failure(Rejection(QuestionRejected))
    else Success(RagRequest(question.value, conversationId, maxResults))
  }

  /** `RagRequest.of`: no conversation id and a limit of 5. */
  function RagRequestOf(question: Option<string>): (r: Result<RagRequest, Throwable>)
    ensures r.Failure? <==> NullOrBlank(question)
    ensures r.Success? ==> r.value.conversationId.None? && r.value.maxResults == Some(5)
  {
    NewRagRequest(question, None, Some(5))
  }

  /** Only the question is checked: whether construction succeeds does not
      depend on the conversation id or the limit, null or not. */
  lemma RagRequestChecksOnlyQuestion(question: Option<string>, c1: Option<string>, m1: Option<int>, c2: Option<string>, m2: Option<int>)
    ensures NewRagRequest(question, c1, m1).Success? == NewRagRequest(question, c2, m2).Success?
  {
  }

  // ---------------------------------------------------------------------
  // DocumentUploadRequest.
  // ---------------------------------------------------------------------

  const ContentRejected: string := "Content cannot be null or blank"

  const FilenameRejected: string := "Filename cannot be null or blank"

  /** A document upload; the content type and the metadata map (whose values
      may be null) are free. */
  datatype DocumentUploadRequest = DocumentUploadRequest(
    content: string,
    filename: string,
    contentType: Option<string>,
    metadata: Option<map<string, Option<string>>>)

  /** The canonical constructor: the content is checked first, then the
      file name. */
  function NewDocumentUploadRequest(content: Option<string>, filename: Option<string>, contentType: Option<string>,
                                    metadata: Option<map<string, Option<string>>>): (r: Result<DocumentUploadRequest, Throwable>)
    ensures NullOrBlank(content) ==> r == Failure(Rejection(ContentRejected))
    ensures !NullOrBlank(content) && NullOrBlank(filename) ==> r == Failure(Rejection(FilenameRejected))
    ensures r.Success? <==> !NullOrBlank(content) && !NullOrBlank(filename)
    ensures r.Success? ==> !IsBlank(r.value.content) && !IsBlank(r.value.filename) &&
                           Some(r.value.content) == content && Some(r.value.filename) == filename &&
                           r.value.contentType == contentType && r.value.metadata == metadata
  {
    if NullOrBlank(content) then Failure(Rejection(ContentRejected))
    else if NullOrBlank(filename) then Failure(Rejection(FilenameRejected))
    else Success(DocumentUploadRequest(content.value, filename.value, contentType, metadata))
  }

  /** The content type and the metadata never decide the outcome. */
  lemma UploadChecksOnlyContentAndName(content: Option<string>, filename: Option<string>,
                                       t1: Option<string>, m1: Option<map<string, Option<string>>>,
                                       t2: Option<string>, m2: Option<map<string, Option<string>>>)
    ensures NewDocumentUploadRequest(content, filename, t1, m1).Success? ==
            NewDocumentUploadRequest(content, filename, t2, m2).Success?
    ensures NewDocumentUploadRequest(content, filename, t1, m1).Failure? ==>
            NewDocumentUploadRequest(content, filename, t1, m1) == NewDocumentUploadRequest(content, filename, t2, m2)
  {
  }

  // ---------------------------------------------------------------------
  // ChatRequest and AgentRequest.
  // ---------------------------------------------------------------------

  const MessageRejected: string := "Message cannot be null or blank"

  /** A chat message with an optional conversation id. */
  datatype ChatRequest = ChatRequest(message: string, conversationId: Option<string>)

  /** The canonical constructor: only the message is checked. */
  function NewChatRequest(message: Option<string>, conversationId: Option<string>): (r: Result<ChatRequest, Throwable>)
    ensures r.Failure? <==> NullOrBlank(message)
    ensures r.Failure? ==> r.error == Rejection(MessageRejected)
    ensures r.Success? ==> Some(r.value.message) == message && !IsBlank(r.value.message) &&
                           r.value.conversationId == conversationId
  {
    if NullOrBlank(message) then Failure(Rejection(MessageRejected))
    else Success(ChatRequest(message.value, conversationId))
  }

  /** `ChatRequest.of`: no conversation id. */
  function ChatRequestOf(message: Option<string>): (r: Result<ChatRequest, Throwable>)
    ensures r.Failure? <==> NullOrBlank(message)
    ensures r.Success? ==> r.value.conversationId.None?
  {
    NewChatRequest(message, None)
  }

  /** A task for the agent: the message, an optional session id, and whether
      tools may be used. */
  datatype AgentRequest = AgentRequest(message: string, sessionId: Option<string>, enableTools: bool)

  /** The canonical constructor: only the message is checked (no length
      limit, nothing about the session id). */
  function NewAgentRequest(message: Option<string>, sessionId: Option<string>, enableTools: bool): (r: Result<AgentRequest, Throwable>)
    ensures r.Failure? <==> NullOrBlank(message)
    ensures r.Failure? ==> r.error == Rejection(MessageRejected)
    ensures r.Success? ==> Some(r.value.message) == message && !IsBlank(r.value.message) &&
                           r.value.sessionId == sessionId && r.value.enableTools == enableTools
  {
    if NullOrBlank(message) then Failure(Rejection(MessageRejected))
    else Success(AgentRequest(message.value, sessionId, enableTools))
  }

  /** `AgentRequest.of`: no session id, tools enabled. */
  function AgentRequestOf(message: Option<string>): (r: Result<AgentRequest, Throwable>)
    ensures r.Failure? <==> NullOrBlank(message)
    ensures r.Success? ==> r.value.sessionId.None? && r.value.enableTools
  {
    NewAgentRequest(message, None, true)
  }

  /** No length limit: a message of any length made of one visible
      character is accepted. */
  lemma AgentRequestHasNoLengthLimit(n: nat, sessionId: Option<string>)
    ensures NewAgentRequest(Some(seq(n + 1, _ => 'x')), sessionId, true).Success?
  {
    var m := seq(n + 1, _ => 'x');
    assert !IsWhitespace(m[0]);
  }

  /** A whitespace-only message, such as spaces and a tab, is rejected like
      a null one. */
  lemma WhitespaceMessageRejected()
    ensures NewChatRequest(Some(" \t "), None) == Failure(Rejection(MessageRejected))
    ensures NewAgentRequest(Some(" \t "), None, true) == NewAgentRequest(None, None, true)
  {
  }
}

=== FILE: tool_directives.dfy ===
/** The text protocol of the agent in 04-tools: finding every
    `TOOL_CALL: name(k=v, ...)` directive in a model reply, and turning the
    text between the parentheses into a parameter map.

    The directive pattern is `TOOL_CALL:\s*(\w+)\(([^)]+)\)`. No match of it
    depends on backtracking: the whitespace run must be maximal (a shorter one
    leaves a space where a word character is needed), the name must be the
    maximal word run (a shorter one leaves a word character where `(` is
    needed), and the parameters run up to the first `)` after `(` (a shorter
    run leaves a non-`)` where `)` is needed). So a match at a position is
    found by three maximal scans, as `MatchAt` does; `Matcher.find` then
    resumes after the end of each match. */
module ToolDirectives {
  import opened Wrappers
  import opened JavaLang

  const Marker: string := "TOOL_CALL:"

  /** `\s`: space, tab, newline, vertical tab, form feed, carriage return. */
  predicate RegexSpace(c: char) {
    c == ' ' || ('\t' <= c <= '\r')
  }

  /** `\w`: ASCII letters, digits and underscore. */
  predicate WordChar(c: char) {
    ('a' <= c <= 'z') || ('A' <= c <= 'Z') || ('0' <= c <= '9') || c == '_'
  }

  /** `[^)]`. */
  predicate NotCloseParen(c: char) {
    c != ')'
  }

  /** The three character classes the pattern scans runs of. */
  datatype CharClass = Space | Word | NotClose

  predicate InClass(cls: CharClass, c: char) {
    match cls
    case Space => RegexSpace(c)
    case Word => WordChar(c)
    case NotClose => NotCloseParen(c)
  }

  /** End of the maximal run, from `i`, of characters of class `cls`. */
  function RunEnd(cls: CharClass, s: string, i: nat): (j: nat)
    requires i <= |s|
    ensures i <= j <= |s|
    decreases |s| - i
  {
    if i == |s| || !InClass(cls, s[i]) then i else RunEnd(cls, s, i + 1)
  }

  /** The run is of class `cls` throughout and stops at the first character
      outside it. */
  lemma {:induction false} RunEndMaximal(cls: CharClass, s: string, i: nat)
    requires i <= |s|
    ensures forall k :: i <= k < RunEnd(cls, s, i) ==> InClass(cls, s[k])
    ensures RunEnd(cls, s, i) == |s| || !InClass(cls, s[RunEnd(cls, s, i)])
    decreases |s| - i
  {
    if i < |s| && InClass(cls, s[i]) {
      RunEndMaximal(cls, s, i + 1);
    }
  }

  /** One match: the tool name (group 1), the raw parameter text (group 2)
      and the half-open span `[start, end)` of the whole match. */
  datatype Directive = Directive(name: string, params: string, start: nat, end: nat)

  /** Where the name of `d` starts, counted back from the end of the match. */
  function NameStart(d: Directive): int {
    d.end - 2 - |d.params| - |d.name|
  }

  /** `d` spells out a match of the pattern in `s`: the marker at `start`,
      pattern whitespace, a non-empty word name, `(`, non-empty parameters
      free of `)`, and the closing `)` just before `end`. */
  predicate Spells(s: string, d: Directive) {
    var ns := NameStart(d);
    var ne := ns + |d.name|;
    && d.start + |Marker| <= ns
    && d.end <= |s|
    && s[d.start..d.start + |Marker|] == Marker
    && (forall k :: d.start + |Marker| <= k < ns ==> RegexSpace(s[k]))
    && |d.name| >= 1 && s[ns..ne] == d.name
    && (forall k :: 0 <= k < |d.name| ==> WordChar(d.name[k]))
    && s[ne] == '('
    && |d.params| >= 1 && s[ne + 1..d.end - 1] == d.params
    && ')' !in d.params
    && s[d.end - 1] == ')'
  }

  /** The marker occurs at `p`. */
  predicate MarkerAt(s: string, p: nat) {
    p + |Marker| <= |s| && s[p..p + |Marker|] == Marker
  }

  /** The match of the pattern that starts exactly at `p`, if there is one. */
  function MatchAt(s: string, p: nat): (r: Option<Directive>)
    requires p <= |s|
    ensures r.Some? ==> r.value.start == p < r.value.end <= |s|
  {
    if MarkerAt(s, p) then
      var a := RunEnd(Space, s, p + |Marker|);
      var b := RunEnd(Word, s, a);
      if a < b < |s| && s[b] == '(' then
        var c := RunEnd(NotClose, s, b + 1);
        if b + 1 < c < |s| then
          Some(Directive(s[a..b], s[b + 1..c], p, c + 1))
        else None
      else None
    else None
  }

  /** Every match `MatchAt` reports spells out the pattern. */
  lemma MatchAtSound(s: string, p: nat)
    requires p <= |s|
    ensures MatchAt(s, p).Some? ==> Spells(s, MatchAt(s, p).value)
  {
    if MatchAt(s, p).Some? {
      var d := MatchAt(s, p).value;
      var a := RunEnd(Space, s, p + |Marker|);
      var b := RunEnd(Word, s, a);
      RunEndMaximal(Space, s, p + |Marker|);
      RunEndMaximal(Word, s, a);
      RunEndMaximal(NotClose, s, b + 1);
      assert NameStart(d) == a;
    }
  }

  /** A run that ends where `p` first fails is the maximal run. */
  lemma {:induction false} RunEndUnique(cls: CharClass, s: string, i: nat, j: nat)
    requires i <= j <= |s|
    requires forall k :: i <= k < j ==> InClass(cls, s[k])
    requires j == |s| || !InClass(cls, s[j])
    ensures RunEnd(cls, s, i) == j
    decreases j - i
  {
    if i < j {
      RunEndUnique(cls, s, i + 1, j);
    }
  }

  lemma SpaceRunOfSpells(s: string, d: Directive)
    requires Spells(s, d)
    ensures RunEnd(Space, s, d.start + |Marker|) == NameStart(d)
  {
    var ns := NameStart(d);
    assert WordChar(s[ns]) by {
      assert s[ns] == s[ns..ns + |d.name|][0];
    }
    RunEndUnique(Space, s, d.start + |Marker|, ns);
  }

  lemma NameRunOfSpells(s: string, d: Directive)
    requires Spells(s, d)
    ensures RunEnd(Word, s, NameStart(d)) == NameStart(d) + |d.name|
  {
    var ns := NameStart(d);
    var ne := ns + |d.name|;
    forall k | ns <= k < ne
      ensures WordChar(s[k])
    {
      assert s[k] == s[ns..ne][k - ns];
    }
    RunEndUnique(Word, s, ns, ne);
  }

  lemma ParamsRunOfSpells(s: string, d: Directive)
    requires Spells(s, d)
    ensures RunEnd(NotClose, s, NameStart(d) + |d.name| + 1) == d.end - 1
  {
    var ne := NameStart(d) + |d.name|;
    forall k | ne + 1 <= k < d.end - 1
      ensures NotCloseParen(s[k])
    {
      assert s[k] == s[ne + 1..d.end - 1][k - (ne + 1)];
    }
    RunEndUnique(NotClose, s, ne + 1, d.end - 1);
  }

  /** The decomposition of a match is unique, so the scan finds exactly the
      matches the pattern allows: `MatchAt` is complete for `Spells`. */
  lemma MatchAtComplete(s: string, d: Directive)
    requires Spells(s, d)
    ensures MatchAt(s, d.start) == Some(d)
  {
    SpaceRunOfSpells(s, d);
    NameRunOfSpells(s, d);
    ParamsRunOfSpells(s, d);
  }

  /** Every match, left to right, as `while (matcher.find())` reports them:
      a failed position moves on by one character, a match resumes after
      its end. */
  function FindAll(s: string, from: nat): (r: seq<Directive>)
    requires from <= |s|
    ensures forall i :: 0 <= i < |r| ==> from <= r[i].start < r[i].end <= |s|
    ensures forall i :: 0 <= i < |r| ==> MatchAt(s, r[i].start) == Some(r[i])
    decreases |s| - from
  {
    if from == |s| then []
    else
      match MatchAt(s, from)
      case Some(d) => [d] + FindAll(s, d.end)
      case None => FindAll(s, from + 1)
  }

  /** Each directive ends before the next begins. */
  predicate NonOverlapping(r: seq<Directive>) {
    forall i :: 0 <= i < |r| - 1 ==> r[i].end <= r[i + 1].start
  }

  lemma ConsNonOverlapping(d: Directive, rest: seq<Directive>)
    requires NonOverlapping(rest)
    requires |rest| > 0 ==> d.end <= rest[0].start
    ensures NonOverlapping([d] + rest)
  {
    var r := [d] + rest;
    forall i | 0 <= i < |r| - 1
      ensures r[i].end <= r[i + 1].start
    {
      if i > 0 {
        assert r[i] == rest[i - 1] && r[i + 1] == rest[i];
      }
    }
  }

  /** Matches do not overlap. */
  lemma {:induction false} FindAllOrdered(s: string, from: nat)
    requires from <= |s|
    ensures NonOverlapping(FindAll(s, from))
    decreases |s| - from
  {
    if from < |s| {
      match MatchAt(s, from)
      case Some(d) =>
        var rest := FindAll(s, d.end);
        FindAllOrdered(s, d.end);
        ConsNonOverlapping(d, rest);
        assert FindAll(s, from) == [d] + rest;
      case None =>
        FindAllOrdered(s, from + 1);
        assert FindAll(s, from) == FindAll(s, from + 1);
    } else {
      assert FindAll(s, from) == [];
    }
  }

  /** `p` lies in a gap of `r`: before its first match, between two
      consecutive matches, or after its last, counting from `from`. */
  predicate InGap(r: seq<Directive>, from: nat, q: nat) {
    from <= q && (|r| == 0 || q < r[0].start || InGap(r[1..], r[0].end, q))
  }

  /** Nothing is skipped: no match of the pattern starts in a gap between
      the matches `FindAll` reports. */
  lemma {:induction false} FindAllSkipsNothing(s: string, from: nat, q: nat)
    requires from <= |s| && q < |s|
    requires InGap(FindAll(s, from), from, q)
    ensures MatchAt(s, q).None?
    decreases |s| - from
  {
    if from < |s| {
      match MatchAt(s, from)
      case Some(d) =>
        var rest := FindAll(s, d.end);
        assert FindAll(s, from) == [d] + rest;
        assert ([d] + rest)[1..] == rest;
        if q >= d.end {
          FindAllSkipsNothing(s, d.end, q);
        }
      case None =>
        if q > from {
          FindAllSkipsNothing(s, from + 1, q);
        }
    }
  }

  /** All directives of a reply. */
  function Directives(s: string): seq<Directive> {
    FindAll(s, 0)
  }

  /** A reply with any directive contains the marker, so the loop's
      `contains("TOOL_CALL:")` test never misses a parsable directive. */
  lemma DirectiveImpliesMarker(s: string)
    requires |Directives(s)| > 0
    ensures Contains(s, Marker)
  {
    var d := Directives(s)[0];
    assert OccursAt(s, Marker, d.start);
    ContainsIff(s, Marker);
  }

  /** Without the marker at any position from `from` on, there is no directive. */
  lemma {:induction false} FindAllWithoutMarker(s: string, from: nat)
    requires from <= |s|
    requires forall q :: from <= q < |s| ==> !MarkerAt(s, q)
    ensures FindAll(s, from) == []
    decreases |s| - from
  {
    if from < |s| {
      FindAllWithoutMarker(s, from + 1);
    }
  }

  /** The marker alone is not enough: a directive with empty parentheses is
      no match, so the loop sees the marker but executes nothing. */
  lemma MarkerWithoutDirective()
    ensures Contains("TOOL_CALL: f()", Marker)
    ensures Directives("TOOL_CALL: f()") == []
  {
    var s := "TOOL_CALL: f()";
    assert OccursAt(s, Marker, 0);
    ContainsIff(s, Marker);
    assert RunEnd(Space, s, 10) == 11;
    assert RunEnd(Word, s, 11) == 12;
    assert RunEnd(NotClose, s, 13) == 13;
    assert MatchAt(s, 0).None?;
    forall q | 1 <= q < |s|
      ensures !MarkerAt(s, q)
    {
      if q + |Marker| <= |s| {
        assert s[q] != 'T';
        assert s[q..q + |Marker|][0] != Marker[0];
      }
    }
    FindAllWithoutMarker(s, 1);
  }

  // ---------------------------------------------------------------------
  // Parameters.
  // ---------------------------------------------------------------------

  /** One comma-separated piece as the loop body treats it: trimmed, split at
      `=`, kept only when that gives exactly two parts; the key is trimmed,
      the value trimmed and stripped of every double quote. */
  function PairOf(piece: string): Option<(string, string)> {
    var kv := Split(Trim(piece), '=');
    if |kv| == 2 then Some((Trim(kv[0]), RemoveChar(Trim(kv[1]), '"'))) else None
  }

  /** The map after the loop has seen every pair, left to right: a later key
      overwrites an earlier one. */
  function Collect(pairs: seq<Option<(string, string)>>): map<string, string>
    decreases |pairs|
  {
    if |pairs| == 0 then map[]
    else
      var m := Collect(pairs[..|pairs| - 1]);
      match pairs[|pairs| - 1]
      case Some((k, v)) => m[k := v]
      case None => m
  }

  function Pairs(params: string): seq<Option<(string, string)>> {
    var pieces := Split(params, ',');
    seq(|pieces|, i requires 0 <= i < |pieces| => PairOf(pieces[i]))
  }

  /** `pairs[i]` is a kept pair with key `k`. */
  predicate HasKey(pairs: seq<Option<(string, string)>>, i: int, k: string)
    requires 0 <= i < |pairs|
  {
    pairs[i].Some? && pairs[i].value.0 == k
  }

  /** A key is in the collected map exactly when some pair carries it, and
      its value is the one of the last pair that does. */
  lemma {:induction false} CollectLastWins(pairs: seq<Option<(string, string)>>, k: string)
    ensures k in Collect(pairs) <==> exists i :: 0 <= i < |pairs| && HasKey(pairs, i, k)
    ensures k in Collect(pairs) ==>
              exists i :: 0 <= i < |pairs| && pairs[i] == Some((k, Collect(pairs)[k])) &&
                          forall j :: i < j < |pairs| ==> !HasKey(pairs, j, k)
    decreases |pairs|
  {
    if |pairs| > 0 {
      var n := |pairs| - 1;
      var init := pairs[..n];
      CollectLastWins(init, k);
      assert forall i :: 0 <= i < n ==> (HasKey(init, i, k) <==> HasKey(pairs, i, k));
      if HasKey(pairs, n, k) {
        assert pairs[n] == Some((k, Collect(pairs)[k]));
      } else if k in Collect(pairs) {
        var i :| 0 <= i < n && init[i] == Some((k, Collect(init)[k])) &&
                 forall j :: i < j < n ==> !HasKey(init, j, k);
        assert pairs[i] == Some((k, Collect(pairs)[k]));
      }
    }
  }

  /** Every character of a slice occurs in the whole. */
  lemma SliceWithin(s: string, a: nat, b: nat)
    requires a <= b <= |s|
    ensures forall c :: c in s[a..b] ==> c in s
  {
    forall c | c in s[a..b]
      ensures c in s
    {
      var i :| 0 <= i < b - a && s[a..b][i] == c;
      assert s[a + i] == c;
    }
  }

  lemma {:induction false} JoinPieceWithin(parts: seq<string>, sep: string, i: nat)
    requires i < |parts|
    ensures forall c :: c in parts[i] ==> c in JoinWith(parts, sep)
    decreases |parts|
  {
    if |parts| > 1 && i > 0 {
      JoinPieceWithin(parts[1..], sep, i - 1);
    }
  }

  /** Every character of a piece of a split occurs in the split string. */
  lemma SplitPieceWithin(s: string, sep: char, i: nat)
    requires i < |Split(s, sep)|
    ensures forall c :: c in Split(s, sep)[i] ==> c in s
  {
    if sep in s {
      var raw := RawSplit(s, sep);
      assert Split(s, sep)[i] == raw[i];
      JoinPieceWithin(raw, [sep], i);
    }
  }

  /** Every character of `Trim(s)` occurs in `s`. */
  lemma TrimWithin(s: string)
    ensures forall c :: c in Trim(s) ==> c in s
  {
    SliceWithin(s, LeadingTrim(s), LeadingTrim(s) + |Trim(s)|);
  }

  /** A parsed key and value: the key trimmed and free of commas and `=`,
      the value free of commas, `=` and double quotes. */
  predicate CleanPair(k: string, v: string) {
    && ',' !in k && '=' !in k && (|k| == 0 || (!Trimmable(k[0]) && !Trimmable(k[|k| - 1])))
    && ',' !in v && '=' !in v && '"' !in v
  }

  /** The key and value of a pair cut from a comma-free piece are clean. */
  lemma PairOfClean(piece: string)
    requires ',' !in piece
    ensures PairOf(piece).Some? ==> CleanPair(PairOf(piece).value.0, PairOf(piece).value.1)
  {
    var t := Trim(piece);
    var kv := Split(t, '=');
    if |kv| == 2 {
      TrimWithin(piece);
      SplitPieceWithin(t, '=', 0);
      SplitPieceWithin(t, '=', 1);
      TrimWithin(kv[0]);
      TrimWithin(kv[1]);
    }
  }

  /** Every pair kept from a parameter text is clean. */
  lemma PairsClean(params: string)
    ensures forall i :: 0 <= i < |Pairs(params)| && Pairs(params)[i].Some? ==>
              CleanPair(Pairs(params)[i].value.0, Pairs(params)[i].value.1)
  {
    var pieces := Split(params, ',');
    forall i | 0 <= i < |pieces|
      ensures PairOf(pieces[i]).Some? ==> CleanPair(PairOf(pieces[i]).value.0, PairOf(pieces[i]).value.1)
    {
      PairOfClean(pieces[i]);
    }
  }

  /** Collecting clean pairs gives a map of clean entries. */
  lemma {:induction false} CollectClean(pairs: seq<Option<(string, string)>>)
    requires forall i :: 0 <= i < |pairs| && pairs[i].Some? ==> CleanPair(pairs[i].value.0, pairs[i].value.1)
    ensures forall k :: k in Collect(pairs) ==> CleanPair(k, Collect(pairs)[k])
    decreases |pairs|
  {
    if |pairs| > 0 {
      var init := pairs[..|pairs| - 1];
      assert forall i :: 0 <= i < |init| ==> init[i] == pairs[i];
      CollectClean(init);
    }
  }

  /** `parseParams`: every key is trimmed and free of commas and `=`, every
      value free of commas, `=` and double quotes. */
  function ParseParams(params: string): (r: map<string, string>)
    ensures forall k :: k in r ==> CleanPair(k, r[k])
  {
    PairsClean(params);
    CollectClean(Pairs(params));
    Collect(Pairs(params))
  }

  /** A piece is kept exactly when its trimmed text splits at `=` into two
      parts; the key is then the first part trimmed and the value the second
      part trimmed with its double quotes removed. */
  lemma PairOfKeepsTwoParts(piece: string)
    ensures var kv := Split(Trim(piece), '=');
            (PairOf(piece).Some? <==> |kv| == 2) &&
            (PairOf(piece).Some? ==> PairOf(piece).value == (Trim(kv[0]), RemoveChar(Trim(kv[1]), '"')))
  {
  }

  /** Collecting one pair: that pair alone, or nothing. */
  lemma CollectOne(x: Option<(string, string)>)
    ensures Collect([x]) == if x.Some? then map[x.value.0 := x.value.1] else map[]
  {
    assert [x][..0] == [];
  }

  /** A parameter text without a comma is one piece: its pair alone, or nothing. */
  lemma SinglePiece(piece: string)
    requires ',' !in piece
    ensures ParseParams(piece) == if PairOf(piece).Some? then map[PairOf(piece).value.0 := PairOf(piece).value.1] else map[]
  {
    assert Split(piece, ',') == [piece];
    assert Pairs(piece) == [PairOf(piece)];
    CollectOne(PairOf(piece));
  }

  /** The piece `k=` is dropped. */
  lemma DanglingPieceDropped(k: string)
    requires '=' !in k
    ensures PairOf(k + "=").None?
  {
    TrimSnoc(k, '=');
    var x := k[LeadingTrim(k)..];
    assert '=' !in x by {
      SliceWithin(k, LeadingTrim(k), |k|);
    }
    assert x + ['='] == x + ['='] + "";
    SplitOneSeparator(x, "", '=');
  }

  lemma PrefixWithout(v: string, q: nat, c: char)
    requires q <= |v| && c !in v
    ensures c !in v[..q]
  {
    SliceWithin(v, 0, q);
  }

  /** A piece that trims to `=y`, with `y` non-empty and free of `=`, is
      kept with the empty key and `y` trimmed and unquoted. */
  lemma EmptyKeyPieceKept(piece: string, y: string)
    requires Trim(piece) == ['='] + y && '=' !in y && y != ""
    ensures PairOf(piece) == Some(("", RemoveChar(Trim(y), '"')))
  {
    assert "" + ['='] + y == ['='] + y;
    SplitOneSeparator("", y, '=');
    TrimUnique("", 0, 0);
  }

  /** The piece `=v` is kept with the empty key. */
  lemma LeadingEqualsKept(v: string)
    requires '=' !in v && !TrimIsEmpty(v)
    ensures PairOf("=" + v) == Some(("", RemoveChar(Trim(v), '"')))
  {
    TrimCons('=', v);
    TrimOfTrimEnd(v);
    var w := v[..TrimEnd(v)];
    PrefixWithout(v, TrimEnd(v), '=');
    EmptyKeyPieceKept("=" + v, w);
  }

  /** `key=` has only one part once split, so it is dropped. */
  lemma KeyWithoutValueDropped(k: string)
    requires ',' !in k && '=' !in k
    ensures ParseParams(k + "=") == map[]
  {
    SinglePiece(k + "=");
    DanglingPieceDropped(k);
  }

  /** `=value` splits into an empty key and the value: it is kept under the
      key "", with the value trimmed and unquoted. */
  lemma EmptyKeyKept(v: string)
    requires ',' !in v && '=' !in v && !TrimIsEmpty(v)
    ensures ParseParams("=" + v) == map["" := RemoveChar(Trim(v), '"')]
  {
    SinglePiece("=" + v);
    LeadingEqualsKept(v);
  }

  /** Piece `i` of a parameter text is kept with key `k`. */
  predicate PieceHasKey(pieces: seq<string>, i: int, k: string)
    requires 0 <= i < |pieces|
  {
    PairOf(pieces[i]).Some? && PairOf(pieces[i]).value.0 == k
  }

  /** Pair `i` is the one cut from piece `i`. */
  lemma PairsArePieces(params: string, k: string)
    ensures var pieces := Split(params, ',');
            |Pairs(params)| == |pieces| &&
            (forall i :: 0 <= i < |pieces| ==> Pairs(params)[i] == PairOf(pieces[i])) &&
            (forall i :: 0 <= i < |pieces| ==> (HasKey(Pairs(params), i, k) <==> PieceHasKey(pieces, i, k)))
  {
  }

  /** `parseParams` over its comma-separated pieces: a key is in the map
      exactly when some kept piece carries it, and its value is the one of
      the last piece that does. */
  lemma ParseParamsLastWins(params: string, k: string)
    ensures var pieces := Split(params, ',');
            k in ParseParams(params) <==> exists i :: 0 <= i < |pieces| && PieceHasKey(pieces, i, k)
    ensures var pieces := Split(params, ',');
            k in ParseParams(params) ==>
              exists i :: 0 <= i < |pieces| && PairOf(pieces[i]) == Some((k, ParseParams(params)[k])) &&
                          forall j :: i < j < |pieces| ==> !PieceHasKey(pieces, j, k)
  {
    CollectLastWins(Pairs(params), k);
    PairsArePieces(params, k);
  }
}

=== FILE: tool_dispatch.dfy ===
/** How the agent in 04-tools runs one tool directive: the closed set of
    eight tool names, the JSON body each one posts to its HTTP endpoint, and
    the reading of the endpoint's reply map by a fixed key priority. The HTTP
    endpoint, `Integer.parseInt`, `Double.parseDouble` and `HashMap.toString`
    are parameters. */
module ToolDispatch {
  import opened Wrappers
  import opened JavaLang
  import ToolDirectives

  datatype Tool =
    | GetCurrentWeather
    | GetWeatherForecast
    | CelsiusToFahrenheit
    | FahrenheitToCelsius
    | CelsiusToKelvin
    | KelvinToCelsius
    | FahrenheitToKelvin
    | KelvinToFahrenheit

  /** The tools in the order of the dispatch switch and of the advertised list. */
  const AllTools: seq<Tool> := [
    GetCurrentWeather, GetWeatherForecast, CelsiusToFahrenheit, FahrenheitToCelsius,
    CelsiusToKelvin, KelvinToCelsius, FahrenheitToKelvin, KelvinToFahrenheit
  ]

  /** The name a directive uses for the tool. */
  function WireName(t: Tool): string {
    match t
    case GetCurrentWeather => "getCurrentWeather"
    case GetWeatherForecast => "getWeatherForecast"
    case CelsiusToFahrenheit => "celsiusToFahrenheit"
    case FahrenheitToCelsius => "fahrenheitToCelsius"
    case CelsiusToKelvin => "celsiusToKelvin"
    case KelvinToCelsius => "kelvinToCelsius"
    case FahrenheitToKelvin => "fahrenheitToKelvin"
    case KelvinToFahrenheit => "kelvinToFahrenheit"
  }

  /** The dispatch switch: the tool a name selects, if any (case-sensitive,
      exact match). */
  function ToolFromName(name: string): (r: Option<Tool>)
    ensures r.Some? ==> WireName(r.value) == name
    ensures r.None? ==> forall t: Tool :: WireName(t) != name
  {
    if name == "getCurrentWeather" then Some(GetCurrentWeather)
    else if name == "getWeatherForecast" then Some(GetWeatherForecast)
    else if name == "celsiusToFahrenheit" then Some(CelsiusToFahrenheit)
    else if name == "fahrenheitToCelsius" then Some(FahrenheitToCelsius)
    else if name == "celsiusToKelvin" then Some(CelsiusToKelvin)
    else if name == "kelvinToCelsius" then Some(KelvinToCelsius)
    else if name == "fahrenheitToKelvin" then Some(FahrenheitToKelvin)
    else if name == "kelvinToFahrenheit" then Some(KelvinToFahrenheit)
    else None
  }

  /** No two tools share a wire name. */
  lemma WireNameInjective(t: Tool, u: Tool)
    requires WireName(t) == WireName(u)
    ensures t == u
  {
  }

  /** Each wire name selects its own tool. */
  lemma NameRoundTrip(t: Tool)
    ensures ToolFromName(WireName(t)) == Some(t)
  {
    WireNameInjective(ToolFromName(WireName(t)).value, t);
  }

  /** The switch accepts exactly the wire names of the eight tools. */
  lemma KnownNames(name: string)
    ensures ToolFromName(name).Some? <==> exists i :: 0 <= i < |AllTools| && WireName(AllTools[i]) == name
  {
    if ToolFromName(name).Some? {
      var u := ToolFromName(name).value;
      assert u in AllTools;
    }
  }

  /** What the advertised list says each tool does. */
  function Description(t: Tool): string {
    match t
    case GetCurrentWeather => "Get current weather for a location"
    case GetWeatherForecast => "Get weather forecast"
    case CelsiusToFahrenheit => "Convert Celsius to Fahrenheit"
    case FahrenheitToCelsius => "Convert Fahrenheit to Celsius"
    case CelsiusToKelvin => "Convert Celsius to Kelvin"
    case KelvinToCelsius => "Convert Kelvin to Celsius"
    case FahrenheitToKelvin => "Convert Fahrenheit to Kelvin"
    case KelvinToFahrenheit => "Convert Kelvin to Fahrenheit"
  }

  /** `getAvailableTools`: one "name - description" entry per tool. */
  function AvailableTools(): (r: seq<string>)
    ensures |r| == |AllTools|
  {
    seq(|AllTools|, i requires 0 <= i < |AllTools| => WireName(AllTools[i]) + " - " + Description(AllTools[i]))
  }

  /** Entry i of the advertised list starts with the name that selects tool i. */
  lemma AvailableEntryDispatches(i: nat)
    requires i < |AllTools|
    ensures var n := WireName(AllTools[i]);
            AvailableTools()[i][..|n|] == n && ToolFromName(n) == Some(AllTools[i])
  {
    var t := AllTools[i];
    AvailableEntry(i);
    PrefixOfConcat(WireName(t), " - " + Description(t));
    NameRoundTrip(t);
  }

  /** Entry i of the advertised list, spelled out. */
  lemma AvailableEntry(i: nat)
    requires i < |AllTools|
    ensures AvailableTools()[i] == WireName(AllTools[i]) + (" - " + Description(AllTools[i]))
  {
  }

  lemma PrefixOfConcat(a: string, b: string)
    ensures (a + b)[..|a|] == a
  {
  }

  /** The advertised list covers every tool, each exactly once. */
  lemma AllToolsListsEachOnce(t: Tool)
    ensures exists i :: 0 <= i < |AllTools| && AllTools[i] == t
    ensures forall i, j :: 0 <= i < j < |AllTools| ==> AllTools[i] != AllTools[j]
  {
    assert t in AllTools;
  }

  /** The endpoint path of each tool. */
  function Path(t: Tool): string {
    match t
    case GetCurrentWeather => "/api/tools/weather/current"
    case GetWeatherForecast => "/api/tools/weather/forecast"
    case CelsiusToFahrenheit => "/api/tools/temperature/celsius-to-fahrenheit"
    case FahrenheitToCelsius => "/api/tools/temperature/fahrenheit-to-celsius"
    case CelsiusToKelvin => "/api/tools/temperature/celsius-to-kelvin"
    case KelvinToCelsius => "/api/tools/temperature/kelvin-to-celsius"
    case FahrenheitToKelvin => "/api/tools/temperature/fahrenheit-to-kelvin"
    case KelvinToFahrenheit => "/api/tools/temperature/kelvin-to-fahrenheit"
  }

  /** The parameter a temperature tool reads. */
  function InputKey(t: Tool): string
    requires t != GetCurrentWeather && t != GetWeatherForecast
  {
    match t
    case CelsiusToFahrenheit => "celsius"
    case CelsiusToKelvin => "celsius"
    case FahrenheitToCelsius => "fahrenheit"
    case FahrenheitToKelvin => "fahrenheit"
    case KelvinToCelsius => "kelvin"
    case KelvinToFahrenheit => "kelvin"
  }

  /** A value of the request body. */
  datatype JValue = JNull | JString(s: string) | JInt(i: int) | JNumber(x: real)

  /** The number parsers the switch calls; each may throw, and each is
      handed null when the parameter is missing. */
  datatype Parsers = Parsers(
    parseInt: Option<string> -> Result<int, Throwable>,
    parseDouble: Option<string> -> Result<real, Throwable>)

  /** `paramMap.get(key)`: null for a missing key. */
  function Lookup(params: map<string, string>, key: string): Option<string> {
    if key in params then Some(params[key]) else None
  }

  function OptString(v: Option<string>): JValue {
    match v
    case Some(s) => JString(s)
    case None => JNull
  }

  /** The request body of a tool call: the location as given (null when
      missing), the day count and the temperatures parsed; a parse failure
      ends the call before any request is made. */
  function RequestBody(p: Parsers, t: Tool, params: map<string, string>): (r: Result<map<string, JValue>, Throwable>)
    ensures t == GetCurrentWeather ==> r.Success? && r.value.Keys == {"location"}
    ensures t == GetWeatherForecast ==>
              (r.Failure? <==> p.parseInt(Lookup(params, "days")).Failure?) &&
              (r.Success? ==> r.value.Keys == {"location", "days"})
    ensures t != GetCurrentWeather && t != GetWeatherForecast ==>
              (r.Failure? <==> p.parseDouble(Lookup(params, InputKey(t))).Failure?) &&
              (r.Success? ==> r.value.Keys == {InputKey(t)})
    ensures r.Success? && "location" in r.value ==> r.value["location"] == OptString(Lookup(params, "location"))
    ensures t == GetWeatherForecast && r.Success? ==> r.value["days"] == JInt(p.parseInt(Lookup(params, "days")).value)
    ensures t != GetCurrentWeather && t != GetWeatherForecast && r.Success? ==>
              r.value[InputKey(t)] == JNumber(p.parseDouble(Lookup(params, InputKey(t))).value)
  {
    match t
    case GetCurrentWeather =>
      Success(map["location" := OptString(Lookup(params, "location"))])
    case GetWeatherForecast =>
      var days :- p.parseInt(Lookup(params, "days"));
      Success(map["location" := OptString(Lookup(params, "location")), "days" := JInt(days)])
    case _ =>
      var x :- p.parseDouble(Lookup(params, InputKey(t)));
      Success(map[InputKey(t) := JNumber(x)])
  }

  /** A value of the reply map: a string, null, or another object with its
      `toString` rendering and the message a cast of it to `String` throws. */
  datatype RValue = RNull | RString(s: string) | ROther(text: string, castMessage: Option<string>)

  type Reply = map<string, RValue>

  /** `String.valueOf(v)`. */
  function Render(v: RValue): string {
    match v
    case RNull => "null"
    case RString(s) => s
    case ROther(text, _) => text
  }

  /** `(String) v`: null passes through, a non-string throws. */
  function CastToString(v: RValue): Result<Option<string>, Throwable> {
    match v
    case RNull => Success(None)
    case RString(s) => Success(Some(s))
    case ROther(_, m) => Failure(Throwable(ClassCast, m))
  }

  /** The reply keys the agent looks for, highest priority first. */
  const ReplyKeys: seq<string> := ["error", "description", "forecast", "result"]

  /** Position in `ReplyKeys` of the first key present in `m`, if any. */
  function FirstKey(m: Reply): (r: Option<nat>)
    ensures r.Some? ==> r.value < |ReplyKeys| && ReplyKeys[r.value] in m
    ensures r.Some? ==> forall j :: 0 <= j < r.value ==> ReplyKeys[j] !in m
    ensures r.None? ==> forall j :: 0 <= j < |ReplyKeys| ==> ReplyKeys[j] !in m
  {
    if "error" in m then Some(0)
    else if "description" in m then Some(1)
    else if "forecast" in m then Some(2)
    else if "result" in m then Some(3)
    else None
  }

  /** The tool's answer as read from the endpoint's reply: no reply gives a
      fixed text; otherwise the first key present among error, description,
      forecast and result decides; with none of them the whole map is
      rendered. An error entry still counts as an answer. */
  function Interpret(reply: Option<Reply>, renderMap: Reply -> string): (r: Result<Option<string>, Throwable>)
    ensures reply.None? ==> r == Success(Some("No response from tool"))
    ensures reply.Some? && FirstKey(reply.value).None? ==> r == Success(Some(renderMap(reply.value)))
    ensures reply.Some? && FirstKey(reply.value) == Some(0) ==> r == Success(Some("Error: " + Render(reply.value["error"])))
    ensures reply.Some? && FirstKey(reply.value) == Some(1) ==> r == CastToString(reply.value["description"])
    ensures reply.Some? && FirstKey(reply.value) == Some(2) ==> r == CastToString(reply.value["forecast"])
    ensures reply.Some? && FirstKey(reply.value) == Some(3) ==> r == Success(Some(Render(reply.value["result"])))
    ensures r.Failure? ==> r.error.kind == ClassCast
  {
    match reply
    case None => Success(Some("No response from tool"))
    case Some(m) =>
      if "error" in m then Success(Some("Error: " + Render(m["error"])))
      else if "description" in m then CastToString(m["description"])
      else if "forecast" in m then CastToString(m["forecast"])
      else if "result" in m then Success(Some(Render(m["result"])))
      else Success(Some(renderMap(m)))
  }

  /** Only the highest-priority key present matters: two replies that agree
      on it (and on the rendering when no key is present) read the same. */
  lemma InterpretByFirstKey(m1: Reply, m2: Reply, renderMap: Reply -> string)
    requires FirstKey(m1) == FirstKey(m2)
    requires FirstKey(m1).Some? ==> m1[ReplyKeys[FirstKey(m1).value]] == m2[ReplyKeys[FirstKey(m1).value]]
    requires FirstKey(m1).None? ==> renderMap(m1) == renderMap(m2)
    ensures Interpret(Some(m1), renderMap) == Interpret(Some(m2), renderMap)
  {
  }

  /** The tool HTTP endpoint: the base URL and the `n`-th POST of the task,
      which returns the reply map, null, or throws. */
  datatype Endpoint = Endpoint(
    baseUrl: string,
    post: (nat, string, map<string, JValue>) -> Result<Option<Reply>, Throwable>,
    renderMap: Reply -> string)

  /** The answer or exception of one tool call, and how many requests it made. */
  datatype Outcome = Outcome(result: Result<Option<string>, Throwable>, requests: nat)

  /** `executeToolByName`, as the `n`-th request of the task when it gets
      that far. */
  function ExecuteToolByName(p: Parsers, e: Endpoint, n: nat, name: string, params: string): (out: Outcome)
    ensures out.requests <= 1
    ensures ToolFromName(name).None? ==>
              out == Outcome(Failure(Throwable(IllegalArgument, Some("Unknown tool: " + name))), 0)
    ensures out.requests == 1 <==>
              ToolFromName(name).Some? && RequestBody(p, ToolFromName(name).value, ToolDirectives.ParseParams(params)).Success?
    ensures ToolFromName(name).Some? ==>
              var t := ToolFromName(name).value;
              var b := RequestBody(p, t, ToolDirectives.ParseParams(params));
              (b.Failure? ==> out.result == Failure(b.error)) &&
              (b.Success? ==>
                 var post := e.post(n, e.baseUrl + Path(t), b.value);
                 (post.Failure? ==> out.result == Failure(post.error)) &&
                 (post.Success? ==> out.result == Interpret(post.value, e.renderMap)))
  {
    var pm := ToolDirectives.ParseParams(params);
    match ToolFromName(name)
    case None => Outcome(Failure(Throwable(IllegalArgument, Some("Unknown tool: " + name))), 0)
    case Some(t) =>
      match RequestBody(p, t, pm)
      case Failure(err) => Outcome(Failure(err), 0)
      case Success(body) =>
        match e.post(n, e.baseUrl + Path(t), body)
        case Failure(err) => Outcome(Failure(err), 1)
        case Success(reply) => Outcome(Interpret(reply, e.renderMap), 1)
  }

  /** An unknown name fails the same way whatever the parsers and the
      endpoint would do: nothing is parsed or requested. */
  lemma UnknownToolTouchesNothing(p1: Parsers, e1: Endpoint, n1: nat, p2: Parsers, e2: Endpoint, n2: nat,
                                  name: string, params: string)
    requires ToolFromName(name).None?
    ensures ExecuteToolByName(p1, e1, n1, name, params) == ExecuteToolByName(p2, e2, n2, name, params)
  {
  }

  /** A reply carrying an error key is an answer, not an exception. */
  lemma ErrorReplyIsAnswer(p: Parsers, e: Endpoint, n: nat, t: Tool, params: string, m: Reply)
    requires RequestBody(p, t, ToolDirectives.ParseParams(params)).Success?
    requires e.post(n, e.baseUrl + Path(t), RequestBody(p, t, ToolDirectives.ParseParams(params)).value) == Success(Some(m))
    requires "error" in m
    ensures ExecuteToolByName(p, e, n, WireName(t), params).result == Success(Some("Error: " + Render(m["error"])))
  {
    NameRoundTrip(t);
  }
}

=== FILE: weather_tool.dfy ===
/** The simulated weather tool. Its randomness is a stream of draws: each
    reading takes one `nextInt(20)` for the temperature offset and one
    `nextInt(4)` for the condition, and the subset types below carry the
    bounds `Random.nextInt` guarantees. */
module WeatherTool {
  import opened Wrappers
  import opened JavaLang

  type TempDraw = n: nat | n < 20

  type ConditionDraw = n: nat | n < 4

  /** The two draws of one reading. */
  datatype Draw = Draw(temp: TempDraw, condition: ConditionDraw)

  const Degrees: string := "\U{00B0}C"

  /** Condition order of the current-weather reading. */
  const CurrentConditions: seq<string> := ["sunny", "cloudy", "partly cloudy", "rainy"]

  /** Condition order of a forecast line (the last two are swapped). */
  const ForecastConditions: seq<string> := ["sunny", "cloudy", "rainy", "partly cloudy"]

  const OutOfRange: string := "Forecast is available for 1 to 7 days only."

  /** The temperature a draw stands for: 15 plus the offset. */
  function Temperature(d: Draw): int {
    15 + d.temp
  }

  /** The current-weather sentence for a rendered location, temperature and condition. */
  function CurrentSentence(location: string, t: int, condition: string): string
    requires t >= 0
  {
    "The weather in " + location + " is currently " + Decimal(t) + Degrees + " and " + condition + "."
  }

  /** `getCurrentWeather`: never fails; the location (or "null") appears
      verbatim, the temperature lies in 15..34 and the condition is one of
      the four. */
  function CurrentWeather(location: Option<string>, d: Draw): (r: string)
    ensures exists t: int, c :: 15 <= t <= 34 && c in CurrentConditions &&
                                r == CurrentSentence(Str(location), t, c)
    ensures r[..15] == "The weather in " && r[15..15 + |Str(location)|] == Str(location)
  {
    var t := Temperature(d);
    var c := CurrentConditions[d.condition];
    var r := CurrentSentence(Str(location), t, c);
    assert r == "The weather in " + Str(location) + (" is currently " + Decimal(t) + Degrees + " and " + c + ".");
    r
  }

  /** The first line of a forecast. */
  function Header(days: nat, location: string): string {
    Decimal(days) + "-day forecast for " + location + ":\n"
  }

  /** Line `i` of a forecast for a given temperature and condition. */
  function DayLine(i: nat, t: nat, condition: string): string {
    "Day " + Decimal(i) + ": " + Decimal(t) + Degrees + ", " + condition + "\n"
  }

  /** The reference forecast body: one line per day, day `k + 1` made from draw `k`. */
  function ForecastLines(days: nat, draws: nat -> Draw): (lines: seq<string>)
    ensures |lines| == days
  {
    seq(days, k requires 0 <= k < days => DayLine(k + 1, Temperature(draws(k)), ForecastConditions[draws(k).condition]))
  }

  /** The forecast body up to day `i` is the body up to day `i - 1` and line `i`. */
  lemma ForecastStep(days: nat, draws: nat -> Draw, i: nat)
    requires 1 <= i <= days
    ensures Concat(ForecastLines(days, draws)[..i]) == Concat(ForecastLines(days, draws)[..i - 1]) + ForecastLines(days, draws)[i - 1]
  {
    var lines := ForecastLines(days, draws);
    assert lines[..i] == lines[..i - 1] + [lines[i - 1]];
    ConcatSnoc(lines[..i - 1], lines[i - 1]);
  }

  /** `getWeatherForecast`: outside 1..7 days the fixed message and no draw
      taken; otherwise the header and one line per day, taking one draw per
      day. */
  method Forecast(location: Option<string>, days: int, draws: nat -> Draw) returns (r: string, used: nat)
    ensures !(1 <= days <= 7) ==> r == OutOfRange && used == 0
    ensures 1 <= days <= 7 ==> used == days && r == Header(days, Str(location)) + Concat(ForecastLines(days, draws))
  {
    if days < 1 || days > 7 {
      return OutOfRange, 0;
    }
    var n: nat := days;
    var header := Header(n, Str(location));
    r := header;
    var acc := "";
    var i: nat := 1;
    while i <= n
      invariant 1 <= i <= n + 1
      invariant acc == Concat(ForecastLines(n, draws)[..i - 1])
    {
      var d := draws(i - 1);
      var line := DayLine(i, Temperature(d), ForecastConditions[d.condition]);
      ForecastStep(n, draws, i);
      acc := acc + line;
      i := i + 1;
    }
    assert ForecastLines(n, draws)[..n] == ForecastLines(n, draws);
    r := header + acc;
    used := n;
  }

  /** `line` is the forecast line for `day`, with a temperature in 15..34
      and one of the four conditions. */
  predicate LineFor(line: string, day: nat) {
    exists t: nat, c :: 15 <= t <= 34 && c in ForecastConditions && line == DayLine(day, t, c)
  }

  /** Each forecast line is for day k + 1, has a temperature in 15..34 and one
      of the four conditions. */
  lemma ForecastLineShape(days: nat, draws: nat -> Draw, k: nat)
    requires k < days
    ensures LineFor(ForecastLines(days, draws)[k], k + 1)
  {
    var d := draws(k);
    assert ForecastLines(days, draws)[k] == DayLine(k + 1, Temperature(d), ForecastConditions[d.condition]);
  }

  /** Decimal digits hold no line break. */
  lemma DecimalHasNoNewline(n: nat)
    ensures '\n' !in Decimal(n)
  {
  }

  /** A forecast line holds exactly one line break, at its end. */
  lemma DayLineOneNewline(i: nat, t: nat, c: string)
    requires c in ForecastConditions
    ensures Count(DayLine(i, t, c), '\n') == 1
  {
    DecimalHasNoNewline(i);
    DecimalHasNoNewline(t);
    assert '\n' !in c;
    var a := "Day " + Decimal(i) + ": " + Decimal(t) + Degrees + ", " + c;
    assert '\n' !in a;
    CountAbsent(a, '\n');
    CountAppend(a, "\n", '\n');
  }

  /** The body of a forecast holds exactly `days` lines. */
  lemma {:induction false} ForecastLineCount(days: nat, draws: nat -> Draw, n: nat)
    requires n <= days
    ensures Count(Concat(ForecastLines(days, draws)[..n]), '\n') == n
  {
    if n > 0 {
      var lines := ForecastLines(days, draws);
      ForecastLineCount(days, draws, n - 1);
      assert lines[..n] == lines[..n - 1] + [lines[n - 1]];
      ConcatSnoc(lines[..n - 1], lines[n - 1]);
      CountAppend(Concat(lines[..n - 1]), lines[n - 1], '\n');
      var d := draws(n - 1);
      DayLineOneNewline(n, Temperature(d), ForecastConditions[d.condition]);
    }
  }
}

=== FILE: web.dfy ===
/** The slice of Spring MVC the controllers use: a response is a status code
    and a body. A handler that lets an exception escape is modelled as a
    `Failure`; the framework then answers with its own error response. */
module Web {

  const Ok: nat := 200

  const BadRequest: nat := 400

  const NotFound: nat := 404

  const InternalServerError: nat := 500

  datatype Http<B> = Http(status: nat, body: B)
}

=== FILE: wrappers.dfy ===
/** Failure-compatible wrappers used throughout the model: `Option` stands in
    for a Java reference that may be null, `Result` for a call that either
    returns a value or throws. */
module Wrappers {

  datatype Option<+T> = None | Some(value: T) {

    predicate IsFailure() {
      None?
    }

    function PropagateFailure<U>(): Option<U>
      requires None?
    {
      None
    }

    function Extract(): T
      requires Some?
    {
      value
    }

    /** The value, or `default` when absent (Java's `getOrDefault`). */
    function GetOr(default: T): T {
      match this
      case Some(v) => v
      case None => default
    }
  }

  datatype Result<+T, +E> = Success(value: T) | Failure(error: E) {

    predicate IsFailure() {
      Failure?
    }

    function PropagateFailure<U>(): Result<U, E>
      requires Failure?
    {
      Failure(error)
    }

    function Extract(): T
      requires Success?
    {
      value
    }
  }

  /** Java's `Map.get`: the mapped value, or null for an absent key. */
  function Get<K, V>(m: map<K, Option<V>>, k: K): Option<V> {
    if k in m then m[k] else None
  }
}
